=== FILE: README.md ===
# Portfolio page scripts, modelled in Dafny

A personal portfolio site shows projects it fetches from a spreadsheet-backed
web app. It also shows a GitHub-style contribution calendar of those projects
and of their advancement events. This project models the logic behind that
page as pure Dafny functions, and proves what the page promises about it:

- **Calendar day keys** (`js/contribution-graph.js`). `extractISODate` turns
  a project's date field into a `YYYY-MM-DD` key. `toISODate` prints a local
  date. `new Date(key + 'T00:00:00')` reads a key back. Modules `Civil` and
  `DateKey`.
- **The activity index** (`buildActivityMap` and `addActivity`). Projects,
  advancement events and initial advancement rows are bucketed by day over a
  trailing 365-day window, with per-day de-duplication. Module `Activity`.
- **The calendar grid** (`getLevelFromCount`, the week grid, the per-column
  statistics, the month-start scan and the month headers). Modules `Grid`
  and `Months`.
- **The day dialog** (`js/contrib-modal.js`). This covers HTML escaping,
  the project cards and the `contrib:open` payload. Module `Modal`.
- **The project list** (`script.js`). This covers the five-second project
  cache, the category filter, the admin submission form, the auto-refresh
  timer and its tick. Module `Portfolio`.
- **The theme switch** (`js/theme-toggle.js`). This covers the light/dark
  toggle, its icon, the stored preference and the draggable position.
  Module `Theme`.
- **The description preview** (`js/tier2-visual-anchors.js`). Module
  `Truncate`.

Module `JsValues` holds the slice of JavaScript semantics these scripts use:
truthiness, `||`, `String(v)`, `trim`, `toLowerCase` and `Number(v) === 0`.

The host is a parameter: `Date.parse`, the text of a Date object and the
local time-zone offset. Times are integers in milliseconds. A day is an
integer counted from 1970-01-01.

Where the code has a bug, the model keeps two readings side by side:
`AsWritten` is what the code does and `Corrected` is what it evidently
means. The rest of the model (the grid, the headers, the tick) uses the
corrected reading. The findings table below pairs them.

Where the documented behaviour and the code disagree, the model
follows the code:

- The grid has trailing padding after today: `6 - weekday(today)` empty
  cells.
- Month header spans can share a column. In a full column (any column
  but the last), a month whose 1st falls on a Monday, Tuesday or
  Wednesday begins its header there, in a column that the previous
  month's header, from its own start, also covers. In the last column,
  which ends at today, such a month may hold no majority; its start then
  falls past the grid and it gets no header.
- The preview cut point is 100 characters. The doc comment says 120.

## Model

| member | source | states |
|---|---|---|
| JsValues.Or | js/contribution-graph.js:107-108 | `a \|\| b` is truthy iff either operand is, and it is one of the two operands |
| JsValues.Trim | js/contribution-graph.js:54 | trimming yields the slice of the text between its leading and trailing whitespace, with no whitespace left at either end |
| JsValues.TrimIdempotent | js/contribution-graph.js:115 | trimming trimmed text changes nothing |
| JsValues.ZerosAreZero | js/contribution-graph.js:173-174 | a count written as zeros, negated zeros or hex zeros converts to 0, so its row counts as an initial contribution |
| JsValues.BlankIsZero | js/contribution-graph.js:173-174 | a count of only whitespace converts to 0 |
| JsValues.NonZeroDigits | js/contribution-graph.js:173-174 | a decimal count with any non-zero digit does not convert to 0 |
| Civil.YearOf | js/contribution-graph.js:83 | the year of a day number is the unique year whose span of days contains it |
| Civil.DateOf | js/contribution-graph.js:82-86 | every day number has a valid calendar date that numbers back to it |
| Civil.DateOfDayNumber | js/contribution-graph.js:82-86 | a valid date numbered and converted back is the same date (the other half of the round trip) |
| Civil.DayNumberInjective | js/contribution-graph.js:82-86 | two valid dates with the same day number are equal |
| Civil.Weekday | js/contribution-graph.js:235 | `getDay()` is in 0..6 with Sunday 0, and 1970-01-01 is a Thursday |
| Civil.LocalDayBounds | js/contribution-graph.js:119 | every instant lies between its local day's midnight and the next day's midnight |
| DateKey.FoldDigits | js/contribution-graph.js:55-59 | each Arabic-Indic, Extended Arabic-Indic, NKo or Devanagari digit becomes the ASCII digit of the same value, and every other character stays |
| DateKey.FoldDigitsIdempotent | js/contribution-graph.js:55-59 | folding folded text changes nothing |
| DateKey.TrimFoldCommute | js/contribution-graph.js:54-59 | trimming then folding equals folding then trimming |
| DateKey.FastPathKey | js/contribution-graph.js:60-63 | a text starting with four digits, a separator, two digits, a separator and two digits gives those digits joined by dashes |
| DateKey.ParseKey | js/contribution-graph.js:119-120 | a key reads back as a day iff it is `YYYY-MM-DD` naming a real calendar date, and then gives that date's day number |
| DateKey.KeyMidnight | js/contribution-graph.js:119-120 | `new Date(key+'T00:00:00')` is valid iff the key parses, and is then local midnight of that day |
| DateKey.ParseKeyOfDay | js/contribution-graph.js:82-87 | printing a day with `toISODate` and reading the key back gives the same day (years 1000–9999) |
| DateKey.KeyOfParsedKey | js/contribution-graph.js:82-87 | a readable key without a leading zero, read and printed again, is the same text |
| DateKey.NumericInstant | js/contribution-graph.js:72-76 | a number below 1e12 is seconds and is scaled by 1000, a larger one is milliseconds, and the result exists iff it is within the Date range |
| DateKey.ProbeAll | js/contribution-graph.js:43-80 | the key is that of the first candidate field that yields one, and there is none iff no candidate yields one |
| DateKey.ProbeSkipsFalsy | js/contribution-graph.js:52 | a falsy field other than 0 is skipped, while 0 is read as the epoch |
| DateKey.ProbeIgnoresDigitScript | js/contribution-graph.js:55-59 | a date written in one of the four digit scripts gives the same key as its ASCII form |
| DateKey.FastPathIsHostIndependent | js/contribution-graph.js:60-64 | a text matching the leading-date pattern gets the same key on every host, whatever `Date.parse` does |
| DateKey.FastPathNoRangeCheck | js/contribution-graph.js:60-64 | the pattern does not check ranges: "2024/13/45 extra" gives the key "2024-13-45" |
| DateKey.OutOfRangeKeyUnreadable | js/contribution-graph.js:119-120 | the key "2024-13-45" does not read back as a day |
| DateKey.SecondsAndMillisAgree | js/contribution-graph.js:72-76 | a timestamp in seconds from 1e9 on, and the same instant in milliseconds, give the same key |
| DateKey.SmallMillisReadAsSeconds | js/contribution-graph.js:74 | any positive number below 1e12 is read as seconds |
| DateKey.ProbeOfKeyText | js/contribution-graph.js:60-64 | a field that already holds a `YYYY-MM-DD` key yields that key unchanged |
| DateKey.TextAndDateObjectAgree | js/contribution-graph.js:53-71 | a key text and a Date object on that local day give the same key |
| Activity.AddToList | js/contribution-graph.js:99-112 | the record is appended iff no record of the day duplicates it, and the list is otherwise unchanged |
| Activity.AddActivity | js/contribution-graph.js:99-112 | no key means no change, and otherwise only that day's list changes, by AddToList or by becoming `[proj]` |
| Activity.DuplicateSymmetric | js/contribution-graph.js:103-110 | being a duplicate is symmetric |
| Activity.DistinctIdsNeverDuplicate | js/contribution-graph.js:105 | two records with ids of different text are never duplicates, whatever their names |
| Activity.NamelessIsNeverDuplicate | js/contribution-graph.js:107-109 | a record with neither id nor name is always appended |
| Activity.AddToListKeepsDistinct | js/contribution-graph.js:99-112 | a duplicate-free day stays duplicate-free, and afterwards holds the record or a duplicate of it |
| Activity.AddActivityKeepsWellFormed | js/contribution-graph.js:99-112 | every day's list stays duplicate-free |
| Activity.WindowStart | js/contribution-graph.js:91-93 | as written the window starts exactly 364×24 h before now; corrected it starts at local midnight of today-364 |
| Activity.WindowDays | js/contribution-graph.js:91-93 | a day's midnight is admitted iff the day is within the last 364 days, or is today-364 and the build runs at midnight (as written) or always (corrected) |
| Activity.IndexName | js/contribution-graph.js:115 | the name a project is indexed under is trimmed, and a non-text name throws |
| Activity.AdvancementEntry | js/contribution-graph.js:147-149 | an advancement adds the project of its lower-cased name if there is one, and otherwise a marker record |
| Activity.LookupEntry | js/contribution-graph.js:147 | as written, a name of an inherited object member finds that member; every other name, and every name when corrected, finds the indexed project or the marker |
| Activity.BuildKeepsInvariant | js/contribution-graph.js:89-182 | after all three loops every day's list is duplicate-free and every key is one the window admits |
| Activity.CorrectedWindowIsGridWindow | js/contribution-graph.js:91-93 | corrected, every stored key is a real day from today-364 to today, the days the grid shows |
| Activity.AsWrittenWindow | js/contribution-graph.js:121 | as written, a readable stored key is from today-364 to today, and is today-364 only when the build runs at local midnight |
| Activity.ProjectKeysReadable | js/contribution-graph.js:117-120 | the project loop stores only keys that read back as real days |
| Activity.OutOfRangeProjectDropped | js/contribution-graph.js:117-120 | a project dated "2024-13-45" is not stored |
| Activity.OnlyInitialRowsCount | js/contribution-graph.js:172-179 | advancement rows contribute exactly as the rows whose count converts to 0 do |
| Activity.ProjectsIndex | js/contribution-graph.js:114-116 | after the project loop, a name finds the last project indexed under it |
| Activity.AdvancementMatchesLastProject | js/contribution-graph.js:147-148 | an advancement adds the last project bearing its lower-cased name, and otherwise a marker |
| Activity.ConstructorNameFindsObject | js/contribution-graph.js:147 | as written, an advancement named "Constructor" finds the `Object` function; corrected, it adds its marker |
| Activity.SingleProjectBuild | js/contribution-graph.js:114-123 | a single readable project is stored under its key iff the window admits its day's midnight |
| Activity.AsWrittenMissesFirstDay | js/contribution-graph.js:91-93 | as written, a project dated today-364 is dropped unless the build runs at midnight; corrected, it is kept |
| Activity.AsWrittenKeepsInvalidDate | js/contribution-graph.js:135-136 | as written, an advancement dated by an Invalid Date is stored under "NaN-NaN-NaN"; corrected, it is dropped |
| Grid.LevelFromCount | js/contribution-graph.js:184-190 | the level is between 0 and 4 |
| Grid.LevelIsClampedCount | js/contribution-graph.js:184-190 | the level is the count clamped to 0..4, and is 0 exactly for non-positive counts |
| Grid.LevelMonotone | js/contribution-graph.js:184-190 | more activity never gives a lower level |
| Grid.FirstGridDay | js/contribution-graph.js:233-236 | the grid starts on the Sunday on or before today-364 |
| Grid.WeekCount | js/contribution-graph.js:238-240 | the grid always has 53 week columns |
| Grid.CursorWeekday | js/contribution-graph.js:245-249 | cell i of the walk falls on weekday i mod 7, so it lands in row i mod 7 of column i div 7 |
| Grid.CellAt | js/contribution-graph.js:250-255 | a cell holds its day iff the day is within today-364..today |
| Grid.FillGrid | js/contribution-graph.js:242-256 | the loop builds exactly the layout of 53 columns of 7 cells given by CellAt |
| Grid.PositionsDated | js/contribution-graph.js:245-256 | the dated cells are the 365 consecutive positions from the start weekday on |
| Grid.ThreeSixtyFiveDays | js/contribution-graph.js:228-256 | the grid shows exactly 365 days and 6 empty cells in all |
| Grid.ShowDay | js/contribution-graph.js:351-366 | a day cell shows its key, the number of records stored under it and the level of that number, and is pinned iff the count is positive |
| Grid.PinnedIffShaded | js/contribution-graph.js:355-360 | a day is pinned iff its level is above 0 |
| Grid.RecentMeansLastWeek | js/contribution-graph.js:362-366 | a day is marked recent iff it is pinned and within the last seven days |
| Grid.WindowKeysAreShown | js/contribution-graph.js:351-357 | every key of an index of window days is the key of its day's cell, which counts all of its records |
| Grid.StoredDaysAreShown | js/contribution-graph.js:351-357 | every day the corrected index stores is a dated cell that counts all of that day's records |
| Months.CountsPartition | js/contribution-graph.js:294-298 | a column's count of the new month plus its count of other months is its number of dates |
| Months.Day1 | js/contribution-graph.js:271-273 | a column's day-1 month exists iff the column holds a 1st, and is that 1st's month |
| Months.FirstDated | js/contribution-graph.js:280-281 | the first dated column is the first column from w on with any date |
| Months.SortSortsAndPermutes | js/contribution-graph.js:310 | sorting by start gives a permutation in ascending start order |
| Months.SortKeepsSorted | js/contribution-graph.js:310 | sorting an ascending list changes nothing |
| Months.SortChangesNothing | js/contribution-graph.js:310 | the scan already yields its starts in order, so the sort keeps them as they are |
| Months.MonthStartsShape | js/contribution-graph.js:279-310 | the starts ascend, lie within the grid, have distinct months, begin with the seed, and each later one is for a column's day-1 month at that column or the next |
| Months.MonthStartsComplete | js/contribution-graph.js:287-307 | every month whose first 1st lies in a dated column gets a start at the column the majority rule picks, unless that column is past the last |
| Months.RunIsMaximal | js/contribution-graph.js:317-321 | the span covers the columns that hold the month and stops at the first that does not |
| Months.RunCovers | js/contribution-graph.js:317-321 | a span covers every column of an unbroken run of the month |
| Months.LabelDay | js/contribution-graph.js:323-326 | the label date exists iff a column of the span holds a date |
| Months.HeaderOfEntry | js/contribution-graph.js:313-330 | a start gets a header iff its column holds its month; the header spans the maximal run and is labelled with the start column's first month as written, or the start's month when corrected |
| Months.CorrectedLabelNamesMonth | js/contribution-graph.js:313-330 | corrected, every header names the month of its start, and that start's column holds the month |
| Months.Columns | js/contribution-graph.js:264-270 | a column's dates are the grid column's non-empty cells, in row order |
| Months.FirstColumnSeeds | js/contribution-graph.js:279-285 | on the real grid the first column is dated, and the seed is today-364's month at column 0 |
| Months.MidweekMonthMislabelled | js/contribution-graph.js:323-327 | on the real grid, in a full column (any column but the last), a month starting Monday to Wednesday starts its header at its 1st's column; as written the label is the previous month, and corrected it is the month itself |
| Months.ColumnSpan | js/contribution-graph.js:245-256 | column i of the real grid lists, in row order, exactly the days of its week inside the window: only column 0 misses leading rows and only the last column trailing ones |
| Months.FirstInColumn | js/contribution-graph.js:266-274 | on the real grid, the one 1st in a column is that column's day-1 month |
| Months.SeedStart | js/contribution-graph.js:279-285 | today-364's month is among the final month starts, at column 0 |
| Months.PushedStart | js/contribution-graph.js:287-307 | on the real grid, a month whose 1st falls after the start day, before the last column, is among the final month starts, at its 1st's column or the next |
| Months.NewMonthStart | js/contribution-graph.js:287-307 | on the real grid, a month whose 1st lies in column w and holds the majority there is among the final month starts at w |
| Months.MonthHoldsColumns | js/contribution-graph.js:317-321 | a month running from a day at or before column s to a day in column w spans every column from s to w |
| Months.ColumnMonthStart | js/contribution-graph.js:279-321 | when a later month begins Monday to Wednesday in a full column, the month of the column's first cell has a final start at or before it, and its span from there reaches the column |
| Months.MidweekSpansShareColumn | js/contribution-graph.js:279-330 | on the real grid, when a month begins Monday to Wednesday in a full column, both it and the previous month are among the final month starts; its header starts at that column, and the previous month's header, from its own start, also covers the column |
| Modal.Entity | js/contrib-modal.js:78-79 | the five special characters become entities and every other character stays |
| Modal.EscapeText | js/contrib-modal.js:76-81 | escaped text contains no `<`, `>`, `"` or `'`, has an entity at every `&`, and decodes back to the original text |
| Modal.EscapeHtml | js/contrib-modal.js:76-81 | a falsy value gives empty text, and anything else gives safe markup that decodes to `String(v)` |
| Modal.EscapeConcat | js/contrib-modal.js:76-81 | escaping works character by character: escaping a concatenation concatenates the escapes |
| Modal.PlainTextUnchanged | js/contrib-modal.js:76-81 | text without special characters is left as it is |
| Modal.OneCharacter | js/contrib-modal.js:78-79 | escaping one character gives its entity |
| Modal.ReplaceQuotes | js/contrib-modal.js:84 | text without `"` is left as it is |
| Modal.EscapeAttr | js/contrib-modal.js:83-85 | the attribute escape equals the HTML escape, since escaped text holds no `"` left to replace |
| Modal.Heading | js/contrib-modal.js:46 | the card heading value is always truthy |
| Modal.HeadingFallback | js/contrib-modal.js:46 | the heading shows `name`, else `'Project Name'`, else "(untitled)" |
| Modal.CardOf | js/contrib-modal.js:45-49 | every card text is safe; the status badge and the link appear iff those fields are truthy, and decode to their text |
| Modal.Open | js/contrib-modal.js:31-54 | no items gives the "No projects" body, and otherwise one card per item, in order |
| Modal.OnContribOpen | js/contrib-modal.js:90-95 | the title is the payload's date or empty; the cards are those of `projects` when it is a non-empty array, and otherwise none |
| Modal.DialogIsSafe | js/contrib-modal.js:45-49 | whatever the payload, every piece of project text the dialog writes into markup is safe |
| Portfolio.LoadProjects | script.js:113-148 | a fresh cache is returned as is; otherwise the network is asked iff a container exists; a success returns and caches the body's projects, or `[]` when they are falsy, and only a success replaces the cache; a failure or a missing container gives `[]`; the failure message shows iff a request failed |
| Portfolio.CachedListReused | script.js:114-116 | every non-forced call within five seconds of a successful fetch reuses its list without a request |
| Portfolio.ForcedLoadRequests | script.js:34 | a forced load on a page with a container always asks the network |
| Portfolio.FilterByCategory | script.js:160-163 | "All" shows every project, and any other button text shows only projects of that trimmed category |
| Portfolio.FilterIsOrderedSelection | script.js:160-163 | the filter keeps exactly the projects of the category, in list order |
| Portfolio.Validate | script.js:60-71 | a submission is accepted iff all four trimmed inputs are non-empty; it carries the trimmed inputs and status "pending"; otherwise the error is the fill-in message |
| Portfolio.ValidateIdempotent | script.js:60-71 | validating an accepted submission again gives the same submission |
| Portfolio.AddProject | script.js:89-110 | outside the admin panel it refuses; inside, the request is `addProject` with the data iff the network delivered it, and otherwise the failure message |
| Portfolio.Submit | script.js:53-81 | a notice appears iff the form exists in the admin panel; it is a success iff the data is valid and delivered; invalid data shows the fill-in message |
| Portfolio.Start | script.js:251-252 | starting leaves a timer held and keeps a running timer as it is |
| Portfolio.Stop | script.js:278-283 | stopping leaves no timer held and clears the running interval |
| Portfolio.StopThenStart | script.js:25-40 | stopping and starting again leaves exactly one interval running |
| Portfolio.AtMostOneInterval | script.js:25-40 | however often the tab is hidden and shown, at most one interval runs, and it is the one the page holds |
| Portfolio.NotificationNeverFires | script.js:261-268 | as written the removal notification never fires |
| Portfolio.RemovalGoesUnannounced | script.js:261-268 | as written, three projects dropping to none redraw the list without a notification |
| Portfolio.TickCount | script.js:258-268 | corrected, the list is redrawn iff the count changed, and the notification fires iff the count fell |
| Portfolio.TicksAgreeButForNotice | script.js:258-268 | the two ticks differ only in the notification, and exactly when the count fell |
| Portfolio.Tick | script.js:254-274 | corrected, one interval run loads without forcing, records the new count, redraws on a change and notifies on a drop |
| Portfolio.QuietTickWithinCache | script.js:254-274 | within five seconds of a fetch a tick changes nothing |
| Theme.IconFor | js/theme-toggle.js:117-119 | the sun shows iff the theme is dark, and the moon otherwise |
| Theme.Restore | js/theme-toggle.js:21-27 | a non-empty saved theme is applied with its icon, and otherwise the markup's theme and icon stay |
| Theme.Toggle | js/theme-toggle.js:108-115 | dark becomes light and anything else becomes dark; the new theme is stored and its icon shown |
| Theme.ToggleTwice | js/theme-toggle.js:108-115 | from dark or light two toggles come back, and from no theme they go to dark and then light |
| Theme.ReloadAfterToggle | js/theme-toggle.js:21-27 | after a toggle, a reload restores exactly what the page shows |
| Theme.Load | js/theme-toggle.js:29-34 | a saved position becomes the switch's offset |
| Theme.DragStart | js/theme-toggle.js:59-70 | a press starts a drag with the pointer at the initial point plus the offset |
| Theme.DragMove | js/theme-toggle.js:72-89 | a move outside a drag changes nothing; during one the offset puts the switch under the pointer |
| Theme.DragEnd | js/theme-toggle.js:91-102 | a release ends the drag and stores the current offset |
| Theme.DragFollowsPointer | js/theme-toggle.js:59-89 | after a press and a path, the switch has moved by the pointer's total movement |
| Theme.IdleMovesChangeNothing | js/theme-toggle.js:73 | pointer movement with no drag on changes nothing |
| Theme.PositionSurvivesReload | js/theme-toggle.js:29-34 | where a drag leaves the switch is where the next load puts it |
| Theme.DragAlsoToggles | js/theme-toggle.js:37-41 | as written, a drag that moves the switch also flips the theme |
| Theme.Click | js/theme-toggle.js:37-41 | corrected, a click toggles only when no drag moved the switch |
| Theme.ClickOnlyWithoutMove | js/theme-toggle.js:37-41 | corrected, a press, path and release toggle iff the pointer never left the press point |
| Truncate.Shown | js/tier2-visual-anchors.js:63-71 | text of at most 100 characters once trimmed is left as it was; longer text becomes its first 100 characters, trimmed, then "...", and only whitespace is cut between them |
| Truncate.PreviewTrimsToItself | js/tier2-visual-anchors.js:63-70 | a preview has no whitespace at either end |
| Truncate.ShownStartsLikeText | js/tier2-visual-anchors.js:63-70 | the shown text starts with the same characters as the trimmed original |

## Left out

- The DOM, `fetch`, `localStorage`, timers and the clock. Each becomes a parameter or a field of a state record. `hasContainer` stands for the container lookup, `outcome` for the network result, `now` and `doneAt` for `Date.now()`, and `delivered` for whether the `no-cors` POST went out.
- Rendering: the spinner, card markup, notification elements and their animations, the cursor style, `setTranslate`, focus and the modal's close and keyboard handlers. None of them decide anything the model states.
- Months.MidweekMonthMislabelled: stated for full columns only. In the last column, which ends at today, a midweek 1st can miss the majority. Its start is then `weeks`, and lines 304-305 drop it. No lemma states that case.
- The theme switch's keyboard handler (`js/theme-toggle.js:44-49`). It only calls `toggleTheme`, which `Theme.Toggle` models.
- `Date.parse` on free text and the text of a Date object are host functions left uninterpreted (`Host.parse`, `Host.dateText`). Only the ECMAScript date-only form `YYYY-MM-DD` used by `new Date(key + 'T00:00:00')` is interpreted.
- `DateKey.ParseKey`: rejects keys that are not real calendar dates, such as "2024-02-30". The ECMAScript format requires this, but some engines roll such keys over to the next month. That behaviour depends on the host and is not modelled.
- Local time is UTC plus one fixed offset (`Host.tz`). Daylight-saving changes are not modelled.
- `JsValues.Value`: numbers are integers only. Fractions, NaN, ±Infinity, `-0` and the exponent forms of `String(n)` are not modelled. Arrays and objects as field values are not modelled either, except the Date objects the date fields may hold.
- `JsValues.Lower`: folds only the ASCII letters A–Z, while `toLowerCase` folds every cased letter. Names such as "École" and "école" therefore count as duplicates in the page but not in the model.
- `Activity.AddActivity`: the name fallback of the duplicate test uses the ASCII-only `Lower`.
- `Activity.AdvancementMatchesLastProject`: uses the ASCII-only `Lower`. For `AsWritten` it also requires the name not to be an inherited member's name. That case is stated by `Activity.LookupEntry` and shown by `Activity.ConstructorNameFindsObject`.
- `Activity.LookupEntry`: of the members every plain object inherits, it covers `constructor` and `__proto__`. Other `Object.prototype` names (`toString`, `hasOwnProperty`, …) cannot arise, because the lookup key is lower-cased and those names contain capitals.
- The assignment `projectsByName['__proto__'] = project` (`js/contribution-graph.js:116`) replaces the index object's prototype instead of adding an entry. The model stores the project under "__proto__" like any other name.
- Month header labels are month numbers. `toLocaleString(undefined, { month: 'short' })` depends on the locale and is not modelled.
- `Truncate.Shown`: lengths count characters. JavaScript counts UTF-16 code units, so text outside the Basic Multilingual Plane is cut at a different place.
- `Theme`: pointer coordinates are integers. Browsers report them as fractional CSS pixels.
- `Modal.OnContribOpen`: a `projects` value that is neither an array nor absent is read as "not an array". Array items are assumed to be records.
- `Portfolio.LoadProjects`: `data.data.projects || []` models only a list or a falsy value. Any other truthy value is not modelled.

## Findings

| source | as written | input that shows it | evidently intended | confidence | as-written member | corrected member |
|---|---|---|---|---|---|---|
| script.js:261-268 | `lastProjectCount` is overwritten before `currentCount < lastProjectCount` is tested, so the test is always false | 3 projects before a tick, 0 after | announce that projects were removed when the count falls | high; not executed | Portfolio.NotificationNeverFires | Portfolio.TickCount |
| js/contribution-graph.js:323-327 | the label is the month of the start column's first date | a month whose 1st falls on a Monday, Tuesday or Wednesday | label each header with its own month | high; not executed | Months.MidweekMonthMislabelled | Months.CorrectedLabelNamesMonth |
| js/contribution-graph.js:91-93 | the window start keeps the current time of day, so today-364 at midnight lies before it | a project dated today-364 while the page loads at any time after midnight | count every day the grid shows, including today-364 | high; not executed | Activity.AsWrittenMissesFirstDay | Activity.CorrectedWindowIsGridWindow |
| js/contribution-graph.js:135-136 | the advancement paths skip the `isNaN` check, and an Invalid Date passes both window comparisons | an advancement whose `date` is `new Date('x')` | drop unreadable dates, as the project loop does | medium (needs a caller passing Date objects); not executed | Activity.AsWrittenKeepsInvalidDate | Activity.CorrectedWindowIsGridWindow |
| js/contribution-graph.js:147 | `projectsByName` is a plain object, so inherited members are found by name | an advancement named "Constructor" with no such project | find only projects stored under the name | medium; not executed | Activity.ConstructorNameFindsObject | Activity.AdvancementMatchesLastProject |
| js/theme-toggle.js:37-41 | `click` fires after the `mouseup` that ends the drag, so `isDragging` is already false | press the switch, move it, release | move the switch without flipping the theme | medium (depends on click dispatch after a drag); not executed | Theme.DragAlsoToggles | Theme.ClickOnlyWithoutMove |

=== FILE: activity.dfy ===
/** The activity index of the contribution calendar (`buildActivityMap` in
    js/contribution-graph.js): projects, advancement events and advancement
    rows bucketed by day key over a trailing window of 365 days, with
    per-day de-duplication (`addActivity`).

    Two readings of the window are modelled side by side. `AsWritten` keeps
    the time of day in the window start and lets an Invalid Date through the
    advancement paths, as the code does; `Corrected` starts the window at
    local midnight of today-364, which is the first day the calendar grid
    shows, and drops unreadable advancement keys the way the project path
    already does.
 */
module Activity {
  import opened JsValues
  import opened Civil
  import opened DateKey

  /** Day key to the records stored for that day, in insertion order. */
  type ActivityMap = map<string, seq<Record>>

  /** Project lookup by lower-cased trimmed name. */
  type NameIndex = map<string, Record>

  /** Which reading of the code a definition follows: `AsWritten` is the
      code's behaviour, `Corrected` the behaviour its authors evidently
      intended (see the findings in README.md). */
  datatype Policy = AsWritten | Corrected

  const TrimError: string := "TypeError: trim is not a function"

  // ------------------------------------------------------------ addActivity

  /** The name `addActivity` compares: `name`, else `'Project Name'`, else
      `projectName`, converted to text, trimmed and lower-cased. */
  function DedupName(host: Host, r: Record): string {
    var v := Or(Or(Or(Get(r, "name"), Get(r, "Project Name")), Get(r, "projectName")), Str(""));
    Lower(Trim(Text(host, v)))
  }

  /** Two records denote the same activity: equal ids when both have a
      truthy id, otherwise equal non-empty names. */
  predicate IsDuplicate(host: Host, existing: Record, proj: Record) {
    if Truthy(Get(existing, "id")) && Truthy(Get(proj, "id")) then
      Text(host, Get(existing, "id")) == Text(host, Get(proj, "id"))
    else
      DedupName(host, existing) != "" && DedupName(host, existing) == DedupName(host, proj)
  }

  /** Whether some entry of l is a duplicate of proj (`list.some`). */
  predicate HasDuplicate(host: Host, l: seq<Record>, proj: Record) {
    exists i :: 0 <= i < |l| && IsDuplicate(host, l[i], proj)
  }

  /** The entries of a day's list are pairwise distinct activities. */
  predicate NoDuplicates(host: Host, l: seq<Record>) {
    forall i, j :: 0 <= i < j < |l| ==> !IsDuplicate(host, l[i], l[j])
  }

  /** A well-formed index: every stored day has at least one entry and no
      two of its entries are duplicates. */
  predicate WellFormed(host: Host, m: ActivityMap) {
    forall k :: k in m ==> |m[k]| > 0 && NoDuplicates(host, m[k])
  }

  /** Appends proj unless it duplicates an entry already there. */
  function AddToList(host: Host, l: seq<Record>, proj: Record): (r: seq<Record>)
    ensures |l| <= |r| <= |l| + 1 && r[..|l|] == l
    ensures |r| == |l| + 1 <==> !HasDuplicate(host, l, proj)
    ensures |r| == |l| + 1 ==> r[|l|] == proj
  {
    if HasDuplicate(host, l, proj) then l else l + [proj]
  }

  /** `addActivity(iso, proj)`: nothing happens without a key. */
  function AddActivity(host: Host, m: ActivityMap, key: Option<string>, proj: Record): (r: ActivityMap)
    ensures key.None? ==> r == m
    ensures key.Some? ==> r.Keys == m.Keys + {key.value}
    ensures forall k :: k in m && key != Some(k) ==> r[k] == m[k]
    ensures key.Some? && key.value in m ==> r[key.value] == AddToList(host, m[key.value], proj)
    ensures key.Some? && key.value !in m ==> r[key.value] == [proj]
  {
    match key
    case None => m
    case Some(k) => m[k := AddToList(host, if k in m then m[k] else [], proj)]
  }

  /** Duplicate detection looks at both records the same way round. */
  lemma DuplicateSymmetric(host: Host, a: Record, b: Record)
    ensures IsDuplicate(host, a, b) == IsDuplicate(host, b, a)
  {
  }

  /** Two records with truthy ids whose texts differ are never duplicates,
      whatever their names. */
  lemma DistinctIdsNeverDuplicate(host: Host, a: Record, b: Record)
    requires Truthy(Get(a, "id")) && Truthy(Get(b, "id"))
    requires Text(host, Get(a, "id")) != Text(host, Get(b, "id"))
    ensures !IsDuplicate(host, a, b)
  {
  }

  /** A record without a usable name and without an id is never a
      duplicate of anything, so each such record gets its own entry. */
  lemma NamelessIsNeverDuplicate(host: Host, l: seq<Record>, proj: Record)
    requires !Truthy(Get(proj, "id")) && DedupName(host, proj) == ""
    ensures !HasDuplicate(host, l, proj)
    ensures AddToList(host, l, proj) == l + [proj]
  {
  }

  /** Adding keeps a list free of duplicates, keeps its entries in place,
      and leaves proj represented: present itself or by a duplicate. */
  lemma AddToListKeepsDistinct(host: Host, l: seq<Record>, proj: Record)
    requires NoDuplicates(host, l)
    ensures NoDuplicates(host, AddToList(host, l, proj))
    ensures exists i :: 0 <= i < |AddToList(host, l, proj)| &&
              (AddToList(host, l, proj)[i] == proj || IsDuplicate(host, AddToList(host, l, proj)[i], proj))
  {
    var r := AddToList(host, l, proj);
    if HasDuplicate(host, l, proj) {
      var i :| 0 <= i < |l| && IsDuplicate(host, l[i], proj);
      assert r[i] == l[i];
    } else {
      assert r[|l|] == proj;
      forall i, j | 0 <= i < j < |r|
        ensures !IsDuplicate(host, r[i], r[j])
      {
        if j == |l| {
          assert r[i] == l[i];
        }
      }
    }
  }

  /** `addActivity` keeps the whole index well-formed. */
  lemma AddActivityKeepsWellFormed(host: Host, m: ActivityMap, key: Option<string>, proj: Record)
    requires WellFormed(host, m)
    ensures WellFormed(host, AddActivity(host, m, key, proj))
  {
    if key.Some? {
      var k := key.value;
      if k in m {
        AddToListKeepsDistinct(host, m[k], proj);
      }
    }
  }

  // ------------------------------------------------------------ the window

  /** The window start: now minus 364 days as written, local midnight of
      today-364 when corrected. */
  function WindowStart(policy: Policy, tz: int, now: int): (start: int)
    ensures policy.AsWritten? ==> start == now - 364 * MsPerDay
    ensures policy.Corrected? ==> LocalDay(tz, start) == LocalDay(tz, now) - 364
  {
    match policy
    case AsWritten => now - 364 * MsPerDay
    case Corrected => Midnight(tz, LocalDay(tz, now) - 364)
  }

  /** `if (dt < start || dt > today) return;` keeps a record; an Invalid
      Date compares false both ways and is kept. */
  predicate Admitted(start: int, now: int, at: Option<int>) {
    match at
    case None => true
    case Some(t) => start <= t <= now
  }

  /** Which local days the window admits, at their midnights. */
  lemma WindowDays(policy: Policy, tz: int, now: int, d: int)
    ensures var start := WindowStart(policy, tz, now);
            var today := LocalDay(tz, now);
            start <= Midnight(tz, d) <= now <==>
              (today - 364 < d <= today) || (d == today - 364 && (policy.Corrected? || now == Midnight(tz, today)))
  {
    LocalDayBounds(tz, now);
  }

  // ------------------------------------------------------------ projects

  /** The name a project is indexed under: `name`, else `'Project Name'`,
      else `'Project'`, trimmed; a non-string value makes `trim` throw. */
  function IndexName(p: Record): (r: Result<string>)
    ensures r.Ok? ==> Trim(r.value) == r.value
  {
    var v := Or(Or(Or(Get(p, "name"), Get(p, "Project Name")), Get(p, "Project")), Str(""));
    if v.Str? then TrimIdempotent(v.s); Ok(Trim(v.s)) else Err(TrimError)
  }

  /** Index and activity map as the loops leave them. */
  datatype State = State(index: NameIndex, days: ActivityMap)

  /** A project's part in the name index: stored under its lower-cased
      name when that is not empty. */
  function IndexStep(index: NameIndex, p: Record): Result<NameIndex> {
    match IndexName(p)
    case Err(e) => Err(e)
    case Ok(name) => Ok(if name != "" then index[Lower(name) := p] else index)
  }

  /** A project's part in the activity map: added under its date key when
      that key is a real day inside the window. */
  function DaysStep(policy: Policy, host: Host, now: int, days: ActivityMap, p: Record): ActivityMap {
    DaysStepUnder(policy, host, now, days, p, ExtractISODate(host, p))
  }

  /** The days half of a project step, given the project's date key. */
  function DaysStepUnder(policy: Policy, host: Host, now: int, days: ActivityMap, p: Record, key: Option<string>): ActivityMap {
    var at := if key.Some? then KeyMidnight(host, key.value) else None;
    if at.Some? && Admitted(WindowStart(policy, host.tz, now), now, at) then AddActivity(host, days, key, p)
    else days
  }

  /** One project: index it by name, then add it under its date key. */
  function ProjectStep(policy: Policy, host: Host, now: int, st: State, p: Record): Result<State> {
    match IndexStep(st.index, p)
    case Err(e) => Err(e)
    case Ok(index) => Ok(State(index, DaysStep(policy, host, now, st.days, p)))
  }

  function Projects(policy: Policy, host: Host, now: int, st: State, ps: seq<Record>): Result<State>
    decreases |ps|
  {
    if |ps| == 0 then Ok(st)
    else match ProjectStep(policy, host, now, st, ps[0])
      case Err(e) => Err(e)
      case Ok(st') => Projects(policy, host, now, st', ps[1..])
  }

  // ------------------------------------------------------------ advancements

  /** The record an advancement adds: the project of that name, else a
      marker named after the advancement. */
  function AdvancementEntry(index: NameIndex, rawName: string): (r: Record)
    ensures Lower(rawName) in index ==> r == index[Lower(rawName)]
    ensures Lower(rawName) !in index ==> r == Marker(rawName)
  {
    var lower := Lower(rawName);
    if lower in index then index[lower] else Marker(rawName)
  }

  /** The lower-case names every plain object inherits a member under. */
  const InheritedMembers: set<string> := {"constructor", "__proto__"}

  /** The properties `addActivity` reads (`id`, `name`, `'Project Name'`,
      `projectName`) of an inherited member: the `Object` function, whose
      `name` is "Object", and `Object.prototype`, which has none of them. */
  function InheritedRecord(member: string): Record {
    if member == "constructor" then map["name" := Str("Object")] else map[]
  }

  /** `projectsByName[rawName.toLowerCase()] || null`, then the marker when
      nothing matched. As written the index is a plain object, so the names
      of inherited members find those members; corrected, only projects
      stored under the name are found. */
  function LookupEntry(policy: Policy, index: NameIndex, rawName: string): (r: Record)
    ensures policy.Corrected? ==> r == AdvancementEntry(index, rawName)
    ensures policy.AsWritten? && Lower(rawName) in InheritedMembers && Lower(rawName) !in index ==>
              r == InheritedRecord(Lower(rawName))
    ensures Lower(rawName) !in InheritedMembers || Lower(rawName) in index ==> r == AdvancementEntry(index, rawName)
  {
    var lower := Lower(rawName);
    if policy.AsWritten? && lower !in index && lower in InheritedMembers then InheritedRecord(lower)
    else AdvancementEntry(index, rawName)
  }

  /** The record standing for an advancement with no matching project. */
  function Marker(rawName: string): Record {
    map["name" := Str(if rawName != "" then rawName else "(advancement)"),
        "_isAdvancementEvent" := Bool(true)]
  }

  /** The date field of an advancement: `date || Date || 'Date' || 'date'`. */
  function AdvancementDate(r: Record): Value {
    Or(Or(Or(Get(r, "date"), Get(r, "Date")), Get(r, "Date")), Get(r, "date"))
  }

  /** The trimmed project name of an advancement, or the `trim` error. */
  function TrimmedName(v: Value): Result<string> {
    var w := Or(v, Str(""));
    if w.Str? then Ok(Trim(w.s)) else Err(TrimError)
  }

  /** Whether the window admits a key read back as a local midnight. The
      code lets an unreadable key through on the advancement paths; the
      corrected reading drops it. */
  predicate KeyAdmitted(policy: Policy, host: Host, now: int, key: string) {
    var at := KeyMidnight(host, key);
    (policy.AsWritten? || at.Some?) && Admitted(WindowStart(policy, host.tz, now), now, at)
  }

  function EventStep(policy: Policy, host: Host, now: int, st: State, ev: Record): Result<State> {
    var nameValue := Or(Or(Or(Get(ev, "projectName"), Get(ev, "Project Name")), Get(ev, "project")), Get(ev, "projectName"));
    match TrimmedName(nameValue)
    case Err(e) => Err(e)
    case Ok(rawName) =>
      var key := AdvancementKey(host, AdvancementDate(ev));
      if key.Some? && KeyAdmitted(policy, host, now, key.value) then
        Ok(State(st.index, AddActivity(host, st.days, key, LookupEntry(policy, st.index, rawName))))
      else Ok(st)
  }

  function Events(policy: Policy, host: Host, now: int, st: State, evs: seq<Record>): Result<State>
    decreases |evs|
  {
    if |evs| == 0 then Ok(st)
    else match EventStep(policy, host, now, st, evs[0])
      case Err(e) => Err(e)
      case Ok(st') => Events(policy, host, now, st', evs[1..])
  }

  /** `Number(advancementCount || AdvancementCount || count || 0) === 0`:
      only a row recording the initial contribution counts. */
  predicate InitialRow(ad: Record) {
    NumberIsZero(Or(Or(Or(Get(ad, "advancementCount"), Get(ad, "AdvancementCount")), Get(ad, "count")), Num(0)))
  }

  function RowStep(policy: Policy, host: Host, now: int, st: State, ad: Record): Result<State> {
    var key := AdvancementKey(host, AdvancementDate(ad));
    if key.None? || !KeyAdmitted(policy, host, now, key.value) || !InitialRow(ad) then Ok(st)
    else
      var nameValue := Or(Or(Get(ad, "projectName"), Get(ad, "Project Name")), Get(ad, "project"));
      match TrimmedName(nameValue)
      case Err(e) => Err(e)
      case Ok(rawName) => Ok(State(st.index, AddActivity(host, st.days, key, LookupEntry(policy, st.index, rawName))))
  }

  function Rows(policy: Policy, host: Host, now: int, st: State, ads: seq<Record>): Result<State>
    decreases |ads|
  {
    if |ads| == 0 then Ok(st)
    else match RowStep(policy, host, now, st, ads[0])
      case Err(e) => Err(e)
      case Ok(st') => Rows(policy, host, now, st', ads[1..])
  }

  /** `buildActivityMap`: projects, then advancement events, then rows. An
      Err is the TypeError that aborts the build. */
  function Build(policy: Policy, host: Host, now: int, projects: seq<Record>,
                 events: seq<Record>, rows: seq<Record>): Result<ActivityMap>
  {
    match Projects(policy, host, now, State(map[], map[]), projects)
    case Err(e) => Err(e)
    case Ok(s1) =>
      match Events(policy, host, now, s1, events)
      case Err(e) => Err(e)
      case Ok(s2) =>
        match Rows(policy, host, now, s2, rows)
        case Err(e) => Err(e)
        case Ok(s3) => Ok(s3.days)
  }

  // ------------------------------------------------------------ properties

  /** What every stored day satisfies: it has entries, they are distinct
      activities, and its key is admitted by the window. */
  predicate Invariant(policy: Policy, host: Host, now: int, m: ActivityMap) {
    WellFormed(host, m) && forall k :: k in m ==> KeyAdmitted(policy, host, now, k)
  }

  lemma AddKeepsInvariant(policy: Policy, host: Host, now: int, m: ActivityMap, key: Option<string>, proj: Record)
    requires Invariant(policy, host, now, m)
    requires key.Some? ==> KeyAdmitted(policy, host, now, key.value)
    ensures Invariant(policy, host, now, AddActivity(host, m, key, proj))
  {
    AddActivityKeepsWellFormed(host, m, key, proj);
  }

  lemma ProjectStepKeepsInvariant(policy: Policy, host: Host, now: int, st: State, p: Record)
    requires Invariant(policy, host, now, st.days)
    requires ProjectStep(policy, host, now, st, p).Ok?
    ensures Invariant(policy, host, now, ProjectStep(policy, host, now, st, p).value.days)
  {
    var key := ExtractISODate(host, p);
    var at := if key.Some? then KeyMidnight(host, key.value) else None;
    if at.Some? && Admitted(WindowStart(policy, host.tz, now), now, at) {
      AddKeepsInvariant(policy, host, now, st.days, key, p);
    }
  }

  lemma EventStepKeepsInvariant(policy: Policy, host: Host, now: int, st: State, ev: Record)
    requires Invariant(policy, host, now, st.days)
    requires EventStep(policy, host, now, st, ev).Ok?
    ensures Invariant(policy, host, now, EventStep(policy, host, now, st, ev).value.days)
  {
    var key := AdvancementKey(host, AdvancementDate(ev));
    if key.Some? && KeyAdmitted(policy, host, now, key.value) {
      var nameValue := Or(Or(Or(Get(ev, "projectName"), Get(ev, "Project Name")), Get(ev, "project")), Get(ev, "projectName"));
      AddKeepsInvariant(policy, host, now, st.days, key, LookupEntry(policy, st.index, TrimmedName(nameValue).value));
    }
  }

  lemma RowStepKeepsInvariant(policy: Policy, host: Host, now: int, st: State, ad: Record)
    requires Invariant(policy, host, now, st.days)
    requires RowStep(policy, host, now, st, ad).Ok?
    ensures Invariant(policy, host, now, RowStep(policy, host, now, st, ad).value.days)
  {
    var key := AdvancementKey(host, AdvancementDate(ad));
    if key.Some? && KeyAdmitted(policy, host, now, key.value) && InitialRow(ad) {
      var nameValue := Or(Or(Get(ad, "projectName"), Get(ad, "Project Name")), Get(ad, "project"));
      AddKeepsInvariant(policy, host, now, st.days, key, LookupEntry(policy, st.index, TrimmedName(nameValue).value));
    }
  }

  lemma {:induction false} ProjectsKeepInvariant(policy: Policy, host: Host, now: int, st: State, ps: seq<Record>)
    requires Invariant(policy, host, now, st.days)
    requires Projects(policy, host, now, st, ps).Ok?
    ensures Invariant(policy, host, now, Projects(policy, host, now, st, ps).value.days)
    decreases |ps|
  {
    if |ps| > 0 {
      ProjectStepKeepsInvariant(policy, host, now, st, ps[0]);
      ProjectsKeepInvariant(policy, host, now, ProjectStep(policy, host, now, st, ps[0]).value, ps[1..]);
    }
  }

  lemma {:induction false} EventsKeepInvariant(policy: Policy, host: Host, now: int, st: State, evs: seq<Record>)
    requires Invariant(policy, host, now, st.days)
    requires Events(policy, host, now, st, evs).Ok?
    ensures Invariant(policy, host, now, Events(policy, host, now, st, evs).value.days)
    decreases |evs|
  {
    if |evs| > 0 {
      EventStepKeepsInvariant(policy, host, now, st, evs[0]);
      EventsKeepInvariant(policy, host, now, EventStep(policy, host, now, st, evs[0]).value, evs[1..]);
    }
  }

  lemma {:induction false} RowsKeepInvariant(policy: Policy, host: Host, now: int, st: State, ads: seq<Record>)
    requires Invariant(policy, host, now, st.days)
    requires Rows(policy, host, now, st, ads).Ok?
    ensures Invariant(policy, host, now, Rows(policy, host, now, st, ads).value.days)
    decreases |ads|
  {
    if |ads| > 0 {
      RowStepKeepsInvariant(policy, host, now, st, ads[0]);
      RowsKeepInvariant(policy, host, now, RowStep(policy, host, now, st, ads[0]).value, ads[1..]);
    }
  }

  /** A successful build is well-formed and stores only admitted keys. */
  lemma BuildKeepsInvariant(policy: Policy, host: Host, now: int, projects: seq<Record>,
                            events: seq<Record>, rows: seq<Record>)
    requires Build(policy, host, now, projects, events, rows).Ok?
    ensures Invariant(policy, host, now, Build(policy, host, now, projects, events, rows).value)
  {
    var st0 := State(map[], map[]);
    ProjectsKeepInvariant(policy, host, now, st0, projects);
    var s1 := Projects(policy, host, now, st0, projects).value;
    EventsKeepInvariant(policy, host, now, s1, events);
    var s2 := Events(policy, host, now, s1, events).value;
    RowsKeepInvariant(policy, host, now, s2, rows);
  }

  /** Corrected: every stored key is a real day in [today-364, today], the
      365 days the calendar grid shows. */
  lemma CorrectedWindowIsGridWindow(host: Host, now: int, projects: seq<Record>,
                                    events: seq<Record>, rows: seq<Record>)
    requires Build(Corrected, host, now, projects, events, rows).Ok?
    ensures forall k :: k in Build(Corrected, host, now, projects, events, rows).value ==>
              ParseKey(k).Some? &&
              LocalDay(host.tz, now) - 364 <= ParseKey(k).value <= LocalDay(host.tz, now)
  {
    var m := Build(Corrected, host, now, projects, events, rows).value;
    BuildKeepsInvariant(Corrected, host, now, projects, events, rows);
    forall k | k in m
      ensures ParseKey(k).Some? && LocalDay(host.tz, now) - 364 <= ParseKey(k).value <= LocalDay(host.tz, now)
    {
      assert KeyAdmitted(Corrected, host, now, k);
      WindowDays(Corrected, host.tz, now, ParseKey(k).value);
    }
  }

  /** As written: a readable stored key lies in [today-364, today], and is
      today-364 only when the build runs exactly at local midnight. */
  lemma AsWrittenWindow(host: Host, now: int, projects: seq<Record>,
                        events: seq<Record>, rows: seq<Record>)
    requires Build(AsWritten, host, now, projects, events, rows).Ok?
    ensures forall k :: k in Build(AsWritten, host, now, projects, events, rows).value && ParseKey(k).Some? ==>
              LocalDay(host.tz, now) - 364 <= ParseKey(k).value <= LocalDay(host.tz, now) &&
              (ParseKey(k).value == LocalDay(host.tz, now) - 364 ==> now == Midnight(host.tz, LocalDay(host.tz, now)))
  {
    var m := Build(AsWritten, host, now, projects, events, rows).value;
    BuildKeepsInvariant(AsWritten, host, now, projects, events, rows);
    forall k | k in m && ParseKey(k).Some?
      ensures LocalDay(host.tz, now) - 364 <= ParseKey(k).value <= LocalDay(host.tz, now) &&
              (ParseKey(k).value == LocalDay(host.tz, now) - 364 ==> now == Midnight(host.tz, LocalDay(host.tz, now)))
    {
      assert KeyAdmitted(AsWritten, host, now, k);
      WindowDays(AsWritten, host.tz, now, ParseKey(k).value);
    }
  }

  /** The project loop stores a key only when it reads back as a real day:
      a key that is no calendar date (the fast path's `2024-13-45`) is
      dropped by the `isNaN` check, under either reading of the window. */
  lemma {:induction false} ProjectKeysReadable(policy: Policy, host: Host, now: int, st: State, ps: seq<Record>)
    requires Projects(policy, host, now, st, ps).Ok?
    requires forall k :: k in st.days ==> ParseKey(k).Some?
    ensures forall k :: k in Projects(policy, host, now, st, ps).value.days ==> ParseKey(k).Some?
    decreases |ps|
  {
    if |ps| > 0 {
      var next := ProjectStep(policy, host, now, st, ps[0]).value;
      ProjectStepDays(policy, host, now, st, ps[0]);
      ProjectKeysReadable(policy, host, now, next, ps[1..]);
    }
  }

  /** One project step adds at most its own key, and only a readable one. */
  lemma ProjectStepDays(policy: Policy, host: Host, now: int, st: State, p: Record)
    requires ProjectStep(policy, host, now, st, p).Ok?
    ensures forall k :: k in ProjectStep(policy, host, now, st, p).value.days ==>
              k in st.days || (ExtractISODate(host, p) == Some(k) && ParseKey(k).Some?)
  {
    assert ProjectStep(policy, host, now, st, p).value.days == DaysStep(policy, host, now, st.days, p);
  }

  /** A project dated `2024-13-45` is never stored. */
  lemma OutOfRangeProjectDropped(policy: Policy, host: Host, now: int)
    ensures Build(policy, host, now, [map["date" := Str("2024-13-45")]], [], []) == Ok(map[])
  {
    var p: Record := map["date" := Str("2024-13-45")];
    assert KeyShape("2024-13-45");
    DatedByKey(host, "2024-13-45");
    OutOfRangeKeyUnreadable();
    Nameless(p);
    assert ProjectStep(policy, host, now, State(map[], map[]), p) == Ok(State(map[], map[]));
    OneProjectBuild(policy, host, now, p);
  }

  // ------------------------------------------------------------ rows

  /** The rows recording an initial contribution, in order. */
  function InitialRows(ads: seq<Record>): (r: seq<Record>)
    ensures |r| <= |ads|
    ensures forall i :: 0 <= i < |r| ==> InitialRow(r[i])
    decreases |ads|
  {
    if |ads| == 0 then []
    else if InitialRow(ads[0]) then [ads[0]] + InitialRows(ads[1..])
    else InitialRows(ads[1..])
  }

  /** Rows that record a later advancement contribute nothing: the build
      over all rows equals the build over the initial ones. */
  lemma {:induction false} OnlyInitialRowsCount(policy: Policy, host: Host, now: int, st: State, ads: seq<Record>)
    ensures Rows(policy, host, now, st, ads) == Rows(policy, host, now, st, InitialRows(ads))
    decreases |ads|
  {
    if |ads| > 0 {
      if InitialRow(ads[0]) {
        var r := InitialRows(ads);
        assert r[0] == ads[0] && r[1..] == InitialRows(ads[1..]);
        match RowStep(policy, host, now, st, ads[0])
        case Err(_) =>
        case Ok(next) => OnlyInitialRowsCount(policy, host, now, next, ads[1..]);
      } else {
        assert RowStep(policy, host, now, st, ads[0]) == Ok(st);
        OnlyInitialRowsCount(policy, host, now, st, ads[1..]);
      }
    }
  }

  // ------------------------------------------------------------ name lookup

  /** The key a project is indexed under, if any. */
  function NameKey(p: Record): Option<string> {
    match IndexName(p)
    case Ok(n) => if n != "" then Some(Lower(n)) else None
    case Err(_) => None
  }

  /** The last record of ps whose key is k: a reference for the lookup. */
  function LastKeyed(ps: seq<Record>, key: Record -> Option<string>, k: string): (r: Option<Record>)
    ensures r.None? <==> forall i :: 0 <= i < |ps| ==> key(ps[i]) != Some(k)
    ensures r.Some? ==> exists i :: 0 <= i < |ps| && ps[i] == r.value && key(ps[i]) == Some(k) &&
                          forall j :: i < j < |ps| ==> key(ps[j]) != Some(k)
    decreases |ps|
  {
    if |ps| == 0 then None
    else
      var n := |ps| - 1;
      if key(ps[n]) == Some(k) then
        Some(ps[n])
      else
        var init := ps[..n];
        var r := LastKeyed(init, key, k);
        assert forall i :: 0 <= i < n ==> init[i] == ps[i];
        if r.Some? then
          var i :| 0 <= i < n && init[i] == r.value && key(init[i]) == Some(k) &&
                   forall j :: i < j < n ==> key(init[j]) != Some(k);
          assert forall j :: i < j < |ps| ==> key(ps[j]) != Some(k);
          r
        else r
  }

  /** Peeling the first record off: a later record wins over it. */
  lemma {:induction false} LastKeyedFront(ps: seq<Record>, key: Record -> Option<string>, k: string)
    requires |ps| > 0
    ensures LastKeyed(ps, key, k) ==
      if LastKeyed(ps[1..], key, k).Some? then LastKeyed(ps[1..], key, k)
      else if key(ps[0]) == Some(k) then Some(ps[0]) else None
    decreases |ps|
  {
    if |ps| > 1 && key(ps[|ps| - 1]) != Some(k) {
      var init := ps[..|ps| - 1];
      LastKeyedFront(init, key, k);
      assert init[1..] == ps[1..][..|ps[1..]| - 1];
      assert init[0] == ps[0];
    }
  }

  function Find(index: NameIndex, k: string): Option<Record> {
    if k in index then Some(index[k]) else None
  }

  lemma ProjectStepIndex(policy: Policy, host: Host, now: int, st: State, p: Record, k: string)
    requires ProjectStep(policy, host, now, st, p).Ok?
    ensures Find(ProjectStep(policy, host, now, st, p).value.index, k) ==
              if NameKey(p) == Some(k) then Some(p) else Find(st.index, k)
  {
  }

  /** After the project loop, the name lookup yields the last project with
      that name, or what the index held before. */
  lemma {:induction false} ProjectsIndex(policy: Policy, host: Host, now: int, st: State, ps: seq<Record>, k: string)
    requires Projects(policy, host, now, st, ps).Ok?
    ensures Find(Projects(policy, host, now, st, ps).value.index, k) ==
              if LastKeyed(ps, NameKey, k).Some? then LastKeyed(ps, NameKey, k) else Find(st.index, k)
    decreases |ps|
  {
    if |ps| > 0 {
      var next := ProjectStep(policy, host, now, st, ps[0]).value;
      ProjectStepIndex(policy, host, now, st, ps[0], k);
      ProjectsIndex(policy, host, now, next, ps[1..], k);
      LastKeyedFront(ps, NameKey, k);
    }
  }

  /** An advancement whose name matches a project adds the last project of
      that (lower-cased) name; otherwise it adds a marker. As written this
      holds for every name but those of inherited members. */
  lemma AdvancementMatchesLastProject(policy: Policy, host: Host, now: int, ps: seq<Record>, rawName: string)
    requires Projects(policy, host, now, State(map[], map[]), ps).Ok?
    requires policy.AsWritten? ==> Lower(rawName) !in InheritedMembers
    ensures var index := Projects(policy, host, now, State(map[], map[]), ps).value.index;
            var last := LastKeyed(ps, NameKey, Lower(rawName));
            LookupEntry(policy, index, rawName) == if last.Some? then last.value else Marker(rawName)
  {
    ProjectsIndex(policy, host, now, State(map[], map[]), ps, Lower(rawName));
  }

  // ------------------------------------------------------------ findings

  /** As written, an advancement named "Constructor" with no project of
      that name finds the inherited `Object` function and adds it as the
      day's activity; corrected, it adds the advancement's marker. */
  lemma ConstructorNameFindsObject()
    ensures LookupEntry(AsWritten, map[], "Constructor") == map["name" := Str("Object")]
    ensures LookupEntry(Corrected, map[], "Constructor") == Marker("Constructor")
  {
    assert Lower("Constructor") == "constructor";
  }

  /** A record dated by a key-shaped text is keyed by that text. */
  lemma DatedByKey(host: Host, k: string)
    requires KeyShape(k)
    ensures ExtractISODate(host, map["date" := Str(k)]) == Some(k)
  {
    var p: Record := map["date" := Str(k)];
    var cs := Candidates(p);
    assert cs[0] == Str(k);
    ProbeOfKeyText(host, k);
    ProbeAllFirst(host, cs);
  }

  /** A record with none of the name fields is indexed under no name. */
  lemma Nameless(p: Record)
    requires "name" !in p && "Project Name" !in p && "Project" !in p
    ensures IndexName(p) == Ok("")
  {
  }

  /** A project with a readable key: the step adds it under that key
      exactly when the window admits the key's midnight. */
  lemma ReadableProjectStep(policy: Policy, host: Host, now: int, st: State, p: Record, k: string, t: int)
    requires ExtractISODate(host, p) == Some(k) && IndexName(p).Ok?
    requires KeyMidnight(host, k) == Some(t)
    ensures ProjectStep(policy, host, now, st, p).Ok?
    ensures ProjectStep(policy, host, now, st, p).value.days ==
              if WindowStart(policy, host.tz, now) <= t <= now then AddActivity(host, st.days, Some(k), p) else st.days
  {
    ProjectStepHalves(policy, host, now, st, p);
    ReadableDaysStep(policy, host, now, st.days, p, k, t);
  }

  /** A step on a nameable project is its index half and its days half. */
  lemma ProjectStepHalves(policy: Policy, host: Host, now: int, st: State, p: Record)
    requires IndexName(p).Ok?
    ensures IndexStep(st.index, p).Ok?
    ensures ProjectStep(policy, host, now, st, p) ==
              Ok(State(IndexStep(st.index, p).value, DaysStepUnder(policy, host, now, st.days, p, ExtractISODate(host, p))))
  {
  }

  lemma ReadableDaysStep(policy: Policy, host: Host, now: int, days: ActivityMap, p: Record, k: string, t: int)
    requires KeyMidnight(host, k) == Some(t)
    ensures DaysStepUnder(policy, host, now, days, p, Some(k)) ==
              if WindowStart(policy, host.tz, now) <= t <= now then AddActivity(host, days, Some(k), p) else days
  {
  }

  lemma SingleProjectStep(policy: Policy, host: Host, now: int, p: Record, k: string, d: int)
    requires ExtractISODate(host, p) == Some(k) && IndexName(p).Ok?
    requires KeyMidnight(host, k) == Some(Midnight(host.tz, d))
    ensures ProjectStep(policy, host, now, State(map[], map[]), p).Ok?
    ensures ProjectStep(policy, host, now, State(map[], map[]), p).value.days ==
              if WindowStart(policy, host.tz, now) <= Midnight(host.tz, d) <= now then map[k := [p]] else map[]
  {
    ReadableProjectStep(policy, host, now, State(map[], map[]), p, k, Midnight(host.tz, d));
    FirstActivity(host, k, p);
  }

  /** The first activity of an empty index is a one-entry day. */
  lemma FirstActivity(host: Host, k: string, p: Record)
    ensures AddActivity(host, map[], Some(k), p) == map[k := [p]]
  {
    assert AddToList(host, [], p) == [p];
  }

  /** A build over one project and nothing else is that project's step. */
  lemma OneProjectBuild(policy: Policy, host: Host, now: int, p: Record)
    requires ProjectStep(policy, host, now, State(map[], map[]), p).Ok?
    ensures Build(policy, host, now, [p], [], []) ==
              Ok(ProjectStep(policy, host, now, State(map[], map[]), p).value.days)
  {
    var st0 := State(map[], map[]);
    var next := ProjectStep(policy, host, now, st0, p).value;
    ProjectsOfOne(policy, host, now, st0, p);
    EventsOfNone(policy, host, now, next);
    RowsOfNone(policy, host, now, next);
  }

  lemma ProjectsOfOne(policy: Policy, host: Host, now: int, st: State, p: Record)
    ensures Projects(policy, host, now, st, [p]) == ProjectStep(policy, host, now, st, p)
  {
    assert [p][1..] == [];
  }

  lemma EventsOfNone(policy: Policy, host: Host, now: int, st: State)
    ensures Events(policy, host, now, st, []) == Ok(st)
  {
  }

  lemma RowsOfNone(policy: Policy, host: Host, now: int, st: State)
    ensures Rows(policy, host, now, st, []) == Ok(st)
  {
  }

  /** A build over a single readable project: it is stored exactly when
      the window admits its midnight. */
  lemma SingleProjectBuild(policy: Policy, host: Host, now: int, p: Record, k: string, d: int)
    requires ExtractISODate(host, p) == Some(k) && IndexName(p).Ok?
    requires KeyMidnight(host, k) == Some(Midnight(host.tz, d))
    ensures Build(policy, host, now, [p], [], []) ==
              if WindowStart(policy, host.tz, now) <= Midnight(host.tz, d) <= now then Ok(map[k := [p]]) else Ok(map[])
  {
    SingleProjectStep(policy, host, now, p, k, d);
    OneProjectBuild(policy, host, now, p);
  }

  /** As written, a project dated today-364 is dropped unless the build
      runs exactly at local midnight; the corrected window keeps it. */
  lemma AsWrittenMissesFirstDay(host: Host, now: int)
    requires 1000 <= DateOf(LocalDay(host.tz, now) - 364).year <= 9999
    requires now != Midnight(host.tz, LocalDay(host.tz, now))
    ensures var k := KeyOfDay(LocalDay(host.tz, now) - 364);
            var p: Record := map["date" := Str(k)];
            Build(AsWritten, host, now, [p], [], []) == Ok(map[]) &&
            Build(Corrected, host, now, [p], [], []) == Ok(map[k := [p]])
  {
    var d := LocalDay(host.tz, now) - 364;
    var k := KeyOfDay(d);
    var p: Record := map["date" := Str(k)];
    KeyOfDateReads(DateOf(d));
    DatedByKey(host, k);
    Nameless(p);
    ParseKeyOfDay(d);
    SingleProjectBuild(AsWritten, host, now, p, k, d);
    SingleProjectBuild(Corrected, host, now, p, k, d);
    WindowDays(AsWritten, host.tz, now, d);
    WindowDays(Corrected, host.tz, now, d);
  }

  /** As written, an advancement event dated by an Invalid Date is stored
      under the key "NaN-NaN-NaN"; the corrected reading drops it. */
  lemma AsWrittenKeepsInvalidDate(host: Host, now: int)
    ensures var ev: Record := map["date" := DateObj(None)];
            Build(AsWritten, host, now, [], [ev], []) == Ok(map[InvalidKey := [Marker("")]]) &&
            Build(Corrected, host, now, [], [ev], []) == Ok(map[])
  {
    var ev: Record := map["date" := DateObj(None)];
    assert AdvancementKey(host, AdvancementDate(ev)) == Some(InvalidKey);
    assert KeyMidnight(host, InvalidKey).None?;
  }
}

=== FILE: civil.dfy ===
/** Proleptic Gregorian calendar arithmetic on integer day numbers.

    Day 0 is 1970-01-01 (a Thursday). A local instant is an epoch-millisecond
    count shifted by a fixed time-zone offset; the calendar works entirely on
    whole days, which is what the contribution calendar's `setDate` arithmetic
    amounts to once daylight-saving hours are set aside.
 */
module Civil {

  const MsPerDay: int := 86_400_000

  datatype Date = Date(year: int, month: int, day: int)

  predicate IsLeap(y: int) {
    y % 4 == 0 && (y % 100 != 0 || y % 400 == 0)
  }

  function DaysInYear(y: int): int {
    if IsLeap(y) then 366 else 365
  }

  function DaysInMonth(y: int, m: int): (n: int)
    requires 1 <= m <= 12
    ensures 28 <= n <= 31
  {
    if m == 2 then (if IsLeap(y) then 29 else 28)
    else if m == 4 || m == 6 || m == 9 || m == 11 then 30
    else 31
  }

  predicate ValidDate(dt: Date) {
    1 <= dt.month <= 12 && 1 <= dt.day <= DaysInMonth(dt.year, dt.month)
  }

  /** Leap years in 1..x for x >= 0 (extended to all x by floor division). */
  function LeapsThrough(x: int): int {
    x / 4 - x / 100 + x / 400
  }

  /** Day number of January 1st of year y. */
  function DaysBeforeYear(y: int): int {
    365 * (y - 1970) + LeapsThrough(y - 1) - LeapsThrough(1969)
  }

  /** Days from January 1st to the first of month m. */
  function DaysBeforeMonth(y: int, m: int): (n: int)
    requires 1 <= m <= 12
    ensures m == 1 ==> n == 0
  {
    var leap := if m > 2 && IsLeap(y) then 1 else 0;
    (match m
     case 1 => 0 case 2 => 31 case 3 => 59 case 4 => 90
     case 5 => 120 case 6 => 151 case 7 => 181 case 8 => 212
     case 9 => 243 case 10 => 273 case 11 => 304 case _ => 334) + leap
  }

  /** The day number of a calendar date. */
  function DayNumber(dt: Date): int
    requires ValidDate(dt)
  {
    DaysBeforeYear(dt.year) + DaysBeforeMonth(dt.year, dt.month) + dt.day - 1
  }

  /** Floor division by 4, 100 and 400 steps by one exactly at multiples. */
  lemma DivStep4(x: int)
    ensures x / 4 - (x - 1) / 4 == if x % 4 == 0 then 1 else 0
  {
  }

  lemma DivStep100(x: int)
    ensures x / 100 - (x - 1) / 100 == if x % 100 == 0 then 1 else 0
  {
  }

  lemma DivStep400(x: int)
    ensures x / 400 - (x - 1) / 400 == if x % 400 == 0 then 1 else 0
  {
  }

  /** A multiple of 400 is one of 100, and a multiple of 100 one of 4. */
  lemma Multiples(x: int)
    ensures x % 400 == 0 ==> x % 100 == 0
    ensures x % 100 == 0 ==> x % 4 == 0
  {
    var q, p := x / 400, x / 100;
    assert x == 400 * q + x % 400 && x == 100 * p + x % 100;
    if x % 400 == 0 {
      assert x == 100 * (4 * q) && (100 * (4 * q)) % 100 == 0;
    }
    if x % 100 == 0 {
      assert x == 4 * (25 * p) && (4 * (25 * p)) % 4 == 0;
    }
  }

  /** Day x adds a leap day to the count exactly when year x is leap. */
  lemma LeapStep(x: int)
    ensures LeapsThrough(x) - LeapsThrough(x - 1) == if IsLeap(x) then 1 else 0
  {
    DivStep4(x);
    DivStep100(x);
    DivStep400(x);
    Multiples(x);
  }

  /** Consecutive New Years are a year's length apart. */
  lemma YearLength(y: int)
    ensures DaysBeforeYear(y + 1) - DaysBeforeYear(y) == DaysInYear(y)
  {
    LeapStep(y);
  }

  lemma LeapsBounds(x: int)
    ensures 97 * x - 699 <= 400 * LeapsThrough(x) <= 97 * x + 396
  {
    assert 4 * (x / 4) <= x < 4 * (x / 4) + 4;
    assert 100 * (x / 100) <= x < 100 * (x / 100) + 100;
    assert 400 * (x / 400) <= x < 400 * (x / 400) + 400;
  }

  lemma YearStartBounds(y: int)
    ensures 146097 * (y - 1970) - 506 <= 400 * DaysBeforeYear(y) <= 146097 * (y - 1970) + 589
  {
    LeapsBounds(y - 1);
    assert LeapsThrough(1969) == 477;
  }

  /** The year containing day n. */
  function YearOf(n: int): (y: int)
    ensures DaysBeforeYear(y) <= n < DaysBeforeYear(y + 1)
  {
    var y0 := 1970 + (400 * n) / 146097;
    EstimateBrackets(n, y0);
    if n < DaysBeforeYear(y0) then y0 - 1
    else if n >= DaysBeforeYear(y0 + 1) then y0 + 1
    else y0
  }

  /** The estimate y0 is off by at most one year either way. */
  lemma EstimateBrackets(n: int, y0: int)
    requires y0 == 1970 + (400 * n) / 146097
    ensures DaysBeforeYear(y0 - 1) <= n < DaysBeforeYear(y0 + 2)
  {
    YearStartBounds(y0 - 1);
    YearStartBounds(y0 + 2);
  }

  /** New Years strictly increase, so at most one year contains a given day. */
  lemma YearUnique(n: int, a: int, b: int)
    requires DaysBeforeYear(a) <= n < DaysBeforeYear(a + 1)
    requires DaysBeforeYear(b) <= n < DaysBeforeYear(b + 1)
    ensures a == b
  {
    YearsInOrder(n, n, a, b);
    YearsInOrder(n, n, b, a);
  }

  /** Years containing two days come in the days' order. */
  lemma YearsInOrder(a: int, b: int, ya: int, yb: int)
    requires a <= b
    requires DaysBeforeYear(ya) <= a && b < DaysBeforeYear(yb + 1)
    ensures ya <= yb
  {
    if yb < ya {
      YearStartBounds(yb + 1);
      YearStartBounds(ya);
    }
  }

  /** New Years come in order, so later days never fall in earlier years. */
  lemma YearOfMonotone(a: int, b: int)
    requires a <= b
    ensures YearOf(a) <= YearOf(b)
  {
    YearsInOrder(a, b, YearOf(a), YearOf(b));
  }

  lemma MonthsFitYear(y: int, m: int)
    requires 1 <= m <= 12
    ensures DaysBeforeMonth(y, m) + DaysInMonth(y, m) <= DaysInYear(y)
    ensures m == 12 ==> DaysBeforeMonth(y, m) + DaysInMonth(y, m) == DaysInYear(y)
  {
  }

  /** The month of day-of-year doy, searching down from month m. */
  function MonthFrom(y: int, doy: int, m: int): (r: int)
    requires 1 <= m <= 12
    requires 0 <= doy < DaysBeforeMonth(y, m) + DaysInMonth(y, m)
    ensures 1 <= r <= m
    ensures DaysBeforeMonth(y, r) <= doy < DaysBeforeMonth(y, r) + DaysInMonth(y, r)
  {
    if m == 1 || doy >= DaysBeforeMonth(y, m) then m else MonthFrom(y, doy, m - 1)
  }

  /** The month of day-of-year doy. */
  function MonthOfYearDay(y: int, doy: int): (m: int)
    requires 0 <= doy < DaysInYear(y)
    ensures 1 <= m <= 12
    ensures DaysBeforeMonth(y, m) <= doy < DaysBeforeMonth(y, m) + DaysInMonth(y, m)
  {
    MonthsFitYear(y, 12);
    MonthFrom(y, doy, 12)
  }

  /** The calendar date of day n, found from its year (by estimate and
      correction) and then its month (by search); DayNumber is its inverse. */
  function DateOf(n: int): (dt: Date)
    ensures ValidDate(dt)
    ensures DayNumber(dt) == n
  {
    var y := YearOf(n);
    YearLength(y);
    var doy := n - DaysBeforeYear(y);
    var m := MonthOfYearDay(y, doy);
    Date(y, m, doy - DaysBeforeMonth(y, m) + 1)
  }

  /** Months are laid out one after another within a year. */
  lemma {:induction false} MonthGap(y: int, a: int, b: int)
    requires 1 <= a < b <= 12
    ensures DaysBeforeMonth(y, a) + DaysInMonth(y, a) <= DaysBeforeMonth(y, b)
    decreases b - a
  {
    if b > a + 1 {
      MonthGap(y, a, b - 1);
    }
  }

  lemma MonthUnique(y: int, doy: int, a: int, b: int)
    requires 1 <= a <= 12 && 1 <= b <= 12
    requires DaysBeforeMonth(y, a) <= doy < DaysBeforeMonth(y, a) + DaysInMonth(y, a)
    requires DaysBeforeMonth(y, b) <= doy < DaysBeforeMonth(y, b) + DaysInMonth(y, b)
    ensures a == b
  {
    if a < b {
      MonthGap(y, a, b);
    } else if b < a {
      MonthGap(y, b, a);
    }
  }

  /** A valid date's day number falls in its own year. */
  lemma DayNumberInYear(dt: Date)
    requires ValidDate(dt)
    ensures DaysBeforeYear(dt.year) <= DayNumber(dt) < DaysBeforeYear(dt.year + 1)
  {
    MonthsFitYear(dt.year, dt.month);
    YearLength(dt.year);
  }

  /** Two valid dates with the same day number are equal. */
  lemma DayNumberInjective(a: Date, b: Date)
    requires ValidDate(a) && ValidDate(b)
    requires DayNumber(a) == DayNumber(b)
    ensures a == b
  {
    var n := DayNumber(a);
    DayNumberInYear(a);
    DayNumberInYear(b);
    YearUnique(n, a.year, b.year);
    MonthUnique(a.year, n - DaysBeforeYear(a.year), a.month, b.month);
  }

  /** Every valid date is recovered from its day number. */
  lemma DateOfDayNumber(dt: Date)
    requires ValidDate(dt)
    ensures DateOf(DayNumber(dt)) == dt
  {
    DayNumberInjective(DateOf(DayNumber(dt)), dt);
  }

  /** 0 = Sunday ... 6 = Saturday, as `Date.prototype.getDay` numbers them. */
  function Weekday(n: int): (w: int)
    ensures 0 <= w < 7
    ensures (n - w) % 7 == 3
  {
    (n + 4) % 7
  }

  /** The local day containing instant t (milliseconds), local = UTC + tz. */
  function LocalDay(tz: int, t: int): int {
    (t + tz) / MsPerDay
  }

  /** The instant of local midnight starting day d. */
  function Midnight(tz: int, d: int): (t: int)
    ensures LocalDay(tz, t) == d
  {
    d * MsPerDay - tz
  }

  /** A local day runs from its midnight up to, not including, the next one. */
  lemma LocalDayBounds(tz: int, t: int)
    ensures Midnight(tz, LocalDay(tz, t)) <= t < Midnight(tz, LocalDay(tz, t) + 1)
  {
  }
}

=== FILE: datekey.dfy ===
/** Day keys of the contribution calendar: `YYYY-MM-DD` strings in local
    calendar time (the extended calendar-date form of ISO 8601), produced
    from heterogeneous date fields by `extractISODate` and `toISODate` in
    js/contribution-graph.js, and read back by `new Date(key + 'T00:00:00')`.
 */
module DateKey {
  import opened JsValues
  import opened Civil

  /** The largest magnitude of a valid time value (ECMAScript TimeClip). */
  const MaxTime: int := 8_640_000_000_000_000

  /** Numbers below this are read as epoch seconds, others as milliseconds. */
  const SecondsLimit: int := 1_000_000_000_000

  /** What `toISODate` prints for an Invalid Date. */
  const InvalidKey: string := "NaN-NaN-NaN"

  // ---------------------------------------------------------------- digits

  predicate IsDigit(c: char) {
    '0' <= c <= '9'
  }

  function DigitValue(c: char): int {
    c as int - '0' as int
  }

  /** The first code point of each non-ASCII decimal digit block that is
      folded: Arabic-Indic, Extended Arabic-Indic, NKo and Devanagari. */
  function FoldBase(c: char): Option<int> {
    if '\U{660}' <= c <= '\U{669}' then Some(0x660)
    else if '\U{6F0}' <= c <= '\U{6F9}' then Some(0x6F0)
    else if '\U{7C0}' <= c <= '\U{7C9}' then Some(0x7C0)
    else if '\U{966}' <= c <= '\U{96F}' then Some(0x966)
    else None
  }

  /** One character of the digit folding. */
  function FoldDigit(c: char): (r: char)
    ensures FoldBase(c).Some? ==> IsDigit(r) && DigitValue(r) == c as int - FoldBase(c).value
    ensures FoldBase(c).None? ==> r == c
  {
    match FoldBase(c)
    case Some(base) => DigitChar(c as int - base)
    case None => c
  }

  /** The four chained `replace` calls: each block's digits become ASCII. */
  function FoldDigits(s: string): (r: string)
    ensures |r| == |s|
    ensures forall i :: 0 <= i < |s| ==> r[i] == FoldDigit(s[i])
  {
    seq(|s|, i requires 0 <= i < |s| => FoldDigit(s[i]))
  }

  /** Folding twice is folding once: ASCII digits are never refolded. */
  lemma FoldDigitsIdempotent(s: string)
    ensures FoldDigits(FoldDigits(s)) == FoldDigits(s)
  {
    var f := FoldDigits(s);
    forall i | 0 <= i < |s|
      ensures FoldDigit(f[i]) == f[i]
    {
      assert FoldBase(f[i]).None?;
    }
  }

  /** Text without code points from the folded blocks is left alone. */
  lemma AsciiFoldFree(s: string)
    requires forall i :: 0 <= i < |s| ==> s[i] as int < 0x660
    ensures FoldDigits(s) == s
  {
  }

  /** Folding never turns whitespace into non-whitespace or back. */
  lemma FoldKeepsWhitespace(c: char)
    ensures IsJsWhitespace(FoldDigit(c)) == IsJsWhitespace(c)
  {
  }

  lemma {:induction false} SameLeadingSpace(s: string, t: string)
    requires |s| == |t|
    requires forall i :: 0 <= i < |s| ==> IsJsWhitespace(s[i]) == IsJsWhitespace(t[i])
    ensures LeadingSpace(s) == LeadingSpace(t)
    ensures TrailingSpace(s) == TrailingSpace(t)
  {
    var a := LeadingSpace(s);
    if a < |s| {
      assert !IsJsWhitespace(t[a]);
    }
    var b := LeadingSpace(t);
    if b < |t| {
      assert !IsJsWhitespace(s[b]);
    }
    var c := TrailingSpace(s);
    if c < |s| {
      assert !IsJsWhitespace(t[|t| - c - 1]);
    }
    var d := TrailingSpace(t);
    if d < |t| {
      assert !IsJsWhitespace(s[|s| - d - 1]);
    }
  }

  lemma FoldSlice(s: string, i: int, j: int)
    requires 0 <= i <= j <= |s|
    ensures FoldDigits(s)[i..j] == FoldDigits(s[i..j])
  {
  }

  lemma FoldSameSpaces(s: string)
    ensures forall i :: 0 <= i < |s| ==> IsJsWhitespace(s[i]) == IsJsWhitespace(FoldDigits(s)[i])
  {
    forall i | 0 <= i < |s|
      ensures IsJsWhitespace(s[i]) == IsJsWhitespace(FoldDigits(s)[i])
    {
      FoldKeepsWhitespace(s[i]);
    }
  }

  lemma TrimFoldCommute(s: string)
    ensures Trim(FoldDigits(s)) == FoldDigits(Trim(s))
  {
    var f := FoldDigits(s);
    var a := LeadingSpace(s);
    assert a == LeadingSpace(f) by {
      FoldSameSpaces(s);
      SameLeadingSpace(s, f);
    }
    var rest := s[a..];
    assert f[a..] == FoldDigits(rest) by {
      FoldSlice(s, a, |s|);
    }
    assert TrailingSpace(rest) == TrailingSpace(FoldDigits(rest)) by {
      FoldSameSpaces(rest);
      SameLeadingSpace(rest, FoldDigits(rest));
    }
    var m := |rest| - TrailingSpace(rest);
    FoldSlice(rest, 0, m);
  }

  // ------------------------------------------------------------ the fast path

  /** `/^(\d{4})[-\/](\d{2})[-\/](\d{2})/` matches a prefix of s. */
  predicate IsoPrefix(s: string) {
    && |s| >= 10
    && IsDigit(s[0]) && IsDigit(s[1]) && IsDigit(s[2]) && IsDigit(s[3])
    && (s[4] == '-' || s[4] == '/')
    && IsDigit(s[5]) && IsDigit(s[6])
    && (s[7] == '-' || s[7] == '/')
    && IsDigit(s[8]) && IsDigit(s[9])
  }

  /** The three captured groups joined by `-`. */
  function FastPathKey(s: string): (k: string)
    requires IsoPrefix(s)
    ensures |k| == 10 && k[4] == '-' && k[7] == '-'
    ensures k[..4] == s[..4] && k[5..7] == s[5..7] && k[8..] == s[8..10]
  {
    s[..4] + "-" + s[5..7] + "-" + s[8..10]
  }

  // ------------------------------------------------------------ key printing

  /** `String(n).padStart(2, '0')` for a month or day number. */
  function Pad2(n: int): (s: string)
    requires 1 <= n <= 99
    ensures |s| == 2 && IsDigit(s[0]) && IsDigit(s[1])
    ensures 10 * DigitValue(s[0]) + DigitValue(s[1]) == n
  {
    if n < 10 then ['0', DigitChar(n)] else [DigitChar(n / 10), DigitChar(n % 10)]
  }

  /** `toISODate`: local year (unpadded), month and day (two digits). */
  function KeyOfDate(dt: Date): string
    requires ValidDate(dt)
  {
    IntText(dt.year) + "-" + Pad2(dt.month) + "-" + Pad2(dt.day)
  }

  function KeyOfDay(d: int): string {
    KeyOfDate(DateOf(d))
  }

  /** `toISODate(new Date(ms))` in a host whose local offset is host.tz. */
  function KeyOfInstant(host: Host, ms: int): string {
    KeyOfDay(LocalDay(host.tz, ms))
  }

  // ------------------------------------------------------------ key parsing

  /** A `DDDD-DD-DD` shape, the only one a stored key can be read back from. */
  predicate KeyShape(s: string) {
    && |s| == 10
    && IsDigit(s[0]) && IsDigit(s[1]) && IsDigit(s[2]) && IsDigit(s[3])
    && s[4] == '-' && IsDigit(s[5]) && IsDigit(s[6])
    && s[7] == '-' && IsDigit(s[8]) && IsDigit(s[9])
  }

  function KeyDate(s: string): Date
    requires KeyShape(s)
  {
    Date(1000 * DigitValue(s[0]) + 100 * DigitValue(s[1]) + 10 * DigitValue(s[2]) + DigitValue(s[3]),
         10 * DigitValue(s[5]) + DigitValue(s[6]),
         10 * DigitValue(s[8]) + DigitValue(s[9]))
  }

  /** The local day `new Date(key + 'T00:00:00')` denotes, or None when the
      result is an Invalid Date (a key that is not a real calendar date). */
  function ParseKey(s: string): (r: Option<int>)
    ensures r.Some? <==> KeyShape(s) && ValidDate(KeyDate(s))
    ensures r.Some? ==> r.value == DayNumber(KeyDate(s))
  {
    if KeyShape(s) && ValidDate(KeyDate(s)) then Some(DayNumber(KeyDate(s))) else None
  }

  /** The day a key reads back as carries the date written in the key. */
  lemma ParseKeyDate(s: string)
    requires ParseKey(s).Some?
    ensures DateOf(ParseKey(s).value) == KeyDate(s)
  {
    DateOfDayNumber(KeyDate(s));
  }

  /** The instant `new Date(key + 'T00:00:00')` holds, None for NaN. */
  function KeyMidnight(host: Host, key: string): (r: Option<int>)
    ensures r.Some? <==> ParseKey(key).Some?
    ensures r.Some? ==> LocalDay(host.tz, r.value) == ParseKey(key).value
  {
    match ParseKey(key)
    case Some(d) => Some(Midnight(host.tz, d))
    case None => None
  }

  /** Writing one more digit after a number's text. */
  lemma AppendDigit(n: nat, d: int)
    requires 1 <= n && 0 <= d <= 9
    ensures NatText(10 * n + d) == NatText(n) + [DigitChar(d)]
  {
    assert (10 * n + d) / 10 == n && (10 * n + d) % 10 == d;
  }

  lemma TwoDigitText(a: int, b: int, n: int)
    requires 1 <= a <= 9 && 0 <= b <= 9 && n == 10 * a + b
    ensures NatText(n) == [DigitChar(a), DigitChar(b)]
  {
    AppendDigit(a, b);
    assert NatText(a) == [DigitChar(a)];
  }

  lemma AppendThird(n: int, c: int, p: char, q: char, m: int)
    requires 10 <= n && 0 <= c <= 9 && m == 10 * n + c
    requires NatText(n) == [p, q]
    ensures NatText(m) == [p, q, DigitChar(c)]
  {
    AppendDigit(n, c);
  }

  lemma AppendFourth(n: int, d: int, p: char, q: char, r: char, m: int)
    requires 100 <= n && 0 <= d <= 9 && m == 10 * n + d
    requires NatText(n) == [p, q, r]
    ensures NatText(m) == [p, q, r, DigitChar(d)]
  {
    AppendDigit(n, d);
  }

  /** The text of the number y whose four digits are a, b, c, d. */
  lemma DigitsText(a: int, b: int, c: int, d: int, y: int)
    requires 1 <= a <= 9 && 0 <= b <= 9 && 0 <= c <= 9 && 0 <= d <= 9
    requires y == 1000 * a + 100 * b + 10 * c + d
    ensures NatText(y) == [DigitChar(a), DigitChar(b), DigitChar(c), DigitChar(d)]
  {
    var n2 := 10 * a + b;
    var n3 := 10 * n2 + c;
    TwoDigitText(a, b, n2);
    AppendThird(n2, c, DigitChar(a), DigitChar(b), n3);
    AppendFourth(n3, d, DigitChar(a), DigitChar(b), DigitChar(c), y);
  }

  lemma DigitsOfFour(y: int)
    requires 1000 <= y <= 9999
    ensures y == 1000 * (y / 1000) + 100 * (y / 100 % 10) + 10 * (y / 10 % 10) + y % 10
    ensures 1 <= y / 1000 <= 9
  {
    var t1, t2 := y / 10, y / 100;
    assert y == 10 * t1 + y % 10;
    assert t1 == 10 * t2 + t1 % 10 by {
      assert y == 100 * t2 + y % 100;
    }
    assert t2 == 10 * (y / 1000) + t2 % 10 by {
      assert y == 1000 * (y / 1000) + y % 1000;
    }
  }

  lemma FourDigitText(y: int)
    requires 1000 <= y <= 9999
    ensures NatText(y) == [DigitChar(y / 1000), DigitChar(y / 100 % 10), DigitChar(y / 10 % 10), DigitChar(y % 10)]
  {
    DigitsOfFour(y);
    DigitsText(y / 1000, y / 100 % 10, y / 10 % 10, y % 10, y);
  }

  lemma DigitRoundTrip(c: char)
    requires IsDigit(c)
    ensures DigitChar(DigitValue(c)) == c
  {
  }

  lemma ValueOfDigitChar(d: int)
    requires 0 <= d <= 9
    ensures IsDigit(DigitChar(d)) && DigitValue(DigitChar(d)) == d
  {
  }

  /** Year, month and day texts joined by dashes have the key shape and
      read back as the numbers they spell. */
  lemma JoinedKey(ys: string, ms: string, ds: string)
    requires |ys| == 4 && IsDigit(ys[0]) && IsDigit(ys[1]) && IsDigit(ys[2]) && IsDigit(ys[3])
    requires |ms| == 2 && IsDigit(ms[0]) && IsDigit(ms[1])
    requires |ds| == 2 && IsDigit(ds[0]) && IsDigit(ds[1])
    ensures KeyShape(ys + "-" + ms + "-" + ds)
    ensures KeyDate(ys + "-" + ms + "-" + ds) ==
      Date(1000 * DigitValue(ys[0]) + 100 * DigitValue(ys[1]) + 10 * DigitValue(ys[2]) + DigitValue(ys[3]),
           10 * DigitValue(ms[0]) + DigitValue(ms[1]),
           10 * DigitValue(ds[0]) + DigitValue(ds[1]))
  {
    var k := ys + "-" + ms + "-" + ds;
    assert k[0] == ys[0] && k[1] == ys[1] && k[2] == ys[2] && k[3] == ys[3];
    assert k[5] == ms[0] && k[6] == ms[1] && k[8] == ds[0] && k[9] == ds[1];
  }

  /** The year text of a four-digit year spells that year. */
  lemma YearTextSpells(y: int)
    requires 1000 <= y <= 9999
    ensures |IntText(y)| == 4
    ensures IsDigit(IntText(y)[0]) && IsDigit(IntText(y)[1]) && IsDigit(IntText(y)[2]) && IsDigit(IntText(y)[3])
    ensures 1000 * DigitValue(IntText(y)[0]) + 100 * DigitValue(IntText(y)[1])
            + 10 * DigitValue(IntText(y)[2]) + DigitValue(IntText(y)[3]) == y
  {
    FourDigitText(y);
    DigitsOfFour(y);
    ValueOfDigitChar(y / 1000);
    ValueOfDigitChar(y / 100 % 10);
    ValueOfDigitChar(y / 10 % 10);
    ValueOfDigitChar(y % 10);
  }

  /** A date with a four-digit year prints as a key that reads back as it. */
  lemma KeyOfDateReads(dt: Date)
    requires ValidDate(dt) && 1000 <= dt.year <= 9999
    ensures KeyShape(KeyOfDate(dt)) && KeyDate(KeyOfDate(dt)) == dt
  {
    YearTextSpells(dt.year);
    JoinedKey(IntText(dt.year), Pad2(dt.month), Pad2(dt.day));
  }

  /** A key printed for a four-digit year reads back as the same day. */
  lemma ParseKeyOfDay(d: int)
    requires 1000 <= DateOf(d).year <= 9999
    ensures ParseKey(KeyOfDay(d)) == Some(d)
  {
    KeyOfDateReads(DateOf(d));
  }

  lemma Pad2OfDigits(a: char, b: char)
    requires IsDigit(a) && IsDigit(b)
    requires 1 <= 10 * DigitValue(a) + DigitValue(b) <= 99
    ensures Pad2(10 * DigitValue(a) + DigitValue(b)) == [a, b]
  {
    DigitRoundTrip(a);
    DigitRoundTrip(b);
  }

  lemma YearOfDigits(s: string)
    requires |s| == 4 && IsDigit(s[0]) && IsDigit(s[1]) && IsDigit(s[2]) && IsDigit(s[3])
    requires s[0] != '0'
    ensures IntText(1000 * DigitValue(s[0]) + 100 * DigitValue(s[1]) + 10 * DigitValue(s[2]) + DigitValue(s[3])) == s
  {
    DigitsText(DigitValue(s[0]), DigitValue(s[1]), DigitValue(s[2]), DigitValue(s[3]),
               1000 * DigitValue(s[0]) + 100 * DigitValue(s[1]) + 10 * DigitValue(s[2]) + DigitValue(s[3]));
    DigitRoundTrip(s[0]);
    DigitRoundTrip(s[1]);
    DigitRoundTrip(s[2]);
    DigitRoundTrip(s[3]);
  }

  /** A key naming a real date, with no leading zero in its year, is what
      that date prints as. */
  lemma KeyDatePrints(s: string)
    requires KeyShape(s) && ValidDate(KeyDate(s)) && s[0] != '0'
    ensures KeyOfDate(KeyDate(s)) == s
  {
    YearOfDigits(s[..4]);
    Pad2OfDigits(s[5], s[6]);
    Pad2OfDigits(s[8], s[9]);
    assert s == s[..4] + "-" + [s[5], s[6]] + "-" + [s[8], s[9]];
  }

  /** A readable key whose year has no leading zero is the printed key of its day. */
  lemma KeyOfParsedKey(s: string)
    requires ParseKey(s).Some?
    requires s[0] != '0'
    ensures KeyOfDay(ParseKey(s).value) == s
  {
    ParseKeyDate(s);
    KeyDatePrints(s);
  }

  // ------------------------------------------------------------ probing

  /** The instant a numeric field denotes, if it is a valid time value:
      values below 1e12 are seconds, the rest milliseconds. */
  function NumericInstant(n: int): (r: Option<int>)
    ensures r.Some? ==> -MaxTime <= r.value <= MaxTime
    ensures n < SecondsLimit ==> (r.Some? <==> -MaxTime <= n * 1000) && (r.Some? ==> r.value == n * 1000)
    ensures n >= SecondsLimit ==> (r.Some? <==> n <= MaxTime) && (r.Some? ==> r.value == n)
  {
    var ms := if n < SecondsLimit then n * 1000 else n;
    if -MaxTime <= ms <= MaxTime then Some(ms) else None
  }

  function NumericKey(host: Host, n: int): Option<string> {
    match NumericInstant(n)
    case Some(ms) => Some(KeyOfInstant(host, ms))
    case None => None
  }

  function DateObjectKey(host: Host, time: Option<int>): string {
    match time
    case Some(ms) => KeyOfInstant(host, ms)
    case None => InvalidKey
  }

  /** A text candidate: trimmed, digit-folded, then the fast path or the
      host's `Date.parse`; None lets the next candidate be tried. */
  function ProbeText(host: Host, s: string): Option<string> {
    var t := FoldDigits(Trim(s));
    if IsoPrefix(t) then Some(FastPathKey(t))
    else match host.parse(t)
      case Some(ms) => Some(KeyOfInstant(host, ms))
      case None => None
  }

  /** One candidate of `extractISODate`: falsy values other than 0 are skipped. */
  function Probe(host: Host, v: Value): Option<string> {
    if !Truthy(v) && v != Num(0) then None
    else match v
      case Str(s) => ProbeText(host, s)
      case DateObj(t) => Some(DateObjectKey(host, t))
      case Num(n) => NumericKey(host, n)
      case _ => None
  }

  /** Tries the candidates in order and returns the first key found. */
  function ProbeAll(host: Host, cs: seq<Value>): (r: Option<string>)
    ensures r.None? <==> forall i :: 0 <= i < |cs| ==> Probe(host, cs[i]).None?
    ensures r.Some? ==> exists i :: 0 <= i < |cs| && r == Probe(host, cs[i]) &&
                          forall j :: 0 <= j < i ==> Probe(host, cs[j]).None?
    decreases |cs|
  {
    if |cs| == 0 then None
    else
      var first := Probe(host, cs[0]);
      if first.Some? then first
      else
        var tail := cs[1..];
        var r := ProbeAll(host, tail);
        ProbeAllTail(host, cs, first, tail, r);
        r
  }

  /** The search past a first candidate that yields nothing finds what the
      search over the remaining candidates finds. */
  lemma ProbeAllTail(host: Host, cs: seq<Value>, first: Option<string>, tail: seq<Value>, r: Option<string>)
    requires |cs| > 0 && first == Probe(host, cs[0]) && first.None? && tail == cs[1..]
    requires r.None? <==> forall i :: 0 <= i < |tail| ==> Probe(host, tail[i]).None?
    requires r.Some? ==> exists i :: 0 <= i < |tail| && r == Probe(host, tail[i]) &&
                           forall j :: 0 <= j < i ==> Probe(host, tail[j]).None?
    ensures r.None? <==> forall i :: 0 <= i < |cs| ==> Probe(host, cs[i]).None?
    ensures r.Some? ==> exists i :: 0 <= i < |cs| && r == Probe(host, cs[i]) &&
                          forall j :: 0 <= j < i ==> Probe(host, cs[j]).None?
  {
    assert forall i :: 1 <= i < |cs| ==> cs[i] == tail[i - 1];
    if r.Some? {
      var i :| 0 <= i < |tail| && r == Probe(host, tail[i]) && forall j :: 0 <= j < i ==> Probe(host, tail[j]).None?;
      assert r == Probe(host, cs[i + 1]);
      forall j | 0 <= j < i + 1
        ensures Probe(host, cs[j]).None?
      {
        if j > 0 {
          assert cs[j] == tail[j - 1];
        }
      }
    }
  }

  /** The first candidate that yields a key decides. */
  lemma ProbeAllFirst(host: Host, cs: seq<Value>)
    requires |cs| > 0 && Probe(host, cs[0]).Some?
    ensures ProbeAll(host, cs) == Probe(host, cs[0])
  {
  }

  /** The date fields `extractISODate` probes, in priority order. */
  function Candidates(r: Record): (cs: seq<Value>)
    ensures |cs| == 4
  {
    [Get(r, "date"), Get(r, "addedDate"), Get(r, "added"), Get(r, "Date")]
  }

  function ExtractISODate(host: Host, r: Record): Option<string> {
    ProbeAll(host, Candidates(r))
  }

  /** The date field of an advancement event or row (no trimming, no digit
      folding, no fast path: straight to `Date.parse`). */
  function AdvancementKey(host: Host, v: Value): Option<string> {
    if !Truthy(v) then None
    else match v
      case Str(s) =>
        (match host.parse(s)
         case Some(ms) => Some(KeyOfInstant(host, ms))
         case None => None)
      case DateObj(t) => Some(DateObjectKey(host, t))
      case Num(n) => NumericKey(host, n)
      case _ => None
  }

  // ------------------------------------------------------------ properties

  /** Falsy candidates are skipped, except the number 0, which is the epoch. */
  lemma ProbeSkipsFalsy(host: Host, v: Value)
    ensures !Truthy(v) && v != Num(0) ==> Probe(host, v).None?
    ensures Probe(host, Num(0)) == Some(KeyOfInstant(host, 0))
  {
  }

  /** Digits written in any folded block give the same key as ASCII digits. */
  lemma ProbeIgnoresDigitScript(host: Host, s: string)
    ensures Probe(host, Str(s)) == Probe(host, Str(FoldDigits(s)))
  {
    TrimFoldCommute(s);
    FoldDigitsIdempotent(Trim(s));
  }

  /** The fast path does not consult the host: its key is the same whatever
      `Date.parse` and the time zone do. */
  lemma FastPathIsHostIndependent(h1: Host, h2: Host, s: string)
    requires IsoPrefix(FoldDigits(Trim(s)))
    ensures ProbeText(h1, s) == ProbeText(h2, s)
    ensures ProbeText(h1, s) == Some(FastPathKey(FoldDigits(Trim(s))))
  {
  }

  lemma LiteralIsClean()
    ensures FoldDigits(Trim("2024/13/45 extra")) == "2024/13/45 extra"
  {
    var s := "2024/13/45 extra";
    TrimOfTrimmed(s);
    AsciiFoldFree(s);
  }

  lemma LiteralFastPath()
    ensures IsoPrefix("2024/13/45 extra")
    ensures FastPathKey("2024/13/45 extra") == "2024-13-45"
  {
  }

  /** The fast path copies the digits as written: a month of 13 or a day of
      45 still yields a key, and text after the date is ignored. */
  lemma FastPathNoRangeCheck(host: Host)
    ensures ProbeText(host, "2024/13/45 extra") == Some("2024-13-45")
  {
    LiteralIsClean();
    LiteralFastPath();
  }

  /** Such a key is no calendar date and reads back as an Invalid Date. */
  lemma OutOfRangeKeyUnreadable()
    ensures ParseKey("2024-13-45").None?
  {
    assert KeyDate("2024-13-45").month == 13;
  }

  /** A number of seconds and the same instant in milliseconds agree. */
  lemma SecondsAndMillisAgree(host: Host, secs: int)
    requires 1_000_000_000 <= secs < SecondsLimit
    ensures Probe(host, Num(secs)) == Probe(host, Num(secs * 1000))
    ensures Probe(host, Num(secs)).Some?
  {
    ProbeNumber(host, secs);
    ProbeNumber(host, secs * 1000);
    assert NumericInstant(secs) == Some(secs * 1000);
    assert NumericInstant(secs * 1000) == Some(secs * 1000);
  }

  lemma ProbeNumber(host: Host, n: int)
    ensures Probe(host, Num(n)) == NumericKey(host, n)
  {
  }

  /** A millisecond time value below 1e12 (before September 2001) is read
      as seconds: the key is that of the instant a thousand times later. */
  lemma SmallMillisReadAsSeconds(host: Host, n: int)
    requires 0 < n < SecondsLimit
    ensures Probe(host, Num(n)) == Some(KeyOfInstant(host, n * 1000))
  {
    ProbeNumber(host, n);
    assert NumericInstant(n) == Some(n * 1000);
  }

  /** Key-shaped text is untouched by trimming and digit folding. */
  lemma KeyTextIsClean(s: string)
    requires KeyShape(s)
    ensures FoldDigits(Trim(s)) == s
  {
    TrimOfTrimmed(s);
    assert forall i :: 0 <= i < |s| ==> s[i] == '-' || IsDigit(s[i]);
    AsciiFoldFree(s);
  }

  /** Key-shaped text takes the fast path to itself. */
  lemma KeyTextFastPath(s: string)
    requires KeyShape(s)
    ensures IsoPrefix(s) && FastPathKey(s) == s
  {
    assert s == s[..4] + "-" + s[5..7] + "-" + s[8..10];
  }

  /** An ISO date in text and a Date object anywhere in that local day give
      the same key. */
  lemma ProbeOfKeyText(host: Host, s: string)
    requires KeyShape(s)
    ensures Probe(host, Str(s)) == Some(s)
  {
    KeyTextIsClean(s);
    KeyTextFastPath(s);
  }

  lemma TextAndDateObjectAgree(host: Host, s: string, ms: int)
    requires ParseKey(s).Some? && s[0] != '0'
    requires LocalDay(host.tz, ms) == ParseKey(s).value
    ensures Probe(host, Str(s)) == Probe(host, DateObj(Some(ms)))
  {
    ProbeOfDateObject(host, ms);
    KeyOfParsedKey(s);
    assert KeyOfInstant(host, ms) == s;
    ProbeOfKeyText(host, s);
  }

  /** A valid Date object probes to the key of its local day. */
  lemma ProbeOfDateObject(host: Host, ms: int)
    ensures Probe(host, DateObj(Some(ms))) == Some(KeyOfDay(LocalDay(host.tz, ms)))
  {
  }
}

=== FILE: grid.dfy ===
/** The calendar grid of the contribution graph (the first half of `render`
    in js/contribution-graph.js): week columns aligned to Sunday, covering
    today-364 through today, and the per-day cell each position shows.

    Days are local day numbers; `today` is the local day of the render. The
    grid is a sequence of week columns, each a sequence of seven cells
    indexed by weekday, a cell holding its day or nothing.
 */
module Grid {
  import opened JsValues
  import opened Civil
  import opened DateKey
  import opened Activity

  type Column = seq<Option<int>>

  const DaysPerWeek: int := 7

  // ------------------------------------------------------------ levels

  /** `getLevelFromCount`: the shade of a day with count records. */
  function LevelFromCount(count: int): (level: int)
    ensures 0 <= level <= 4
  {
    if count <= 0 then 0
    else if count == 1 then 1
    else if count == 2 then 2
    else if count == 3 then 3
    else 4
  }

  /** The level is the count clamped to 0..4. */
  lemma LevelIsClampedCount(count: int)
    ensures LevelFromCount(count) == if count < 0 then 0 else if count > 4 then 4 else count
    ensures LevelFromCount(count) == 0 <==> count <= 0
  {
  }

  /** More records never give a lighter shade. */
  lemma LevelMonotone(a: int, b: int)
    requires a <= b
    ensures LevelFromCount(a) <= LevelFromCount(b)
  {
  }

  // ------------------------------------------------------------ layout

  /** The first day shown: today-364. */
  function StartDay(today: int): int {
    today - 364
  }

  /** `firstGridDate`: the Sunday on or before the start day. */
  function FirstGridDay(today: int): (f: int)
    ensures Weekday(f) == 0
    ensures f <= StartDay(today) < f + 7
    ensures StartDay(today) - f == Weekday(StartDay(today))
  {
    StartDay(today) - Weekday(StartDay(today))
  }

  /** `weeks = ceil(totalDays / 7)` with totalDays = today - firstGridDay + 1. */
  function WeekCount(today: int): (weeks: int)
    ensures weeks == 53
  {
    var totalDays := today - FirstGridDay(today) + 1;
    (totalDays + 6) / 7
  }

  /** The day the loop's cursor reaches at position i of the grid. */
  function CursorDay(today: int, i: int): int {
    FirstGridDay(today) + i
  }

  /** Position i lands in column i/7 at row i%7: the cursor's weekday. */
  lemma CursorWeekday(today: int, i: int)
    requires 0 <= i
    ensures Weekday(CursorDay(today, i)) == i % 7
  {
    var f := FirstGridDay(today);
    assert (f - 0) % 7 == 3;
    assert (f + i - i % 7) % 7 == 3 by {
      assert f + i - i % 7 == f + 7 * (i / 7);
    }
  }

  /** What the cell at column w, weekday d holds. */
  function CellAt(today: int, w: int, d: int): (c: Option<int>)
    ensures c.Some? <==> StartDay(today) <= CursorDay(today, 7 * w + d) <= today
    ensures c.Some? ==> c.value == CursorDay(today, 7 * w + d)
  {
    var day := CursorDay(today, 7 * w + d);
    if StartDay(today) <= day <= today then Some(day) else None
  }

  /** The grid `render` builds: WeekCount columns of seven cells. */
  function Layout(today: int): (grid: seq<Column>)
    ensures |grid| == WeekCount(today)
    ensures forall w :: 0 <= w < |grid| ==> |grid[w]| == DaysPerWeek
    ensures forall w, d :: 0 <= w < |grid| && 0 <= d < DaysPerWeek ==> grid[w][d] == CellAt(today, w, d)
  {
    seq(WeekCount(today), w => seq(DaysPerWeek, d => CellAt(today, w, d)))
  }

  /** The fill loop: position i sets the cell at column i/7 and the row of
      the cursor's weekday. */
  method FillGrid(today: int) returns (grid: seq<Column>)
    ensures grid == Layout(today)
  {
    var weeks := WeekCount(today);
    grid := seq(weeks, w => seq(DaysPerWeek, d => None));
    var i := 0;
    while i < weeks * DaysPerWeek
      invariant 0 <= i <= weeks * DaysPerWeek
      invariant |grid| == weeks
      invariant forall w :: 0 <= w < weeks ==> |grid[w]| == DaysPerWeek
      invariant forall w, d :: 0 <= w < weeks && 0 <= d < DaysPerWeek ==>
                  grid[w][d] == if 7 * w + d < i then CellAt(today, w, d) else None
    {
      var day := CursorDay(today, i);
      var w := i / 7;
      var d := Weekday(day);
      CursorWeekday(today, i);
      var cell := if StartDay(today) <= day <= today then Some(day) else None;
      grid := grid[w := grid[w][d := cell]];
      i := i + 1;
    }
    assert forall w :: 0 <= w < weeks ==> grid[w] == Layout(today)[w];
  }

  // ------------------------------------------------------------ counting

  /** Row-major position i of the grid, as the fill loop numbers it. */
  function Position(today: int, i: int): Option<int>
    requires 0 <= i
  {
    CellAt(today, i / 7, i % 7)
  }

  /** Position i holds a day exactly when sw <= i < sw + 365, where sw is
      the start day's weekday: sw cells of leading padding, then the 365
      days, then 6 - sw cells of trailing padding. */
  lemma PositionsDated(today: int, i: int)
    requires 0 <= i < 7 * WeekCount(today)
    ensures Position(today, i).Some? <==> Weekday(StartDay(today)) <= i < Weekday(StartDay(today)) + 365
    ensures Position(today, i).Some? ==> Position(today, i).value == FirstGridDay(today) + i
  {
    assert 7 * (i / 7) + i % 7 == i;
  }

  /** Number of cells holding a day. */
  function Dated(cells: seq<Option<int>>): (n: nat)
    ensures n <= |cells|
  {
    if |cells| == 0 then 0 else (if cells[0].Some? then 1 else 0) + Dated(cells[1..])
  }

  /** Cells dated exactly on the index range [lo, hi) number hi - lo. */
  lemma {:induction false} DatedRange(cells: seq<Option<int>>, lo: int, hi: int)
    requires 0 <= lo <= hi <= |cells|
    requires forall i :: 0 <= i < |cells| ==> (cells[i].Some? <==> lo <= i < hi)
    ensures Dated(cells) == hi - lo
    decreases |cells|
  {
    if |cells| > 0 {
      var rest := cells[1..];
      assert forall i :: 0 <= i < |rest| ==> rest[i] == cells[i + 1];
      if lo == 0 && hi == 0 {
        DatedRange(rest, 0, 0);
      } else if lo == 0 {
        DatedRange(rest, 0, hi - 1);
      } else {
        DatedRange(rest, lo - 1, hi - 1);
      }
    }
  }

  /** The grid read position by position. */
  function Flatten(today: int): (cells: seq<Option<int>>)
    ensures |cells| == 7 * WeekCount(today)
    ensures forall i :: 0 <= i < |cells| ==> cells[i] == Position(today, i)
  {
    seq(7 * WeekCount(today), i requires 0 <= i => Position(today, i))
  }

  /** Exactly 365 of the 371 positions hold a day. */
  lemma ThreeSixtyFiveDays(today: int)
    ensures Dated(Flatten(today)) == 365
    ensures |Flatten(today)| - 365 == 6
  {
    var cells := Flatten(today);
    var sw := Weekday(StartDay(today));
    forall i | 0 <= i < |cells|
      ensures cells[i].Some? <==> sw <= i < sw + 365
    {
      PositionsDated(today, i);
    }
    DatedRange(cells, sw, sw + 365);
  }

  // ------------------------------------------------------------ cells

  /** What a dated cell shows: its key, count, level, and the `pinned`
      (has records) and `recent` (has records, within the last 7 days) marks. */
  datatype DayCell = DayCell(key: string, count: nat, level: int, pinned: bool, recent: bool)

  function ShowDay(m: ActivityMap, today: int, day: int): (c: DayCell)
    ensures c.key == KeyOfDay(day)
    ensures c.count == (if c.key in m then |m[c.key]| else 0)
    ensures c.level == LevelFromCount(c.count)
    ensures c.pinned <==> c.count > 0
    ensures c.recent ==> c.pinned
  {
    var key := KeyOfDay(day);
    var count := if key in m then |m[key]| else 0;
    var back := ParseKey(key);
    DayCell(key, count, LevelFromCount(count), count > 0,
            count > 0 && back.Some? && 0 <= today - back.value <= 6)
  }

  /** A cell is pinned exactly when it is shaded. */
  lemma PinnedIffShaded(m: ActivityMap, today: int, day: int)
    ensures ShowDay(m, today, day).pinned <==> ShowDay(m, today, day).level > 0
  {
    LevelIsClampedCount(ShowDay(m, today, day).count);
  }

  /** With a four-digit year, the `recent` mark means: records, and the day
      is one of the last seven. */
  lemma RecentMeansLastWeek(m: ActivityMap, today: int, day: int)
    requires 1000 <= DateOf(day).year <= 9999
    ensures ShowDay(m, today, day).recent <==> ShowDay(m, today, day).pinned && today - 6 <= day <= today
  {
    ParseKeyOfDay(day);
  }

  // ------------------------------------------------------------ the index on the grid

  /** A readable key for a day of a year from 1000 on has no leading zero. */
  lemma NoLeadingZero(k: string)
    requires ParseKey(k).Some?
    requires DateOf(ParseKey(k).value).year >= 1000
    ensures k[0] != '0'
  {
    ParseKeyDate(k);
  }

  /** Every key of an index whose keys are readable days of the window,
      from year 1000 on, is the key of that day's cell, which shows all of
      the key's records. */
  lemma WindowKeysAreShown(m: ActivityMap, today: int)
    requires DateOf(StartDay(today)).year >= 1000
    requires forall k :: k in m ==>
               ParseKey(k).Some? && StartDay(today) <= ParseKey(k).value <= today && |m[k]| > 0
    ensures forall k :: k in m ==> ShowDay(m, today, ParseKey(k).value).count == |m[k]| > 0
  {
    forall k | k in m
      ensures ShowDay(m, today, ParseKey(k).value).count == |m[k]|
    {
      var d := ParseKey(k).value;
      YearOfMonotone(StartDay(today), d);
      NoLeadingZero(k);
      KeyOfParsedKey(k);
    }
  }

  /** Every day the corrected index stores is a dated cell of the grid,
      and that cell shows all of the day's records. */
  lemma StoredDaysAreShown(host: Host, now: int, projects: seq<Record>, events: seq<Record>, rows: seq<Record>)
    requires Build(Corrected, host, now, projects, events, rows).Ok?
    requires DateOf(StartDay(LocalDay(host.tz, now))).year >= 1000
    ensures var m := Build(Corrected, host, now, projects, events, rows).value;
            var today := LocalDay(host.tz, now);
            forall k :: k in m ==>
              ParseKey(k).Some? && StartDay(today) <= ParseKey(k).value <= today &&
              ShowDay(m, today, ParseKey(k).value).count == |m[k]| > 0
  {
    var m := Build(Corrected, host, now, projects, events, rows).value;
    CorrectedWindowIsGridWindow(host, now, projects, events, rows);
    BuildKeepsInvariant(Corrected, host, now, projects, events, rows);
    WindowKeysAreShown(m, LocalDay(host.tz, now));
  }
}

=== FILE: jsvalues.dfy ===
/** The slice of JavaScript value semantics the portfolio scripts rely on:
    truthiness, the `||` operator, `String(v)`, `String.prototype.trim`
    and `toLowerCase`. Records (plain objects from the data API) are maps
    from property names to values; a missing property reads as undefined.
 */
module JsValues {

  datatype Option<T> = None | Some(value: T)

  datatype Result<T> = Ok(value: T) | Err(message: string)

  /** A property value. Numbers are integers; a Date object carries its
      time value, or None for an Invalid Date. */
  datatype Value =
    | Undefined
    | Null
    | Bool(b: bool)
    | Num(n: int)
    | Str(s: string)
    | DateObj(time: Option<int>)

  type Record = map<string, Value>

  /** What the page cannot compute itself: `Date.parse` on free text, the
      text form of a Date object, and the local time-zone offset. */
  datatype Host = Host(tz: int, parse: string -> Option<int>, dateText: int -> string)

  function Get(r: Record, key: string): Value {
    if key in r then r[key] else Undefined
  }

  predicate Truthy(v: Value) {
    match v
    case Undefined => false
    case Null => false
    case Bool(b) => b
    case Num(n) => n != 0
    case Str(s) => s != ""
    case DateObj(_) => true
  }

  /** `a || b`. */
  function Or(a: Value, b: Value): (r: Value)
    ensures Truthy(r) <==> Truthy(a) || Truthy(b)
    ensures r == a || r == b
  {
    if Truthy(a) then a else b
  }

  function DigitChar(d: int): (c: char)
    requires 0 <= d <= 9
    ensures '0' <= c <= '9'
  {
    ('0' as int + d) as char
  }

  /** Decimal text of a natural number, most significant digit first. */
  function NatText(n: nat): (s: string)
    ensures |s| >= 1
    ensures forall i :: 0 <= i < |s| ==> '0' <= s[i] <= '9'
    decreases n
  {
    if n < 10 then [DigitChar(n)] else NatText(n / 10) + [DigitChar(n % 10)]
  }

  /** `String(n)` for an integer-valued number. */
  function IntText(n: int): string {
    if n < 0 then "-" + NatText(-n) else NatText(n)
  }

  /** `String(v)`. */
  function Text(host: Host, v: Value): string {
    match v
    case Undefined => "undefined"
    case Null => "null"
    case Bool(b) => if b then "true" else "false"
    case Num(n) => IntText(n)
    case Str(s) => s
    case DateObj(None) => "Invalid Date"
    case DateObj(Some(t)) => host.dateText(t)
  }

  /** The WhiteSpace and LineTerminator code points `trim` removes. */
  predicate IsJsWhitespace(c: char) {
    c == '\t' || c == '\n' || c == '\U{B}' || c == '\U{C}' || c == '\r' || c == ' '
    || c == '\U{A0}' || c == '\U{1680}' || ('\U{2000}' <= c <= '\U{200A}')
    || c == '\U{2028}' || c == '\U{2029}' || c == '\U{202F}' || c == '\U{205F}'
    || c == '\U{3000}' || c == '\U{FEFF}'
  }

  /** Number of leading whitespace characters. */
  function LeadingSpace(s: string): (n: nat)
    ensures n <= |s|
    ensures forall i :: 0 <= i < n ==> IsJsWhitespace(s[i])
    ensures n < |s| ==> !IsJsWhitespace(s[n])
  {
    if |s| == 0 || !IsJsWhitespace(s[0]) then 0 else 1 + LeadingSpace(s[1..])
  }

  /** Number of trailing whitespace characters. */
  function TrailingSpace(s: string): (n: nat)
    ensures n <= |s|
    ensures forall i :: |s| - n <= i < |s| ==> IsJsWhitespace(s[i])
    ensures n < |s| ==> !IsJsWhitespace(s[|s| - n - 1])
  {
    if |s| == 0 || !IsJsWhitespace(s[|s| - 1]) then 0 else 1 + TrailingSpace(s[..|s| - 1])
  }

  /** `s.trim()`: the slice between the leading and trailing whitespace. */
  function Trim(s: string): (r: string)
    ensures LeadingSpace(s) + |r| <= |s|
    ensures r == s[LeadingSpace(s)..LeadingSpace(s) + |r|]
    ensures |r| > 0 ==> !IsJsWhitespace(r[0]) && !IsJsWhitespace(r[|r| - 1])
    ensures forall i :: LeadingSpace(s) + |r| <= i < |s| ==> IsJsWhitespace(s[i])
  {
    var a := LeadingSpace(s);
    var rest := s[a..];
    rest[..|rest| - TrailingSpace(rest)]
  }

  lemma LeadingSpaceZero(s: string)
    requires |s| == 0 || !IsJsWhitespace(s[0])
    ensures LeadingSpace(s) == 0
  {
  }

  lemma TrailingSpaceZero(s: string)
    requires |s| == 0 || !IsJsWhitespace(s[|s| - 1])
    ensures TrailingSpace(s) == 0
  {
  }

  /** Trimming is idempotent. */
  lemma TrimIdempotent(s: string)
    ensures Trim(Trim(s)) == Trim(s)
  {
    var t := Trim(s);
    LeadingSpaceZero(t);
    TrailingSpaceZero(t);
  }

  /** Text with no whitespace at either end is its own trim. */
  lemma TrimOfTrimmed(s: string)
    requires |s| == 0 || (!IsJsWhitespace(s[0]) && !IsJsWhitespace(s[|s| - 1]))
    ensures Trim(s) == s
  {
    LeadingSpaceZero(s);
    TrailingSpaceZero(s);
  }

  function LowerChar(c: char): char {
    if 'A' <= c <= 'Z' then (c as int + 32) as char else c
  }

  /** `s.toLowerCase()` restricted to the ASCII letters. */
  function Lower(s: string): (r: string)
    ensures |r| == |s|
    ensures forall i :: 0 <= i < |s| ==> r[i] == LowerChar(s[i])
  {
    seq(|s|, i requires 0 <= i < |s| => LowerChar(s[i]))
  }

  // ------------------------------------------------------ Number(v) === 0

  predicate AllZeros(s: string) {
    forall i :: 0 <= i < |s| ==> s[i] == '0'
  }

  predicate AllDecimal(s: string) {
    forall i :: 0 <= i < |s| ==> '0' <= s[i] <= '9'
  }

  /** Index of the first character of s that is c, or |s|. */
  function IndexOf(s: string, c: char): (k: nat)
    ensures k <= |s|
    ensures forall i :: 0 <= i < k ==> s[i] != c
    ensures k < |s| ==> s[k] == c
  {
    if |s| == 0 || s[0] == c then 0 else 1 + IndexOf(s[1..], c)
  }

  /** Index of the exponent marker `e` or `E`, or |s|. */
  function ExponentAt(s: string): (k: nat)
    ensures k <= |s|
    ensures forall i :: 0 <= i < k ==> s[i] != 'e' && s[i] != 'E'
    ensures k < |s| ==> s[k] == 'e' || s[k] == 'E'
  {
    if |s| == 0 || s[0] == 'e' || s[0] == 'E' then 0 else 1 + ExponentAt(s[1..])
  }

  /** A well-formed exponent: an optional sign and at least one digit. */
  predicate ExponentDigits(t: string) {
    if |t| > 0 && (t[0] == '+' || t[0] == '-') then |t| >= 2 && AllDecimal(t[1..])
    else |t| >= 1 && AllDecimal(t)
  }

  /** Digits with an optional decimal point, at least one digit, all zero. */
  predicate ZeroMantissa(m: string) {
    var d := IndexOf(m, '.');
    AllZeros(m[..d]) && (d == |m| ==> d > 0)
    && (d < |m| ==> AllZeros(m[d + 1..]) && (d > 0 || d + 1 < |m|))
  }

  /** An unsigned decimal literal whose value is zero. */
  predicate ZeroUnsigned(t: string) {
    var k := ExponentAt(t);
    ZeroMantissa(t[..k]) && (k < |t| ==> ExponentDigits(t[k + 1..]))
  }

  /** The trimmed text of a string that `Number` reads as zero: nothing at
      all, a signed or unsigned decimal literal of value zero, or a `0x`,
      `0o` or `0b` literal whose digits are all zero. */
  predicate ZeroNumeral(t: string) {
    if t == "" then true
    else if t[0] == '+' || t[0] == '-' then ZeroUnsigned(t[1..])
    else if |t| >= 3 && t[0] == '0' && t[1] in "xXoObB" then AllZeros(t[2..])
    else ZeroUnsigned(t)
  }

  /** `Number(v) === 0`. A Date object converts to its time value and an
      Invalid Date to NaN. */
  predicate NumberIsZero(v: Value) {
    match v
    case Undefined => false
    case Null => true
    case Bool(b) => !b
    case Num(n) => n == 0
    case Str(s) => ZeroNumeral(Trim(s))
    case DateObj(t) => t == Some(0)
  }

  /** Whitespace-only text, empty text included, reads as zero. */
  lemma BlankIsZero(s: string)
    requires forall i :: 0 <= i < |s| ==> IsJsWhitespace(s[i])
    ensures NumberIsZero(Str(s))
  {
    assert LeadingSpace(s) == |s|;
  }

  lemma ZerosUnsigned(z: string)
    requires |z| > 0 && AllZeros(z)
    ensures ZeroUnsigned(z)
  {
    assert IndexOf(z, '.') == |z| && ExponentAt(z) == |z|;
  }

  lemma ZerosNumeral(z: string)
    requires |z| > 0 && AllZeros(z)
    ensures NumberIsZero(Str(z))
  {
    TrimOfTrimmed(z);
    ZerosUnsigned(z);
    assert z[0] == '0' && z[0] != '+' && z[0] != '-';
    assert |z| >= 3 ==> z[1] == '0' && z[1] !in "xXoObB";
  }

  lemma NegatedZerosNumeral(z: string)
    requires |z| > 0 && AllZeros(z)
    ensures NumberIsZero(Str("-" + z))
  {
    var m := "-" + z;
    assert m[1..] == z && m[0] == '-' && m[|m| - 1] == z[|z| - 1];
    TrimOfTrimmed(m);
    ZerosUnsigned(z);
  }

  lemma HexZerosNumeral(z: string)
    requires |z| > 0 && AllZeros(z)
    ensures NumberIsZero(Str("0x" + z))
  {
    var h := "0x" + z;
    assert h[2..] == z && h[0] == '0' && h[1] == 'x' && h[|h| - 1] == z[|z| - 1];
    assert h[1] in "xXoObB";
    TrimOfTrimmed(h);
  }

  /** A run of zero digits reads as zero, signed or with a `0x` prefix. */
  lemma ZerosAreZero(z: string)
    requires |z| > 0 && AllZeros(z)
    ensures NumberIsZero(Str(z)) && NumberIsZero(Str("-" + z)) && NumberIsZero(Str("0x" + z))
  {
    ZerosNumeral(z);
    NegatedZerosNumeral(z);
    HexZerosNumeral(z);
  }

  lemma NonZeroUnsigned(s: string, j: int)
    requires AllDecimal(s) && 0 <= j < |s| && s[j] != '0'
    ensures !ZeroUnsigned(s)
  {
    assert IndexOf(s, '.') == |s| && ExponentAt(s) == |s|;
    assert s[..|s|][j] == s[j];
  }

  lemma NonZeroNumeral(s: string, j: int)
    requires AllDecimal(s) && 0 <= j < |s| && s[j] != '0'
    ensures !ZeroNumeral(s)
  {
    NonZeroUnsigned(s, j);
    assert s[0] != '+' && s[0] != '-';
    assert |s| >= 2 ==> s[1] !in "xXoObB";
  }

  /** Decimal digits with a non-zero digit among them are not zero. */
  lemma NonZeroDigits(s: string, j: int)
    requires AllDecimal(s) && 0 <= j < |s| && s[j] != '0'
    ensures !NumberIsZero(Str(s))
  {
    TrimOfTrimmed(s);
    NonZeroNumeral(s, j);
  }
}

=== FILE: modal.dfy ===
/** The contribution-day modal (js/contrib-modal.js): the HTML escaping of
    every field it interpolates into markup, and what `open` shows for the
    payload of a `contrib:open` event.

    Markup is modelled as the text it is: a string whose only structure is
    the five character references `escapeHtml` writes. `Unescape` is what
    a browser's parser makes of such text, so a round trip through it says
    the page shows exactly the original characters.
 */
module Modal {
  import opened JsValues

  // ------------------------------------------------------------ escaping

  /** The five characters `escapeHtml` rewrites. */
  predicate Special(c: char) {
    c == '&' || c == '<' || c == '>' || c == '"' || c == '\''
  }

  /** The text that stands for c in escaped output: one of the entities
      `&amp; &lt; &gt; &quot; &#39;`, or c itself. */
  function Entity(c: char): (e: string)
    ensures |e| >= 1
    ensures e[0] == '&' <==> Special(c)
    ensures !Special(c) ==> e == [c]
  {
    if c == '&' then "&amp;"
    else if c == '<' then "&lt;"
    else if c == '>' then "&gt;"
    else if c == '"' then "&quot;"
    else if c == '\'' then "&#39;"
    else [c]
  }

  predicate StartsWith(t: string, p: string) {
    |p| <= |t| && t[..|p|] == p
  }

  /** One of the five entities begins at position i of r. */
  predicate EntityAt(r: string, i: int)
    requires 0 <= i <= |r|
  {
    var t := r[i..];
    StartsWith(t, "&amp;") || StartsWith(t, "&lt;") || StartsWith(t, "&gt;")
    || StartsWith(t, "&quot;") || StartsWith(t, "&#39;")
  }

  /** Text that is safe inside an element or a quoted attribute: no `<`,
      `>`, `"` or `'`, and every `&` begins one of the five entities. */
  predicate Safe(r: string) {
    forall i :: 0 <= i < |r| ==>
      r[i] != '<' && r[i] != '>' && r[i] != '"' && r[i] != '\'' && (r[i] == '&' ==> EntityAt(r, i))
  }

  /** How a browser reads escaped text back: each of the five entities
      becomes its character, everything else stands for itself. */
  function Unescape(r: string): string
    decreases |r|
  {
    if |r| == 0 then ""
    else if StartsWith(r, "&amp;") then "&" + Unescape(r[5..])
    else if StartsWith(r, "&lt;") then "<" + Unescape(r[4..])
    else if StartsWith(r, "&gt;") then ">" + Unescape(r[4..])
    else if StartsWith(r, "&quot;") then "\"" + Unescape(r[6..])
    else if StartsWith(r, "&#39;") then "'" + Unescape(r[5..])
    else [r[0]] + Unescape(r[1..])
  }

  /** The regular-expression replacement over `String(s)`: each character
      in turn becomes its entity. */
  function EscapeText(s: string): (r: string)
    ensures Safe(r)
    ensures Unescape(r) == s
    ensures |r| >= |s|
  {
    if |s| == 0 then ""
    else
      var rest := EscapeText(s[1..]);
      EscapeStep(s[0], rest, s[1..]);
      assert [s[0]] + s[1..] == s;
      Entity(s[0]) + rest
  }

  /** An entity prepended to safe text keeps it safe, and reads back as its
      character followed by what the text reads back as. */
  lemma EscapeStep(c: char, rest: string, s: string)
    requires Safe(rest) && Unescape(rest) == s
    ensures Safe(Entity(c) + rest)
    ensures Unescape(Entity(c) + rest) == [c] + s
  {
    EntityIsSafe(c);
    SafeAppend(Entity(c), rest);
    UnescapeEntity(c, rest);
  }

  lemma EntityIsSafe(c: char)
    ensures Safe(Entity(c))
  {
    var e := Entity(c);
    assert e[0..] == e;
  }

  /** Safe text followed by safe text is safe: an entity that begins in the
      first part lies wholly inside it. */
  lemma SafeAppend(a: string, b: string)
    requires Safe(a) && Safe(b)
    ensures Safe(a + b)
  {
    var t := a + b;
    forall i | 0 <= i < |t|
      ensures t[i] != '<' && t[i] != '>' && t[i] != '"' && t[i] != '\'' && (t[i] == '&' ==> EntityAt(t, i))
    {
      if i >= |a| {
        assert t[i] == b[i - |a|];
        assert t[i..] == b[i - |a|..];
      } else {
        assert t[i] == a[i];
        assert t[i..] == a[i..] + b;
        PrefixExtends(a[i..], b);
      }
    }
  }

  lemma PrefixExtends(u: string, b: string)
    requires |u| > 0
    ensures forall p :: StartsWith(u, p) ==> StartsWith(u + b, p)
  {
    forall p | StartsWith(u, p)
      ensures StartsWith(u + b, p)
    {
      assert (u + b)[..|p|] == u[..|p|];
    }
  }

  /** Reading back an entity and what follows it. */
  lemma UnescapeEntity(c: char, rest: string)
    ensures Unescape(Entity(c) + rest) == [c] + Unescape(rest)
  {
    if c == '&' {
      UnescapeAmp(rest);
    } else if c == '<' {
      UnescapeLt(rest);
    } else if c == '>' {
      UnescapeGt(rest);
    } else if c == '"' {
      UnescapeQuot(rest);
    } else if c == '\'' {
      UnescapeApos(rest);
    } else {
      UnescapePlain(c, rest);
    }
  }

  lemma UnescapePlain(c: char, rest: string)
    requires !Special(c)
    ensures Unescape([c] + rest) == [c] + Unescape(rest)
  {
    var t := [c] + rest;
    assert t[0] == c && t[1..] == rest;
  }

  lemma EntityThenRest(e: string, rest: string)
    ensures StartsWith(e + rest, e) && (e + rest)[|e|..] == rest
  {
    assert (e + rest)[..|e|] == e;
  }

  lemma UnescapeAmp(rest: string)
    ensures Unescape("&amp;" + rest) == "&" + Unescape(rest)
  {
    EntityThenRest("&amp;", rest);
  }

  lemma UnescapeLt(rest: string)
    ensures Unescape("&lt;" + rest) == "<" + Unescape(rest)
  {
    EntityThenRest("&lt;", rest);
    assert ("&lt;" + rest)[1] == 'l';
  }

  lemma UnescapeGt(rest: string)
    ensures Unescape("&gt;" + rest) == ">" + Unescape(rest)
  {
    EntityThenRest("&gt;", rest);
    assert ("&gt;" + rest)[1] == 'g';
  }

  lemma UnescapeQuot(rest: string)
    ensures Unescape("&quot;" + rest) == "\"" + Unescape(rest)
  {
    EntityThenRest("&quot;", rest);
    assert ("&quot;" + rest)[1] == 'q';
  }

  lemma UnescapeApos(rest: string)
    ensures Unescape("&#39;" + rest) == "'" + Unescape(rest)
  {
    EntityThenRest("&#39;", rest);
    assert ("&#39;" + rest)[1] == '#';
  }

  /** `escapeHtml(s)`: nothing for a falsy value, otherwise its text with
      the five special characters replaced by entities. */
  function EscapeHtml(host: Host, v: Value): (r: string)
    ensures !Truthy(v) ==> r == ""
    ensures Truthy(v) ==> Unescape(r) == Text(host, v)
    ensures Safe(r)
  {
    if !Truthy(v) then "" else EscapeText(Text(host, v))
  }

  /** The replacement of escaped text, one character at a time: escaping
      text made of two parts escapes each part. */
  lemma {:induction false} EscapeConcat(a: string, b: string)
    ensures EscapeText(a + b) == EscapeText(a) + EscapeText(b)
    decreases |a|
  {
    if |a| > 0 {
      assert (a + b)[0] == a[0] && (a + b)[1..] == a[1..] + b;
      EscapeConcat(a[1..], b);
    } else {
      assert a + b == b;
    }
  }

  /** Text without any of the five characters is left exactly as it is. */
  lemma {:induction false} PlainTextUnchanged(s: string)
    requires forall i :: 0 <= i < |s| ==> !Special(s[i])
    ensures EscapeText(s) == s
    decreases |s|
  {
    if |s| > 0 {
      PlainTextUnchanged(s[1..]);
      assert [s[0]] + s[1..] == s;
    }
  }

  /** Each single character is written as its entity. */
  lemma OneCharacter(c: char)
    ensures EscapeText([c]) == Entity(c)
  {
    assert [c][1..] == [];
  }

  /** `.replace(/"/g, '%22')`: each double quote becomes `%22`. */
  function ReplaceQuotes(t: string): (r: string)
    ensures (forall i :: 0 <= i < |t| ==> t[i] != '"') ==> r == t
  {
    if |t| == 0 then ""
    else (if t[0] == '"' then "%22" else [t[0]]) + ReplaceQuotes(t[1..])
  }

  /** `escapeAttr(s)`: escaped text with its double quotes replaced; no
      double quote survives escaping, so it is escaped text unchanged. */
  function EscapeAttr(host: Host, v: Value): (r: string)
    ensures r == EscapeHtml(host, v)
  {
    var e := EscapeHtml(host, v);
    assert forall i :: 0 <= i < |e| ==> e[i] != '"';
    ReplaceQuotes(e)
  }

  // ------------------------------------------------------------ the dialog

  /** `detail.projects`: an array of project records, or any other value. */
  datatype ProjectsField = Array(items: seq<Record>) | Other(v: Value)

  /** The `detail` object of a `contrib:open` event. */
  datatype Detail = Detail(date: Value, projects: ProjectsField)

  /** One project card: heading, category, optional status badge,
      description and optional link, each as the escaped text placed in
      the markup. */
  datatype Card = Card(heading: string, category: string, status: Option<string>, description: string, link: Option<string>)

  datatype Body = NoProjects | Cards(cards: seq<Card>)

  /** The dialog as `open` leaves it: its title text and its body. */
  datatype View = View(title: string, body: Body)

  /** `p.name || p['Project Name'] || '(untitled)'`. */
  function Heading(p: Record): (v: Value)
    ensures Truthy(v)
  {
    Or(Or(Get(p, "name"), Get(p, "Project Name")), Str("(untitled)"))
  }

  function CardOf(host: Host, p: Record): (c: Card)
    ensures Safe(c.heading) && Safe(c.category) && Safe(c.description)
    ensures c.status.Some? <==> Truthy(Get(p, "status"))
    ensures c.status.Some? ==> Safe(c.status.value) && Unescape(c.status.value) == Text(host, Get(p, "status"))
    ensures c.link.Some? <==> Truthy(Get(p, "link"))
    ensures c.link.Some? ==> Safe(c.link.value) && Unescape(c.link.value) == Text(host, Get(p, "link"))
  {
    var status := Get(p, "status");
    var link := Get(p, "link");
    Card(EscapeHtml(host, Heading(p)),
         EscapeHtml(host, Or(Or(Get(p, "category"), Get(p, "Category")), Str(""))),
         if Truthy(status) then Some(EscapeHtml(host, status)) else None,
         EscapeHtml(host, Or(Or(Get(p, "description"), Get(p, "Description")), Str(""))),
         if Truthy(link) then Some(EscapeAttr(host, link)) else None)
  }

  /** A card's heading shows the first truthy of `name` and
      `'Project Name'`, or `(untitled)`. */
  lemma HeadingFallback(host: Host, p: Record)
    ensures Unescape(CardOf(host, p).heading) ==
              if Truthy(Get(p, "name")) then Text(host, Get(p, "name"))
              else if Truthy(Get(p, "Project Name")) then Text(host, Get(p, "Project Name"))
              else "(untitled)"
  {
  }

  /** `open(title, items)`. */
  function Open(host: Host, title: Value, items: seq<Record>): (v: View)
    ensures v.body.NoProjects? <==> |items| == 0
    ensures v.body.Cards? ==>
              |v.body.cards| == |items| &&
              forall j :: 0 <= j < |items| ==> v.body.cards[j] == CardOf(host, items[j])
  {
    View(Text(host, title),
         if |items| == 0 then NoProjects else Cards(seq(|items|, j requires 0 <= j < |items| => CardOf(host, items[j]))))
  }

  /** The `contrib:open` listener: a missing detail reads as `{}`, the
      title is `detail.date || ''`, and the items are `detail.projects`
      only when it is an array. */
  function OnContribOpen(host: Host, detail: Option<Detail>): (v: View)
    ensures v.body.NoProjects? <==>
              detail.None? || detail.value.projects.Other? || |detail.value.projects.items| == 0
    ensures v.body.Cards? ==>
              detail.Some? && detail.value.projects.Array? &&
              |v.body.cards| == |detail.value.projects.items| &&
              forall j :: 0 <= j < |v.body.cards| ==> v.body.cards[j] == CardOf(host, detail.value.projects.items[j])
    ensures v.title == if detail.Some? && Truthy(detail.value.date) then Text(host, detail.value.date) else ""
  {
    var d := if detail.Some? then detail.value else Detail(Undefined, Other(Undefined));
    var date := Or(d.date, Str(""));
    var items := if d.projects.Array? then d.projects.items else [];
    Open(host, date, items)
  }

  /** Whatever the payload, every piece of project text the dialog places
      in markup is safe. */
  lemma DialogIsSafe(host: Host, detail: Option<Detail>)
    ensures var v := OnContribOpen(host, detail);
            v.body.Cards? ==> forall j :: 0 <= j < |v.body.cards| ==>
              var c := v.body.cards[j];
              Safe(c.heading) && Safe(c.category) && Safe(c.description) &&
              (c.status.Some? ==> Safe(c.status.value)) && (c.link.Some? ==> Safe(c.link.value))
  {
  }
}

=== FILE: months.dfy ===
/** Month headers of the contribution graph (the second half of the layout
    in `render`, js/contribution-graph.js): per-column statistics, the
    "day-1 majority" rule choosing where each month's header starts, the
    ascending sort of the starts, and each header's maximal-run span and
    label.

    A week column is read as the list of its dated cells in weekday order,
    each cell a `Day`: the Date object's day number together with what the
    header code reads from it (`getFullYear`, `getMonth() + 1`, `getDate`).
    The column statistics and the header scan are stated for any list of
    such columns; the last part instantiates them with the real grid.
 */
module Months {
  import opened JsValues
  import opened Civil
  import opened Activity
  import opened Grid

  /** The `YYYY-MM` key a header is filed under. */
  datatype MonthKey = MonthKey(year: int, month: int)

  /** A dated cell: its day number, its month's key and its day of month. */
  datatype Day = Day(number: int, key: MonthKey, date: int)

  /** An entry of `monthStarts`. */
  datatype MonthStart = MonthStart(key: MonthKey, start: nat)

  /** An entry of `monthHeaders`; the label is a month number (1..12). */
  datatype Header = Header(start: nat, span: nat, title: int)

  // ------------------------------------------------------------ column statistics

  /** `counts[k] || 0`: cells of month k in the column. */
  function Count(ds: seq<Day>, k: MonthKey): (n: nat)
    ensures n <= |ds|
  {
    if |ds| == 0 then 0 else (if ds[0].key == k then 1 else 0) + Count(ds[1..], k)
  }

  /** `countPrev`: the sum of `counts` over every other month. */
  function Others(ds: seq<Day>, k: MonthKey): (n: nat)
    ensures n <= |ds|
  {
    if |ds| == 0 then 0 else (if ds[0].key != k then 1 else 0) + Others(ds[1..], k)
  }

  /** Every cell counts for its own month or for another. */
  lemma {:induction false} CountsPartition(ds: seq<Day>, k: MonthKey)
    ensures Count(ds, k) + Others(ds, k) == |ds|
  {
    if |ds| > 0 {
      CountsPartition(ds[1..], k);
    }
  }

  /** `day1Key`: the key of the last cell that is the 1st of a month. */
  function Day1(ds: seq<Day>): (r: Option<MonthKey>)
    ensures r.None? <==> forall i :: 0 <= i < |ds| ==> ds[i].date != 1
    ensures r.Some? ==> exists i :: 0 <= i < |ds| && ds[i].date == 1 && ds[i].key == r.value
  {
    if |ds| == 0 then None
    else if ds[|ds| - 1].date == 1 then Some(ds[|ds| - 1].key)
    else
      var r := Day1(ds[..|ds| - 1]);
      assert forall i :: 0 <= i < |ds| - 1 ==> ds[..|ds| - 1][i] == ds[i];
      r
  }

  // ------------------------------------------------------------ month starts

  /** `firstColWithDate`, scanning from column w. */
  function FirstDated(cols: seq<seq<Day>>, w: nat): (f: nat)
    requires w <= |cols|
    ensures w <= f <= |cols|
    ensures forall c :: w <= c < f ==> |cols[c]| == 0
    ensures f < |cols| ==> |cols[f]| > 0
    decreases |cols| - w
  {
    if w < |cols| && |cols[w]| == 0 then FirstDated(cols, w + 1) else w
  }

  /** The header seeded by the first dated column, for its first cell's month. */
  function Seed(cols: seq<seq<Day>>): seq<MonthStart> {
    var f := FirstDated(cols, 0);
    if f < |cols| then [MonthStart(cols[f][0].key, f)] else []
  }

  function Keys(ms: seq<MonthStart>): set<MonthKey> {
    set i | 0 <= i < |ms| :: ms[i].key
  }

  /** Where a month whose 1st lies in column w starts: at w if its cells
      there strictly outnumber all others, else at w + 1. */
  function StartFor(ds: seq<Day>, k: MonthKey, w: nat): nat {
    if Count(ds, k) > Others(ds, k) then w else w + 1
  }

  /** The loop over columns w.. pushing one start per unseen day-1 month. */
  function Scan(cols: seq<seq<Day>>, w: nat, acc: seq<MonthStart>, seen: set<MonthKey>): (r: seq<MonthStart>)
    requires w <= |cols|
    ensures |acc| <= |r| && r[..|acc|] == acc
    decreases |cols| - w
  {
    if w == |cols| then acc
    else
      var k := Day1(cols[w]);
      if k.None? || k.value in seen then Scan(cols, w + 1, acc, seen)
      else
        var start := StartFor(cols[w], k.value, w);
        if start < |cols| then Scan(cols, w + 1, acc + [MonthStart(k.value, start)], seen + {k.value})
        else Scan(cols, w + 1, acc, seen)
  }

  predicate SortedByStart(ms: seq<MonthStart>) {
    forall i, j :: 0 <= i < j < |ms| ==> ms[i].start <= ms[j].start
  }

  /** Insert x after every element whose start is not larger: one step of
      a stable sort. */
  function InsertByStart(ms: seq<MonthStart>, x: MonthStart): (r: seq<MonthStart>)
    ensures |r| == |ms| + 1
  {
    if |ms| == 0 || ms[|ms| - 1].start <= x.start then ms + [x]
    else InsertByStart(ms[..|ms| - 1], x) + [ms[|ms| - 1]]
  }

  /** Inserting adds x and keeps every other element. */
  lemma {:induction false} InsertPermutes(ms: seq<MonthStart>, x: MonthStart)
    ensures multiset(InsertByStart(ms, x)) == multiset(ms) + multiset{x}
  {
    if |ms| > 0 && ms[|ms| - 1].start > x.start {
      var init, last := ms[..|ms| - 1], ms[|ms| - 1];
      assert ms == init + [last];
      InsertPermutes(init, x);
    }
  }

  /** Inserting into an ascending list keeps it ascending. */
  lemma {:induction false} InsertSorted(ms: seq<MonthStart>, x: MonthStart)
    requires SortedByStart(ms)
    ensures SortedByStart(InsertByStart(ms, x))
  {
    if |ms| > 0 && ms[|ms| - 1].start > x.start {
      var init, last := ms[..|ms| - 1], ms[|ms| - 1];
      var r0 := InsertByStart(init, x);
      InsertSorted(init, x);
      InsertPermutes(init, x);
      forall e | e in r0
        ensures e.start <= last.start
      {
        assert e in multiset(r0);
        if e != x {
          assert e in init;
        }
      }
      var r := r0 + [last];
      forall i, j | 0 <= i < j < |r|
        ensures r[i].start <= r[j].start
      {
        if j < |r0| {
          assert r[i] == r0[i] && r[j] == r0[j];
        } else {
          assert r[i] in r0;
        }
      }
    }
  }

  /** `monthStarts.sort((a, b) => a.start - b.start)`, stable. */
  function SortByStart(ms: seq<MonthStart>): (r: seq<MonthStart>)
    ensures |r| == |ms|
  {
    if |ms| == 0 then []
    else InsertByStart(SortByStart(ms[..|ms| - 1]), ms[|ms| - 1])
  }

  /** The sort returns an ascending rearrangement of its input. */
  lemma {:induction false} SortSortsAndPermutes(ms: seq<MonthStart>)
    ensures multiset(SortByStart(ms)) == multiset(ms)
    ensures SortedByStart(SortByStart(ms))
  {
    if |ms| > 0 {
      var init := ms[..|ms| - 1];
      assert ms == init + [ms[|ms| - 1]];
      SortSortsAndPermutes(init);
      InsertPermutes(SortByStart(init), ms[|ms| - 1]);
      InsertSorted(SortByStart(init), ms[|ms| - 1]);
    }
  }

  /** The sort leaves a list already in ascending order as it is. */
  lemma {:induction false} SortKeepsSorted(ms: seq<MonthStart>)
    requires SortedByStart(ms)
    ensures SortByStart(ms) == ms
  {
    if |ms| > 0 {
      var init := ms[..|ms| - 1];
      assert SortedByStart(init);
      SortKeepsSorted(init);
      assert ms == init + [ms[|ms| - 1]];
    }
  }

  /** `monthStarts` after the sort. */
  function MonthStarts(cols: seq<seq<Day>>): seq<MonthStart> {
    var seed := Seed(cols);
    SortByStart(Scan(cols, FirstDated(cols, 0), seed, Keys(seed)))
  }

  // ------------------------------------------------------------ what the scan builds

  predicate DistinctKeys(ms: seq<MonthStart>) {
    forall i, j :: 0 <= i < j < |ms| ==> ms[i].key != ms[j].key
  }

  /** A start pushed for the month whose 1st lies in column c. */
  predicate PushedAt(cols: seq<seq<Day>>, c: int, e: MonthStart) {
    0 <= c < |cols| && Day1(cols[c]) == Some(e.key) && e.start == StartFor(cols[c], e.key, c) < |cols|
  }

  /** A start pushed for the month whose 1st lies in some column. */
  predicate Pushed(cols: seq<seq<Day>>, e: MonthStart) {
    exists c :: 0 <= c < |cols| && PushedAt(cols, c, e)
  }

  /** The step of the scan at column w when it pushes nothing. */
  lemma ScanSkips(cols: seq<seq<Day>>, w: nat, acc: seq<MonthStart>, seen: set<MonthKey>)
    requires w < |cols|
    requires Day1(cols[w]).None? || Day1(cols[w]).value in seen ||
             StartFor(cols[w], Day1(cols[w]).value, w) >= |cols|
    ensures Scan(cols, w, acc, seen) == Scan(cols, w + 1, acc, seen)
  {
  }

  /** The step of the scan at column w when it pushes the column's month. */
  lemma ScanPushes(cols: seq<seq<Day>>, w: nat, acc: seq<MonthStart>, seen: set<MonthKey>)
    requires w < |cols|
    requires Day1(cols[w]).Some? && Day1(cols[w]).value !in seen
    requires StartFor(cols[w], Day1(cols[w]).value, w) < |cols|
    ensures var k := Day1(cols[w]).value;
            Scan(cols, w, acc, seen) ==
              Scan(cols, w + 1, acc + [MonthStart(k, StartFor(cols[w], k, w))], seen + {k})
  {
  }

  lemma AppendSorted(acc: seq<MonthStart>, e: MonthStart)
    requires SortedByStart(acc)
    requires forall i :: 0 <= i < |acc| ==> acc[i].start <= e.start
    ensures SortedByStart(acc + [e])
  {
  }

  /** Starts come out ascending: the start pushed at column w is w or
      w + 1, at least every start pushed before. */
  lemma {:induction false} ScanSorted(cols: seq<seq<Day>>, w: nat, acc: seq<MonthStart>, seen: set<MonthKey>)
    requires w <= |cols|
    requires SortedByStart(acc)
    requires forall i :: 0 <= i < |acc| ==> acc[i].start <= w
    ensures SortedByStart(Scan(cols, w, acc, seen))
    decreases |cols| - w
  {
    if w < |cols| {
      var k := Day1(cols[w]);
      if k.None? || k.value in seen || StartFor(cols[w], k.value, w) >= |cols| {
        ScanSkips(cols, w, acc, seen);
        ScanSorted(cols, w + 1, acc, seen);
      } else {
        var e := MonthStart(k.value, StartFor(cols[w], k.value, w));
        ScanPushes(cols, w, acc, seen);
        AppendSorted(acc, e);
        var acc' := acc + [e];
        assert forall i :: 0 <= i < |acc'| ==> acc'[i].start <= w + 1;
        ScanSorted(cols, w + 1, acc', seen + {k.value});
      }
    }
  }

  /** Every start is a column of the grid. */
  lemma {:induction false} ScanInRange(cols: seq<seq<Day>>, w: nat, acc: seq<MonthStart>, seen: set<MonthKey>)
    requires w <= |cols|
    requires forall i :: 0 <= i < |acc| ==> acc[i].start < |cols|
    ensures forall i :: 0 <= i < |Scan(cols, w, acc, seen)| ==> Scan(cols, w, acc, seen)[i].start < |cols|
    decreases |cols| - w
  {
    if w < |cols| {
      var k := Day1(cols[w]);
      if k.None? || k.value in seen || StartFor(cols[w], k.value, w) >= |cols| {
        ScanSkips(cols, w, acc, seen);
        ScanInRange(cols, w + 1, acc, seen);
      } else {
        var e := MonthStart(k.value, StartFor(cols[w], k.value, w));
        ScanPushes(cols, w, acc, seen);
        var acc' := acc + [e];
        assert forall i :: 0 <= i < |acc'| ==> acc'[i].start < |cols|;
        ScanInRange(cols, w + 1, acc', seen + {k.value});
      }
    }
  }

  lemma AppendDistinct(acc: seq<MonthStart>, e: MonthStart)
    requires DistinctKeys(acc) && e.key !in Keys(acc)
    ensures DistinctKeys(acc + [e])
    ensures Keys(acc + [e]) == Keys(acc) + {e.key}
  {
    var r := acc + [e];
    assert forall i :: 0 <= i < |acc| ==> r[i] == acc[i] && acc[i].key in Keys(acc);
    assert r[|acc|] == e;
  }

  /** No month gets two starts: `seen` holds exactly the months started. */
  lemma {:induction false} ScanDistinct(cols: seq<seq<Day>>, w: nat, acc: seq<MonthStart>, seen: set<MonthKey>)
    requires w <= |cols|
    requires DistinctKeys(acc) && seen == Keys(acc)
    ensures DistinctKeys(Scan(cols, w, acc, seen))
    decreases |cols| - w
  {
    if w < |cols| {
      var k := Day1(cols[w]);
      if k.None? || k.value in seen || StartFor(cols[w], k.value, w) >= |cols| {
        ScanSkips(cols, w, acc, seen);
        ScanDistinct(cols, w + 1, acc, seen);
      } else {
        var e := MonthStart(k.value, StartFor(cols[w], k.value, w));
        ScanPushes(cols, w, acc, seen);
        AppendDistinct(acc, e);
        ScanDistinct(cols, w + 1, acc + [e], seen + {k.value});
      }
    }
  }

  /** Each start the scan adds belongs to the month whose 1st lies in some
      column c from w on, and starts at c or c + 1 by the majority rule. */
  lemma {:induction false} ScanEntry(cols: seq<seq<Day>>, w: nat, acc: seq<MonthStart>, seen: set<MonthKey>, i: int)
    returns (c: int)
    requires w <= |cols|
    requires |acc| <= i < |Scan(cols, w, acc, seen)|
    ensures w <= c && PushedAt(cols, c, Scan(cols, w, acc, seen)[i])
    decreases |cols| - w
  {
    var k := Day1(cols[w]);
    if k.None? || k.value in seen || StartFor(cols[w], k.value, w) >= |cols| {
      ScanSkips(cols, w, acc, seen);
      c := ScanEntry(cols, w + 1, acc, seen, i);
    } else {
      var e := MonthStart(k.value, StartFor(cols[w], k.value, w));
      ScanPushes(cols, w, acc, seen);
      var acc' := acc + [e];
      if i == |acc| {
        var r := Scan(cols, w + 1, acc', seen + {k.value});
        assert r[..|acc'|] == acc';
        assert r[i] == e;
        c := w;
      } else {
        c := ScanEntry(cols, w + 1, acc', seen + {k.value}, i);
      }
    }
  }

  /** Conversely, a month whose 1st first appears in column c from w on,
      not yet seen, gets the start the majority rule gives it, unless that
      start falls past the last column. */
  lemma {:induction false} ScanComplete(cols: seq<seq<Day>>, w: nat, acc: seq<MonthStart>, seen: set<MonthKey>, c: int, k: MonthKey)
    requires w <= c < |cols|
    requires Day1(cols[c]) == Some(k) && k !in seen
    requires forall b :: w <= b < c ==> Day1(cols[b]) != Some(k)
    requires StartFor(cols[c], k, c) < |cols|
    ensures MonthStart(k, StartFor(cols[c], k, c)) in Scan(cols, w, acc, seen)
    decreases c - w
  {
    var d := Day1(cols[w]);
    if w == c {
      var e := MonthStart(k, StartFor(cols[c], k, c));
      ScanPushes(cols, w, acc, seen);
      var acc' := acc + [e];
      var r := Scan(cols, w + 1, acc', seen + {k});
      assert r[..|acc'|] == acc';
      assert r[|acc|] == e;
    } else if d.None? || d.value in seen || StartFor(cols[w], d.value, w) >= |cols| {
      ScanSkips(cols, w, acc, seen);
      ScanComplete(cols, w + 1, acc, seen, c, k);
    } else {
      ScanPushes(cols, w, acc, seen);
      var e := MonthStart(d.value, StartFor(cols[w], d.value, w));
      ScanComplete(cols, w + 1, acc + [e], seen + {d.value}, c, k);
    }
  }

  /** The scan only appends, so its starts are already in ascending order
      and the sort leaves them as they are. */
  lemma SortChangesNothing(cols: seq<seq<Day>>)
    ensures var seed := Seed(cols);
            MonthStarts(cols) == Scan(cols, FirstDated(cols, 0), seed, Keys(seed))
  {
    var seed := Seed(cols);
    var r := Scan(cols, FirstDated(cols, 0), seed, Keys(seed));
    ScanSorted(cols, FirstDated(cols, 0), seed, Keys(seed));
    SortKeepsSorted(r);
  }

  /** The starts ascend; every start is a column of the grid; no month has
      two starts; the seed comes first; and every later start belongs to the
      month whose 1st lies in its column or the one before. */
  lemma MonthStartsShape(cols: seq<seq<Day>>)
    ensures var ms := MonthStarts(cols);
            && SortedByStart(ms)
            && (forall i :: 0 <= i < |ms| ==> ms[i].start < |cols|)
            && DistinctKeys(ms)
            && ms[..|Seed(cols)|] == Seed(cols)
            && (forall i :: |Seed(cols)| <= i < |ms| ==> Pushed(cols, ms[i]))
  {
    var seed := Seed(cols);
    var f := FirstDated(cols, 0);
    var r := Scan(cols, f, seed, Keys(seed));
    SortChangesNothing(cols);
    assert MonthStarts(cols) == r;
    ScanSorted(cols, f, seed, Keys(seed));
    ScanInRange(cols, f, seed, Keys(seed));
    ScanDistinct(cols, f, seed, Keys(seed));
    forall i | |seed| <= i < |r|
      ensures Pushed(cols, r[i])
    {
      var c := ScanEntry(cols, f, seed, Keys(seed), i);
    }
  }

  /** The seed's start is kept among the month starts. */
  lemma SeedKept(cols: seq<seq<Day>>)
    ensures forall i :: 0 <= i < |Seed(cols)| ==> Seed(cols)[i] in MonthStarts(cols)
  {
    var seed := Seed(cols);
    var r := Scan(cols, FirstDated(cols, 0), seed, Keys(seed));
    SortChangesNothing(cols);
    assert forall i :: 0 <= i < |seed| ==> r[i] == r[..|seed|][i];
  }

  /** Every month whose 1st lies in a dated column gets a start: the seed's
      month at the first dated column, any other month at the column the
      majority rule picks for the first column holding its 1st, unless that
      column is past the last. */
  lemma MonthStartsComplete(cols: seq<seq<Day>>, c: int, k: MonthKey)
    requires FirstDated(cols, 0) <= c < |cols|
    requires Day1(cols[c]) == Some(k) && k !in Keys(Seed(cols))
    requires forall b :: FirstDated(cols, 0) <= b < c ==> Day1(cols[b]) != Some(k)
    requires StartFor(cols[c], k, c) < |cols|
    ensures MonthStart(k, StartFor(cols[c], k, c)) in MonthStarts(cols)
  {
    var seed := Seed(cols);
    var r := Scan(cols, FirstDated(cols, 0), seed, Keys(seed));
    ScanComplete(cols, FirstDated(cols, 0), seed, Keys(seed), c, k);
    SortSortsAndPermutes(r);
    assert MonthStart(k, StartFor(cols[c], k, c)) in multiset(r);
  }

  // ------------------------------------------------------------ headers

  /** The run of columns from c holding at least one cell of month k. */
  function Run(cols: seq<seq<Day>>, k: MonthKey, c: nat): (n: nat)
    requires c <= |cols|
    ensures c + n <= |cols|
    decreases |cols| - c
  {
    if c < |cols| && Count(cols[c], k) > 0 then 1 + Run(cols, k, c + 1) else 0
  }

  /** A run is maximal: every column in it holds the month, and the next
      column, if any, does not. */
  lemma {:induction false} RunIsMaximal(cols: seq<seq<Day>>, k: MonthKey, c: nat)
    requires c <= |cols|
    ensures forall i :: c <= i < c + Run(cols, k, c) ==> Count(cols[i], k) > 0
    ensures c + Run(cols, k, c) < |cols| ==> Count(cols[c + Run(cols, k, c)], k) == 0
    decreases |cols| - c
  {
    if c < |cols| && Count(cols[c], k) > 0 {
      RunIsMaximal(cols, k, c + 1);
    }
  }

  /** A run from c that reaches a column holding its month extends over
      it: header spans can therefore share a column with the next header. */
  lemma {:induction false} RunCovers(cols: seq<seq<Day>>, k: MonthKey, c: nat, e: nat)
    requires c <= e < |cols|
    requires forall i :: c <= i <= e ==> Count(cols[i], k) > 0
    ensures Run(cols, k, c) > e - c
    decreases e - c
  {
    if c < e {
      RunCovers(cols, k, c + 1, e);
    }
  }

  /** `labelDate`: the first cell of the first non-empty column in [c, end). */
  function LabelDay(cols: seq<seq<Day>>, c: nat, end: nat): (r: Option<Day>)
    requires c <= end <= |cols|
    ensures r.Some? <==> exists i :: c <= i < end && |cols[i]| > 0
    decreases end - c
  {
    if c == end then None
    else if |cols[c]| > 0 then Some(cols[c][0])
    else LabelDay(cols, c + 1, end)
  }

  /** The header for one entry of `monthStarts`, if it has a non-zero span.
      As written, the label is the month of `labelDate`; corrected, it is
      the month of the entry's own key. */
  function HeaderOf(policy: Policy, cols: seq<seq<Day>>, e: MonthStart): Option<Header> {
    if e.start >= |cols| then None
    else
      var span := Run(cols, e.key, e.start);
      if span == 0 then None
      else
        var day := LabelDay(cols, e.start, e.start + span);
        var month := if policy == AsWritten && day.Some? then day.value.key.month else e.key.month;
        Some(Header(e.start, span, month))
  }

  /** `monthHeaders`. */
  function Headers(policy: Policy, cols: seq<seq<Day>>, ms: seq<MonthStart>): seq<Header> {
    if |ms| == 0 then []
    else
      var h := HeaderOf(policy, cols, ms[0]);
      (if h.Some? then [h.value] else []) + Headers(policy, cols, ms[1..])
  }

  /** A header appears exactly when its start column holds a cell of its
      month; it spans the maximal run of such columns. As written its label
      is the month of the start column's first cell; corrected, it is the
      entry's month. */
  lemma HeaderOfEntry(policy: Policy, cols: seq<seq<Day>>, e: MonthStart)
    ensures HeaderOf(policy, cols, e).Some? <==> e.start < |cols| && Count(cols[e.start], e.key) > 0
    ensures HeaderOf(policy, cols, e).Some? ==>
              var h := HeaderOf(policy, cols, e).value;
              && h.start == e.start && h.span == Run(cols, e.key, e.start)
              && (forall i :: h.start <= i < h.start + h.span ==> Count(cols[i], e.key) > 0)
              && (h.start + h.span < |cols| ==> Count(cols[h.start + h.span], e.key) == 0)
              && h.title == (if policy == AsWritten then cols[e.start][0].key.month else e.key.month)
  {
    if e.start < |cols| {
      RunIsMaximal(cols, e.key, e.start);
      if Count(cols[e.start], e.key) > 0 {
        assert |cols[e.start]| > 0;
      }
    }
  }

  /** Corrected headers carry their own month's label, and every header's
      start column holds a cell of that month. */
  lemma CorrectedLabelNamesMonth(cols: seq<seq<Day>>, ms: seq<MonthStart>)
    ensures |Headers(Corrected, cols, ms)| <= |ms|
    ensures forall h :: h in Headers(Corrected, cols, ms) ==>
              exists e :: e in ms && h.start == e.start < |cols| && h.title == e.key.month && Count(cols[e.start], e.key) > 0
  {
    if |ms| > 0 {
      HeaderOfEntry(Corrected, cols, ms[0]);
      CorrectedLabelNamesMonth(cols, ms[1..]);
    }
  }

  // ------------------------------------------------------------ the real grid

  /** The Date object behind a dated cell. */
  function DayOf(n: int): (d: Day)
    ensures d.number == n
  {
    var dt := DateOf(n);
    Day(n, MonthKey(dt.year, dt.month), dt.day)
  }

  /** `grid[w].filter(d => d)`: the days of a column, in weekday order. */
  function Present(col: seq<Option<int>>): (r: seq<int>)
    ensures |r| <= |col|
  {
    if |col| == 0 then []
    else (if col[0].Some? then [col[0].value] else []) + Present(col[1..])
  }

  /** A column dated on rows [lo, hi) with consecutive days lists them. */
  lemma {:induction false} PresentRange(col: seq<Option<int>>, lo: int, hi: int, base: int)
    requires 0 <= lo <= hi <= |col|
    requires forall i :: 0 <= i < |col| ==> col[i] == if lo <= i < hi then Some(base + i) else None
    ensures |Present(col)| == hi - lo
    ensures forall j :: 0 <= j < hi - lo ==> Present(col)[j] == base + lo + j
    decreases |col|
  {
    if |col| > 0 {
      var rest := col[1..];
      assert forall i :: 0 <= i < |rest| ==> rest[i] == col[i + 1];
      if lo == 0 && hi == 0 {
        PresentRange(rest, 0, 0, base + 1);
      } else if lo == 0 {
        PresentRange(rest, 0, hi - 1, base + 1);
      } else {
        PresentRange(rest, lo - 1, hi - 1, base + 1);
      }
    }
  }

  /** The Date objects of a list of days. */
  function Describe(p: seq<int>): (ds: seq<Day>)
    ensures |ds| == |p|
    ensures forall i :: 0 <= i < |p| ==> ds[i] == DayOf(p[i])
  {
    seq(|p|, i requires 0 <= i < |p| => DayOf(p[i]))
  }

  /** The column statistics' input: each column's dated cells as Days. */
  function Columns(today: int): (cols: seq<seq<Day>>)
    ensures |cols| == WeekCount(today)
    ensures forall w :: 0 <= w < |cols| ==> cols[w] == Describe(Present(Layout(today)[w]))
  {
    var grid := Layout(today);
    seq(|grid|, w requires 0 <= w < |grid| => Describe(Present(grid[w])))
  }

  /** Column w lists, in order, the days of its week that fall in the window. */
  lemma ColumnDays(today: int, w: int, lo: int, hi: int)
    requires 0 <= w < WeekCount(today)
    requires 0 <= lo <= hi <= 7
    requires forall i :: 0 <= i < 7 ==> (CellAt(today, w, i).Some? <==> lo <= i < hi)
    ensures |Present(Layout(today)[w])| == hi - lo
    ensures forall j :: 0 <= j < hi - lo ==> Present(Layout(today)[w])[j] == FirstGridDay(today) + 7 * w + lo + j
  {
    var col := Layout(today)[w];
    var base := FirstGridDay(today) + 7 * w;
    forall i | 0 <= i < |col|
      ensures col[i] == if lo <= i < hi then Some(base + i) else None
    {
      assert col[i] == CellAt(today, w, i);
    }
    PresentRange(col, lo, hi, base);
  }

  /** The first dated column is column 0, seeded with the start day's month. */
  lemma FirstColumnSeeds(today: int)
    ensures FirstDated(Columns(today), 0) == 0
    ensures Seed(Columns(today)) == [MonthStart(DayOf(StartDay(today)).key, 0)]
  {
    var sw := Weekday(StartDay(today));
    ColumnDays(today, 0, sw, 7);
    assert Columns(today)[0][0] == DayOf(StartDay(today));
  }

  function PreviousMonth(m: int): int {
    if m == 1 then 12 else m - 1
  }

  /** The cell of a valid date's day number shows that date. */
  lemma DayOfDate(q: Date, m: int)
    requires ValidDate(q) && m == DayNumber(q)
    ensures DayOf(m).key == MonthKey(q.year, q.month) && DayOf(m).date == q.day
  {
    DateOfDayNumber(q);
  }

  /** The days m from a month's 1st up to 27 later keep its month, and
      only the 1st itself is a 1st. */
  lemma AfterFirst(dt: Date, n: int, m: int)
    requires ValidDate(dt) && dt.day == 1 && n == DayNumber(dt)
    requires n <= m <= n + 27
    ensures DayOf(m).key == MonthKey(dt.year, dt.month)
    ensures DayOf(m).date == 1 <==> m == n
  {
    var q := Date(dt.year, dt.month, 1 + m - n);
    assert ValidDate(q);
    DayOfDate(q, m);
  }

  /** The days m up to 27 before a month's 1st belong to the previous
      month, and none of them is a 1st. */
  lemma BeforeFirst(dt: Date, n: int, m: int)
    requires ValidDate(dt) && dt.day == 1 && n == DayNumber(dt)
    requires n - 27 <= m < n
    ensures DayOf(m).key.month == PreviousMonth(dt.month)
    ensures DayOf(m).date != 1
  {
    if dt.month == 1 {
      YearLength(dt.year - 1);
      DayOfDate(Date(dt.year - 1, 12, 32 + m - n), m);
    } else {
      var q := Date(dt.year, dt.month - 1, DaysInMonth(dt.year, dt.month - 1) + 1 + m - n);
      assert ValidDate(q);
      DayOfDate(q, m);
    }
  }

  /** Cells of month k exactly from row j on: j others, the rest k. */
  lemma {:induction false} CountFromRow(ds: seq<Day>, k: MonthKey, j: nat)
    requires j <= |ds|
    requires forall i :: 0 <= i < |ds| ==> (ds[i].key == k <==> j <= i)
    ensures Count(ds, k) == |ds| - j && Others(ds, k) == j
    decreases |ds|
  {
    if |ds| > 0 {
      var rest := ds[1..];
      assert forall i :: 0 <= i < |rest| ==> rest[i] == ds[i + 1];
      CountFromRow(rest, k, if j == 0 then 0 else j - 1);
    }
  }

  /** The one 1st of a column is its day-1 key. */
  lemma OnlyFirst(ds: seq<Day>, j: int)
    requires 0 <= j < |ds| && ds[j].date == 1
    requires forall i :: 0 <= i < |ds| && i != j ==> ds[i].date != 1
    ensures Day1(ds) == Some(ds[j].key)
  {
  }

  /** A day m within a week of dt, the 1st of a month on day n. */
  lemma NearFirst(d: Day, m: int, n: int, dt: Date)
    requires d == DayOf(m)
    requires ValidDate(dt) && dt.day == 1 && DayNumber(dt) == n
    requires n - 6 <= m <= n + 6
    ensures d.key == MonthKey(dt.year, dt.month) <==> n <= m
    ensures d.date == 1 <==> m == n
    ensures m < n ==> d.key.month == PreviousMonth(dt.month)
  {
    if m < n {
      BeforeFirst(dt, n, m);
    } else {
      AfterFirst(dt, n, m);
    }
  }

  /** A full column of the real grid whose row j is the 1st of dt's month:
      rows from j on hold dt's month, earlier rows the previous month, and
      row j is the column's only 1st. */
  lemma FullColumnAroundFirst(today: int, w: int, j: int, dt: Date)
    requires 0 <= w < WeekCount(today)
    requires StartDay(today) <= FirstGridDay(today) + 7 * w
    requires FirstGridDay(today) + 7 * w + 6 <= today
    requires 1 <= j <= 3
    requires ValidDate(dt) && dt.day == 1 && DayNumber(dt) == FirstGridDay(today) + 7 * w + j
    ensures var ds := Columns(today)[w];
            && |ds| == 7
            && (forall i :: 0 <= i < 7 ==> (ds[i].key == MonthKey(dt.year, dt.month) <==> j <= i))
            && (forall i :: 0 <= i < 7 ==> (ds[i].date == 1 <==> i == j))
            && ds[0].key.month == PreviousMonth(dt.month)
  {
    var base := FirstGridDay(today) + 7 * w;
    ColumnDays(today, w, 0, 7);
    var p := Present(Layout(today)[w]);
    var ds := Columns(today)[w];
    var n := DayNumber(dt);
    forall i | 0 <= i < 7
      ensures ds[i].key == MonthKey(dt.year, dt.month) <==> j <= i
      ensures ds[i].date == 1 <==> i == j
      ensures i == 0 ==> ds[i].key.month == PreviousMonth(dt.month)
    {
      NearFirst(ds[i], p[i], n, dt);
    }
  }

  /** A full column of seven cells whose row j (1..3) is the only 1st,
      with the rows from j on in that 1st's month k: k holds the majority,
      so its header starts at this column; as written the header takes the
      month of row 0, corrected it names k. */
  lemma MajorityMonthHeader(cols: seq<seq<Day>>, w: nat, j: int, k: MonthKey, before: int)
    requires w < |cols| && |cols[w]| == 7 && 1 <= j <= 3
    requires forall i :: 0 <= i < 7 ==> (cols[w][i].key == k <==> j <= i)
    requires forall i :: 0 <= i < 7 ==> (cols[w][i].date == 1 <==> i == j)
    requires cols[w][0].key.month == before
    ensures Day1(cols[w]) == Some(k)
    ensures StartFor(cols[w], k, w) == w
    ensures HeaderOf(AsWritten, cols, MonthStart(k, w)).Some?
    ensures HeaderOf(AsWritten, cols, MonthStart(k, w)).value.title == before
    ensures HeaderOf(Corrected, cols, MonthStart(k, w)).Some?
    ensures HeaderOf(Corrected, cols, MonthStart(k, w)).value.title == k.month
  {
    var ds := cols[w];
    OnlyFirst(ds, j);
    CountFromRow(ds, k, j);
    HeaderOfEntry(AsWritten, cols, MonthStart(k, w));
    HeaderOfEntry(Corrected, cols, MonthStart(k, w));
  }

  /** A full week column whose month begins on a Monday, Tuesday or
      Wednesday: the new month holds the majority, so its header starts at
      this column; the column's first cell still belongs to the previous
      month, so the header as written is labelled with the previous month,
      while the corrected label names the month itself. */
  lemma MidweekMonthMislabelled(today: int, w: int, j: int)
    requires 0 <= w < WeekCount(today)
    requires StartDay(today) <= FirstGridDay(today) + 7 * w
    requires FirstGridDay(today) + 7 * w + 6 <= today
    requires 1 <= j <= 3 && DateOf(FirstGridDay(today) + 7 * w + j).day == 1
    ensures var cols := Columns(today);
            var dt := DateOf(FirstGridDay(today) + 7 * w + j);
            var k := MonthKey(dt.year, dt.month);
            && Day1(cols[w]) == Some(k)
            && StartFor(cols[w], k, w) == w
            && HeaderOf(AsWritten, cols, MonthStart(k, w)).Some?
            && HeaderOf(AsWritten, cols, MonthStart(k, w)).value.title == PreviousMonth(k.month)
            && HeaderOf(Corrected, cols, MonthStart(k, w)).Some?
            && HeaderOf(Corrected, cols, MonthStart(k, w)).value.title == k.month
  {
    var dt := DateOf(FirstGridDay(today) + 7 * w + j);
    FullColumnAroundFirst(today, w, j, dt);
    MajorityMonthHeader(Columns(today), w, j, MonthKey(dt.year, dt.month), PreviousMonth(dt.month));
  }

  /** A column holding a cell of month k counts it. */
  lemma {:induction false} CountPositive(ds: seq<Day>, k: MonthKey, i: int)
    requires 0 <= i < |ds| && ds[i].key == k
    ensures Count(ds, k) > 0
  {
    if i > 0 {
      CountPositive(ds[1..], k, i - 1);
    }
  }

  /** A column of seven cells holding month k from row j >= 1 on: the month
      p of row 0 differs from k, and a span of p reaching the column before
      covers this column too, where k's header starts. */
  lemma SpansShare(policy: Policy, cols: seq<seq<Day>>, w: int, j: int, k: MonthKey, s: int)
    requires 0 <= s <= w < |cols| && |cols[w]| == 7 && 1 <= j <= 3
    requires forall i :: 0 <= i < 7 ==> (cols[w][i].key == k <==> j <= i)
    requires Run(cols, cols[w][0].key, s) >= w - s
    ensures var p := cols[w][0].key;
            && p != k
            && HeaderOf(policy, cols, MonthStart(p, s)).Some?
            && HeaderOf(policy, cols, MonthStart(p, s)).value.start <= w
            && w < HeaderOf(policy, cols, MonthStart(p, s)).value.start + HeaderOf(policy, cols, MonthStart(p, s)).value.span
            && HeaderOf(policy, cols, MonthStart(k, w)).Some?
            && HeaderOf(policy, cols, MonthStart(k, w)).value.start == w
  {
    var p := cols[w][0].key;
    CountPositive(cols[w], p, 0);
    RunIsMaximal(cols, p, s);
    CountFromRow(cols[w], k, j);
    HeaderOfEntry(policy, cols, MonthStart(p, s));
    HeaderOfEntry(policy, cols, MonthStart(k, w));
  }

  /** The days between two days of one month belong to that month. */
  lemma SameMonthBetween(a: int, m: int, b: int)
    requires a <= m <= b && DayOf(a).key == DayOf(b).key
    ensures DayOf(m).key == DayOf(a).key
  {
    var da, db := DateOf(a), DateOf(b);
    assert b - a == db.day - da.day;
    var q := Date(da.year, da.month, da.day + m - a);
    assert ValidDate(q) && DayNumber(q) == m;
    DayOfDate(q, m);
  }

  /** No day of a month comes before its 1st. */
  lemma FirstIsEarliest(m: int, n: int)
    requires DayOf(n).date == 1 && DayOf(m).key == DayOf(n).key
    ensures n <= m
  {
    var dm, dn := DateOf(m), DateOf(n);
    assert m - n == dm.day - 1;
  }

  /** The 1st of the month of day n, as a day number. */
  lemma FirstOfMonth(n: int) returns (n0: int)
    ensures n0 <= n && DayOf(n0).date == 1 && DayOf(n0).key == DayOf(n).key
  {
    var dt := DateOf(n);
    var q := Date(dt.year, dt.month, 1);
    n0 := n - (dt.day - 1);
    assert ValidDate(q) && DayNumber(q) == n0;
    DayOfDate(q, n0);
  }

  /** Column i of the real grid lists the days of its week from row lo up
      to row hi: those that fall in the window. */
  lemma ColumnSpan(today: int, i: int) returns (lo: int, hi: int)
    requires 0 <= i < WeekCount(today)
    ensures lo == if StartDay(today) > FirstGridDay(today) + 7 * i then StartDay(today) - FirstGridDay(today) - 7 * i else 0
    ensures hi == if today < FirstGridDay(today) + 7 * i + 6 then today - FirstGridDay(today) - 7 * i + 1 else 7
    ensures 0 <= lo < hi <= 7
    ensures |Columns(today)[i]| == hi - lo
    ensures forall x :: 0 <= x < hi - lo ==>
              && Columns(today)[i][x].number == FirstGridDay(today) + 7 * i + lo + x
              && Columns(today)[i][x] == DayOf(Columns(today)[i][x].number)
  {
    var base := FirstGridDay(today) + 7 * i;
    lo := if StartDay(today) > base then StartDay(today) - base else 0;
    hi := if today < base + 6 then today - base + 1 else 7;
    assert base <= FirstGridDay(today) + 364 <= today;
    forall r | 0 <= r < 7
      ensures CellAt(today, i, r).Some? <==> lo <= r < hi
    {
      assert CursorDay(today, 7 * i + r) == base + r;
    }
    ColumnDays(today, i, lo, hi);
    var p := Present(Layout(today)[i]);
    assert Columns(today)[i] == Describe(p);
  }

  /** A day of the window is counted for its month in its week's column. */
  lemma DayCounted(today: int, i: int, m: int)
    requires 0 <= i < WeekCount(today)
    requires FirstGridDay(today) + 7 * i <= m <= FirstGridDay(today) + 7 * i + 6
    requires StartDay(today) <= m <= today
    ensures Count(Columns(today)[i], DayOf(m).key) > 0
  {
    var lo, hi := ColumnSpan(today, i);
    var x := m - FirstGridDay(today) - 7 * i - lo;
    CountPositive(Columns(today)[i], DayOf(m).key, x);
  }

  /** The month of a 1st on day n has no 1st in a column before n's week. */
  lemma NoEarlierFirst(today: int, c: int, n: int)
    requires 0 <= c <= WeekCount(today)
    requires FirstGridDay(today) + 7 * c <= n && DayOf(n).date == 1
    ensures forall b :: 0 <= b < c ==> Day1(Columns(today)[b]) != Some(DayOf(n).key)
  {
    forall b | 0 <= b < c
      ensures Day1(Columns(today)[b]) != Some(DayOf(n).key)
    {
      var lo, hi := ColumnSpan(today, b);
      forall x | 0 <= x < hi - lo
        ensures Columns(today)[b][x].key != DayOf(n).key
      {
        var m := Columns(today)[b][x].number;
        if DayOf(m).key == DayOf(n).key {
          FirstIsEarliest(m, n);
        }
      }
    }
  }

  /** The month of a 1st after the start day is not the seed's month. */
  lemma NotSeeded(today: int, n: int)
    requires StartDay(today) < n && DayOf(n).date == 1
    ensures DayOf(n).key !in Keys(Seed(Columns(today)))
  {
    FirstColumnSeeds(today);
    if DayOf(n).key == DayOf(StartDay(today)).key {
      FirstIsEarliest(StartDay(today), n);
    }
  }

  /** The month of day b, in column w, holds every column from s to w
      when it already holds a day a of the window no later than column s. */
  lemma MonthHoldsColumns(today: int, s: int, w: int, a: int, b: int)
    requires 0 <= s <= w < WeekCount(today)
    requires StartDay(today) <= a <= FirstGridDay(today) + 7 * s + 6
    requires FirstGridDay(today) + 7 * w <= b <= FirstGridDay(today) + 7 * w + 6 && b <= today
    requires a <= b && DayOf(a).key == DayOf(b).key
    ensures Run(Columns(today), DayOf(b).key, s) > w - s
  {
    var f := FirstGridDay(today);
    forall i | s <= i <= w
      ensures Count(Columns(today)[i], DayOf(b).key) > 0
    {
      var m := if a > f + 7 * i then a else if b < f + 7 * i then b else f + 7 * i;
      SameMonthBetween(a, m, b);
      DayCounted(today, i, m);
    }
    RunCovers(Columns(today), DayOf(b).key, s, w);
  }

  /** The one 1st in its week's column: there it is the day-1 key. */
  lemma FirstInColumn(today: int, c: int, n0: int) returns (x: int)
    requires 0 <= c < WeekCount(today)
    requires FirstGridDay(today) + 7 * c <= n0 <= FirstGridDay(today) + 7 * c + 6
    requires StartDay(today) <= n0 <= today && DayOf(n0).date == 1
    ensures 0 <= x < |Columns(today)[c]| && Columns(today)[c][x] == DayOf(n0)
    ensures Day1(Columns(today)[c]) == Some(DayOf(n0).key)
  {
    var ds := Columns(today)[c];
    var f := FirstGridDay(today);
    var lo, hi := ColumnSpan(today, c);
    x := n0 - f - 7 * c - lo;
    forall y | 0 <= y < hi - lo && y != x
      ensures ds[y].date != 1
    {
      NearFirst(ds[y], ds[y].number, n0, DateOf(n0));
    }
    OnlyFirst(ds, x);
  }

  /** The start day a's month starts at column 0 of the real grid. */
  lemma SeedStart(today: int, a: int)
    requires a == StartDay(today)
    ensures MonthStart(DayOf(a).key, 0) in MonthStarts(Columns(today))
  {
    FirstColumnSeeds(today);
    SeedKept(Columns(today));
    assert Seed(Columns(today))[0] == MonthStart(DayOf(a).key, 0);
  }

  /** A month already running on the start day a and still running on day
      b, the first of column w: its start is the seed, at column 0, and its
      run from there reaches column w. */
  lemma SeededMonthStart(today: int, w: int, a: int, b: int)
    requires 0 <= w < WeekCount(today)
    requires a == StartDay(today) && b == FirstGridDay(today) + 7 * w
    requires a <= b && b + 6 <= today
    requires DayOf(a).key == DayOf(b).key
    ensures MonthStart(DayOf(b).key, 0) in MonthStarts(Columns(today))
    ensures Run(Columns(today), DayOf(b).key, 0) > w
  {
    SeedStart(today, a);
    MonthHoldsColumns(today, 0, w, a, b);
  }

  /** The column of the real grid holding a day of the window. */
  lemma WeekOf(today: int, n: int) returns (c: int)
    requires StartDay(today) <= n <= today
    ensures 0 <= c < WeekCount(today)
    ensures FirstGridDay(today) + 7 * c <= n <= FirstGridDay(today) + 7 * c + 6
  {
    c := (n - FirstGridDay(today)) / 7;
  }

  /** The scan first meets the 1st n0, a day of the window after the start
      day, in n0's own column: the month is not the seed's, and no earlier
      column holds its 1st. */
  lemma FirstFoundAt(today: int, c: int, n0: int)
    requires 0 <= c < WeekCount(today)
    requires FirstGridDay(today) + 7 * c <= n0 <= FirstGridDay(today) + 7 * c + 6
    requires StartDay(today) < n0 <= today && DayOf(n0).date == 1
    ensures FirstDated(Columns(today), 0) == 0
    ensures Day1(Columns(today)[c]) == Some(DayOf(n0).key)
    ensures DayOf(n0).key !in Keys(Seed(Columns(today)))
    ensures forall b :: 0 <= b < c ==> Day1(Columns(today)[b]) != Some(DayOf(n0).key)
  {
    var x := FirstInColumn(today, c, n0);
    NotSeeded(today, n0);
    FirstColumnSeeds(today);
    NoEarlierFirst(today, c, n0);
  }

  /** A month whose 1st, day n0, falls in the window after the start day
      and before the last column gets a start: at n0's column, or at the
      next when the month does not hold the majority there. */
  lemma PushedStart(today: int, c: int, n0: int) returns (s: nat)
    requires 0 <= c && c + 1 < WeekCount(today)
    requires FirstGridDay(today) + 7 * c <= n0 <= FirstGridDay(today) + 7 * c + 6
    requires StartDay(today) < n0 <= today && DayOf(n0).date == 1
    ensures c <= s <= c + 1
    ensures MonthStart(DayOf(n0).key, s) in MonthStarts(Columns(today))
  {
    var cols := Columns(today);
    FirstFoundAt(today, c, n0);
    s := StartFor(cols[c], DayOf(n0).key, c);
    MonthStartsComplete(cols, c, DayOf(n0).key);
  }

  /** A month whose 1st n0 falls after the start day, at least a week
      before day b, the first of column w: its start is the one pushed for
      n0's column, and its run from there reaches column w. */
  lemma PushedMonthStart(today: int, w: int, n0: int, b: int) returns (s: nat)
    requires 0 <= w < WeekCount(today)
    requires StartDay(today) < n0 && n0 + 7 <= b
    requires b == FirstGridDay(today) + 7 * w && b + 6 <= today
    requires DayOf(n0).date == 1 && DayOf(n0).key == DayOf(b).key
    ensures s <= w
    ensures MonthStart(DayOf(b).key, s) in MonthStarts(Columns(today))
    ensures Run(Columns(today), DayOf(b).key, s) > w - s
  {
    var c := WeekOf(today, n0);
    s := PushedStart(today, c, n0);
    MonthHoldsColumns(today, s, w, n0, b);
  }

  /** The month of day b, the first of a full column w in which a later
      month begins (on day n1), has a start among the real month starts,
      at or before column w, and its run from there reaches column w. */
  lemma PreviousMonthStart(today: int, w: int, a: int, b: int, n1: int) returns (s: nat)
    requires 0 <= w < WeekCount(today)
    requires a == StartDay(today) && b == FirstGridDay(today) + 7 * w
    requires a <= b && b + 6 <= today
    requires b < n1 <= b + 3 && DayOf(n1).date == 1
    ensures s <= w
    ensures MonthStart(DayOf(b).key, s) in MonthStarts(Columns(today))
    ensures Run(Columns(today), DayOf(b).key, s) > w - s
  {
    var n0 := FirstOfMonth(b);
    if n0 <= a {
      SameMonthBetween(n0, a, b);
      s := 0;
      SeededMonthStart(today, w, a, b);
    } else {
      if n1 - 27 <= n0 {
        BeforeFirst(DateOf(n1), n1, n0);
      }
      s := PushedMonthStart(today, w, n0, b);
    }
  }

  /** The month of a full column's first cell, when a later month begins
      on date dt in that column: it has a start among the real month starts,
      at or before the column, and its run from there reaches the column. */
  lemma ColumnMonthStart(today: int, w: int, dt: Date) returns (s: nat)
    requires 0 <= w < WeekCount(today)
    requires StartDay(today) <= FirstGridDay(today) + 7 * w
    requires FirstGridDay(today) + 7 * w + 6 <= today
    requires ValidDate(dt) && dt.day == 1
    requires FirstGridDay(today) + 7 * w < DayNumber(dt) <= FirstGridDay(today) + 7 * w + 3
    ensures |Columns(today)[w]| == 7 && s <= w
    ensures MonthStart(Columns(today)[w][0].key, s) in MonthStarts(Columns(today))
    ensures Run(Columns(today), Columns(today)[w][0].key, s) > w - s
  {
    var lo, hi := ColumnSpan(today, w);
    var d := Columns(today)[w][0];
    var n1 := DayNumber(dt);
    DayOfDate(dt, n1);
    s := PreviousMonthStart(today, w, StartDay(today), d.number, n1);
  }

  /** A month whose 1st, dt, lies in column w and whose header the
      majority rule starts there is among the real month starts. */
  lemma NewMonthStart(today: int, w: int, dt: Date)
    requires 0 <= w < WeekCount(today)
    requires ValidDate(dt) && dt.day == 1
    requires StartDay(today) < DayNumber(dt) && FirstGridDay(today) + 7 * w <= DayNumber(dt)
    requires Day1(Columns(today)[w]) == Some(MonthKey(dt.year, dt.month))
    requires StartFor(Columns(today)[w], MonthKey(dt.year, dt.month), w) == w
    ensures MonthStart(MonthKey(dt.year, dt.month), w) in MonthStarts(Columns(today))
  {
    var n1 := DayNumber(dt);
    DayOfDate(dt, n1);
    NotSeeded(today, n1);
    FirstColumnSeeds(today);
    NoEarlierFirst(today, w, n1);
    MonthStartsComplete(Columns(today), w, DayOf(n1).key);
  }

  /** In a column where a month begins on a Monday, Tuesday or Wednesday,
      the previous month's header and the new month's header meet: both
      months are among the real month starts, the new month's header
      starts at this column, and the previous month's header, from its own
      start, also covers this column. */
  lemma MidweekSpansShareColumn(policy: Policy, today: int, w: int, j: int) returns (s: nat)
    requires 0 <= w < WeekCount(today)
    requires StartDay(today) <= FirstGridDay(today) + 7 * w
    requires FirstGridDay(today) + 7 * w + 6 <= today
    requires 1 <= j <= 3 && DateOf(FirstGridDay(today) + 7 * w + j).day == 1
    ensures var cols := Columns(today);
            var dt := DateOf(FirstGridDay(today) + 7 * w + j);
            var k := MonthKey(dt.year, dt.month);
            && |cols[w]| == 7
            && var p := cols[w][0].key;
            && p.month == PreviousMonth(k.month)
            && MonthStart(p, s) in MonthStarts(cols)
            && MonthStart(k, w) in MonthStarts(cols)
            && HeaderOf(policy, cols, MonthStart(p, s)).Some?
            && HeaderOf(policy, cols, MonthStart(p, s)).value.start <= w
            && w < HeaderOf(policy, cols, MonthStart(p, s)).value.start + HeaderOf(policy, cols, MonthStart(p, s)).value.span
            && HeaderOf(policy, cols, MonthStart(k, w)).Some?
            && HeaderOf(policy, cols, MonthStart(k, w)).value.start == w
  {
    var cols := Columns(today);
    var dt := DateOf(FirstGridDay(today) + 7 * w + j);
    var k := MonthKey(dt.year, dt.month);
    FullColumnAroundFirst(today, w, j, dt);
    s := ColumnMonthStart(today, w, dt);
    MajorityMonthHeader(cols, w, j, k, PreviousMonth(k.month));
    NewMonthStart(today, w, dt);
    SpansShare(policy, cols, w, j, k, s);
  }
}

=== FILE: portfolio.dfy ===
/** The portfolio page's data handling (script.js): the five-second
    project cache, the category filter, validation of the submission form,
    the admin-only guard on submitting, and the auto-refresh timer with
    its periodic tick.

    The network, the clock and the DOM are parameters: a fetch is an
    `Outcome`, `Date.now()` an integer, and whether the page has its
    container or form a boolean.
 */
module Portfolio {
  import opened JsValues

  const CacheDuration: int := 5000
  const RefreshInterval: int := 10000

  // ------------------------------------------------------------ loading

  /** `cachedProjects` (null until a fetch succeeds) and `lastFetchTime`. */
  datatype Cache = Cache(projects: Option<seq<Record>>, fetchedAt: int)

  const InitialCache: Cache := Cache(None, 0)

  /** What the request for approved projects came to. Every failure (a
      network error, a status that is not ok, a body that is not JSON,
      `success` false, no `data` object) ends in the same catch; otherwise
      the body's `projects` field, None when it is falsy. */
  datatype Outcome = Failed | Loaded(projects: Option<seq<Record>>)

  /** What `loadProjects` returns, the cache it leaves, whether it went to
      the network, and whether it put up the failure message. */
  datatype Load = Load(projects: seq<Record>, cache: Cache, requested: bool, failureShown: bool)

  /** The early return: a non-forced call within five seconds of a
      successful fetch reuses its list. */
  predicate Fresh(force: bool, now: int, cache: Cache) {
    !force && now - cache.fetchedAt < CacheDuration && cache.projects.Some?
  }

  /** `loadProjects(force)` called at `now`, whose fetch (if it makes one)
      has the given outcome and completes at `doneAt`. */
  function LoadProjects(force: bool, now: int, cache: Cache, hasContainer: bool, outcome: Outcome, doneAt: int): (r: Load)
    ensures r.requested <==> !Fresh(force, now, cache) && hasContainer
    ensures Fresh(force, now, cache) ==> r.projects == cache.projects.value
    ensures r.cache != cache ==> r.requested && outcome.Loaded? && r.cache == Cache(Some(r.projects), doneAt)
    ensures r.requested && outcome.Loaded? ==> r.cache.fetchedAt == doneAt && r.cache.projects == Some(r.projects)
    ensures r.requested && outcome.Loaded? ==>
              r.projects == (if outcome.projects.Some? then outcome.projects.value else [])
    ensures !Fresh(force, now, cache) && (!hasContainer || outcome.Failed?) ==> r.projects == [] && r.cache == cache
    ensures r.failureShown <==> r.requested && outcome.Failed?
  {
    if Fresh(force, now, cache) then Load(cache.projects.value, cache, false, false)
    else if !hasContainer then Load([], cache, false, false)
    else match outcome
      case Failed => Load([], cache, true, true)
      case Loaded(ps) =>
        var projects := if ps.Some? then ps.value else [];
        Load(projects, Cache(Some(projects), doneAt), true, false)
  }

  /** A successful fetch is reused, without going to the network, by every
      non-forced call in the next five seconds, whatever that call's
      container or network would have done. */
  lemma CachedListReused(force: bool, now: int, cache: Cache, outcome: Outcome, doneAt: int,
                         later: int, hasContainer': bool, outcome': Outcome, doneAt': int)
    requires LoadProjects(force, now, cache, true, outcome, doneAt).requested && outcome.Loaded?
    requires doneAt <= later < doneAt + CacheDuration
    ensures var first := LoadProjects(force, now, cache, true, outcome, doneAt);
            var second := LoadProjects(false, later, first.cache, hasContainer', outcome', doneAt');
            !second.requested && second.projects == first.projects && second.cache == first.cache
  {
  }

  /** A forced load on a page with a container always goes to the network. */
  lemma ForcedLoadRequests(now: int, cache: Cache, outcome: Outcome, doneAt: int)
    ensures LoadProjects(true, now, cache, true, outcome, doneAt).requested
  {
  }

  // ------------------------------------------------------------ filtering

  /** `project.category === category`: the field is exactly that text. */
  predicate InCategory(p: Record, category: string) {
    Get(p, "category") == Str(category)
  }

  /** `projects.filter(...)` from position `from` on. */
  function MatchFrom(ps: seq<Record>, category: string, from: nat): (r: seq<Record>)
    requires from <= |ps|
    ensures |r| <= |ps| - from
    ensures forall j :: 0 <= j < |r| ==> InCategory(r[j], category)
    decreases |ps| - from
  {
    if from == |ps| then []
    else (if InCategory(ps[from], category) then [ps[from]] else []) + MatchFrom(ps, category, from + 1)
  }

  /** The list a filter button shows: the category is the button's trimmed
      text, and `All` shows everything. */
  function FilterByCategory(ps: seq<Record>, buttonText: string): (r: seq<Record>)
    ensures Trim(buttonText) == "All" ==> r == ps
    ensures Trim(buttonText) != "All" ==> forall j :: 0 <= j < |r| ==> InCategory(r[j], Trim(buttonText))
  {
    var category := Trim(buttonText);
    if category == "All" then ps else MatchFrom(ps, category, 0)
  }

  /** The positions from `from` on whose project is in the category. */
  function Positions(ps: seq<Record>, category: string, from: nat): (idx: seq<int>)
    requires from <= |ps|
    ensures forall j :: 0 <= j < |idx| ==> from <= idx[j] < |ps|
    decreases |ps| - from
  {
    if from == |ps| then []
    else (if InCategory(ps[from], category) then [from] else []) + Positions(ps, category, from + 1)
  }

  predicate Ascending(idx: seq<int>) {
    forall j, k :: 0 <= j < k < |idx| ==> idx[j] < idx[k]
  }

  /** The positions are listed in ascending order. */
  lemma {:induction false} PositionsAscending(ps: seq<Record>, category: string, from: nat)
    requires from <= |ps|
    ensures Ascending(Positions(ps, category, from))
    decreases |ps| - from
  {
    if from < |ps| {
      PositionsAscending(ps, category, from + 1);
      var tail := Positions(ps, category, from + 1);
      if InCategory(ps[from], category) {
        assert Positions(ps, category, from) == [from] + tail;
        PrependAscending(from, tail);
      } else {
        assert Positions(ps, category, from) == tail;
      }
    }
  }

  lemma PrependAscending(x: int, tail: seq<int>)
    requires Ascending(tail) && forall j :: 0 <= j < |tail| ==> x < tail[j]
    ensures Ascending([x] + tail)
  {
    var idx := [x] + tail;
    forall j, k | 0 <= j < k < |idx|
      ensures idx[j] < idx[k]
    {
      assert idx[k] == tail[k - 1];
      if j > 0 {
        assert idx[j] == tail[j - 1];
      }
    }
  }

  /** The positions are those of the projects in the category, all of
      them and only them. */
  lemma {:induction false} PositionsExact(ps: seq<Record>, category: string, from: nat)
    requires from <= |ps|
    ensures forall i :: from <= i < |ps| ==> (i in Positions(ps, category, from) <==> InCategory(ps[i], category))
    decreases |ps| - from
  {
    if from < |ps| {
      PositionsExact(ps, category, from + 1);
      var tail := Positions(ps, category, from + 1);
      assert forall i :: i in tail ==> from < i;
      if InCategory(ps[from], category) {
        assert Positions(ps, category, from) == [from] + tail;
      } else {
        assert Positions(ps, category, from) == tail;
      }
    }
  }

  /** The filter keeps exactly the projects at the matching positions, in
      their original order. */
  lemma {:induction false} MatchIsPositions(ps: seq<Record>, category: string, from: nat)
    requires from <= |ps|
    ensures |MatchFrom(ps, category, from)| == |Positions(ps, category, from)|
    ensures forall j :: 0 <= j < |MatchFrom(ps, category, from)| ==>
              MatchFrom(ps, category, from)[j] == ps[Positions(ps, category, from)[j]]
    decreases |ps| - from
  {
    if from < |ps| {
      MatchIsPositions(ps, category, from + 1);
      var m, idx := MatchFrom(ps, category, from + 1), Positions(ps, category, from + 1);
      if InCategory(ps[from], category) {
        var m0, idx0 := [ps[from]] + m, [from] + idx;
        assert MatchFrom(ps, category, from) == m0 && Positions(ps, category, from) == idx0;
        forall j | 0 <= j < |m0|
          ensures m0[j] == ps[idx0[j]]
        {
          if j > 0 {
            assert m0[j] == m[j - 1] && idx0[j] == idx[j - 1];
          }
        }
      } else {
        assert MatchFrom(ps, category, from) == m && Positions(ps, category, from) == idx;
      }
    }
  }

  /** Any category other than `All` shows the projects of exactly that
      category, in the order the list has them. */
  lemma FilterIsOrderedSelection(ps: seq<Record>, buttonText: string)
    requires Trim(buttonText) != "All"
    ensures var r := FilterByCategory(ps, buttonText);
            var idx := Positions(ps, Trim(buttonText), 0);
            && |r| == |idx|
            && (forall j :: 0 <= j < |r| ==> r[j] == ps[idx[j]])
            && Ascending(idx)
            && (forall i :: 0 <= i < |ps| ==> (i in idx <==> InCategory(ps[i], Trim(buttonText))))
  {
    MatchIsPositions(ps, Trim(buttonText), 0);
    PositionsAscending(ps, Trim(buttonText), 0);
    PositionsExact(ps, Trim(buttonText), 0);
  }

  // ------------------------------------------------------------ submitting

  /** The four text inputs of the submission form, as typed. */
  datatype Form = Form(name: string, category: string, description: string, link: string)

  /** `projectData`: the trimmed inputs and the status every submission
      starts with. */
  datatype Submission = Submission(name: string, category: string, description: string, link: string, status: string)

  const MissingFields: string := "Please fill in all required fields."
  const Pending: string := "pending"

  /** Collecting and validating the form. */
  function Validate(f: Form): (r: Result<Submission>)
    ensures r.Ok? <==> Trim(f.name) != "" && Trim(f.category) != "" && Trim(f.description) != "" && Trim(f.link) != ""
    ensures r.Ok? ==> r.value.status == Pending
    ensures r.Ok? ==> r.value.name == Trim(f.name) && r.value.category == Trim(f.category)
                      && r.value.description == Trim(f.description) && r.value.link == Trim(f.link)
    ensures r.Err? ==> r.message == MissingFields
  {
    var data := Submission(Trim(f.name), Trim(f.category), Trim(f.description), Trim(f.link), Pending);
    if data.name == "" || data.category == "" || data.description == "" || data.link == "" then Err(MissingFields)
    else Ok(data)
  }

  /** The form the accepted submission would be typed as. */
  function FormOf(s: Submission): Form {
    Form(s.name, s.category, s.description, s.link)
  }

  /** Typing an accepted submission back into the form is accepted and
      gives the same submission: validation is idempotent. */
  lemma ValidateIdempotent(f: Form)
    requires Validate(f).Ok?
    ensures Validate(FormOf(Validate(f).value)) == Validate(f)
  {
    TrimIdempotent(f.name);
    TrimIdempotent(f.category);
    TrimIdempotent(f.description);
    TrimIdempotent(f.link);
  }

  const AdminOnly: string := "Project submission is only available in the admin panel"
  const AddFailed: string := "Failed to add project."

  /** The query `addProject` sends: its action and the submission. */
  datatype Request = Request(action: string, data: Submission)

  /** `addProject(data)` on a page that is or is not the admin panel,
      whose request does or does not get through. */
  function AddProject(isAdmin: bool, data: Submission, delivered: bool): (r: Result<Request>)
    ensures !isAdmin ==> r == Err(AdminOnly)
    ensures r.Ok? <==> isAdmin && delivered
    ensures r.Ok? ==> r.value == Request("addProject", data)
    ensures isAdmin && !delivered ==> r == Err(AddFailed)
  {
    if !isAdmin then Err(AdminOnly)
    else if !delivered then Err(AddFailed)
    else Ok(Request("addProject", data))
  }

  datatype Kind = Success | Error

  /** A notification the page shows. */
  datatype Notice = Notice(message: string, kind: Kind)

  const Submitted: string := "Project submitted successfully! It will be visible after approval."

  /** The submit handler, attached only when the page has the form and is
      the admin panel; None when there is no handler to run. */
  function Submit(hasForm: bool, isAdmin: bool, f: Form, delivered: bool): (n: Option<Notice>)
    ensures n.Some? <==> hasForm && isAdmin
    ensures n.Some? ==> (n.value.kind == Success <==> Validate(f).Ok? && delivered)
    ensures n.Some? && Validate(f).Err? ==> n.value == Notice(MissingFields, Error)
    ensures n.Some? ==> n.value.message != AdminOnly
  {
    if !(hasForm && isAdmin) then None
    else match Validate(f)
      case Err(m) => Some(Notice(m, Error))
      case Ok(data) =>
        match AddProject(isAdmin, data, delivered)
        case Ok(_) => Some(Notice(Submitted, Success))
        case Err(m) => Some(Notice(m, Error))
  }

  // ------------------------------------------------------------ the refresh timer

  /** `refreshTimer` as the page holds it, the intervals the host is
      running, and the handle the next `setInterval` returns. Handles are
      positive, as browsers issue them, so `if (refreshTimer)` is the same
      as asking whether one is held. */
  datatype Timers = Timers(held: Option<nat>, running: set<nat>, next: nat)

  const NoTimers: Timers := Timers(None, {}, 1)

  /** The host runs exactly the interval the page holds, if any, and has
      not issued the next handle yet. */
  predicate TimersOk(t: Timers) {
    && t.running == (if t.held.Some? then {t.held.value} else {})
    && t.next >= 1
    && (t.held.Some? ==> 1 <= t.held.value < t.next)
  }

  /** `startAutoRefresh()`. */
  function Start(t: Timers): (r: Timers)
    ensures r.held.Some?
    ensures t.held.Some? ==> r == t
    ensures TimersOk(t) ==> TimersOk(r)
  {
    if t.held.Some? then t
    else Timers(Some(t.next), t.running + {t.next}, t.next + 1)
  }

  /** `stopAutoRefresh()`. */
  function Stop(t: Timers): (r: Timers)
    ensures r.held.None?
    ensures t.held.None? ==> r == t
    ensures TimersOk(t) ==> TimersOk(r) && r.running == {}
  {
    if t.held.Some? then Timers(None, t.running - {t.held.value}, t.next) else t
  }

  /** Stopping and starting again leaves exactly one interval running. */
  lemma StopThenStart(t: Timers)
    requires TimersOk(t)
    ensures |Start(Stop(t)).running| == 1
  {
    var r := Start(Stop(t));
    assert r.running == {r.held.value};
  }

  /** What the page does to the timer: the initial start, and the
      visibility listener's stop when hidden and start when shown. */
  datatype TimerEvent = Begin | Hidden | Visible

  function OnTimerEvent(t: Timers, e: TimerEvent): Timers {
    match e
    case Begin => Start(t)
    case Hidden => Stop(t)
    case Visible => Start(t)
  }

  function Replay(t: Timers, es: seq<TimerEvent>): Timers
    decreases |es|
  {
    if |es| == 0 then t else Replay(OnTimerEvent(t, es[0]), es[1..])
  }

  /** However often the tab is hidden and shown, at most one interval
      ever runs, and it is the one the page holds. */
  lemma {:induction false} AtMostOneInterval(es: seq<TimerEvent>)
    ensures TimersOk(Replay(NoTimers, es))
    ensures |Replay(NoTimers, es).running| <= 1
  {
    ReplayKeepsTimersOk(NoTimers, es);
  }

  lemma {:induction false} ReplayKeepsTimersOk(t: Timers, es: seq<TimerEvent>)
    requires TimersOk(t)
    ensures TimersOk(Replay(t, es))
    decreases |es|
  {
    if |es| > 0 {
      ReplayKeepsTimersOk(OnTimerEvent(t, es[0]), es[1..]);
    }
  }

  // ------------------------------------------------------------ the tick

  /** After a tick's load: the count it records, the list it redisplays
      (if any), and whether it raised "Projects have been updated". */
  datatype TickResult = TickResult(lastCount: int, shown: Option<seq<Record>>, notified: bool)

  /** The tick as written: `lastProjectCount` is overwritten before the
      `currentCount < lastProjectCount` test, which is then always false. */
  function TickAsWritten(lastCount: int, projects: seq<Record>): (r: TickResult) {
    var current := |projects|;
    if current != lastCount then
      var lastCount' := current;
      TickResult(lastCount', Some(projects), current < lastCount')
    else TickResult(lastCount, None, false)
  }

  /** The removal notification of the tick as written never fires. */
  lemma NotificationNeverFires(lastCount: int, projects: seq<Record>)
    ensures !TickAsWritten(lastCount, projects).notified
  {
  }

  /** A concrete case: three projects drop to none, the list is redrawn,
      and no notification appears. */
  lemma RemovalGoesUnannounced()
    ensures TickAsWritten(3, []) == TickResult(0, Some([]), false)
  {
  }

  /** The tick compared against the count before the update. */
  function TickCount(lastCount: int, projects: seq<Record>): (r: TickResult)
    ensures r.lastCount == |projects|
    ensures r.shown.Some? <==> |projects| != lastCount
    ensures r.shown.Some? ==> r.shown.value == projects
    ensures r.notified <==> |projects| < lastCount
  {
    var current := |projects|;
    if current != lastCount then TickResult(current, Some(projects), current < lastCount)
    else TickResult(lastCount, None, false)
  }

  /** The two ticks differ only in the notification. */
  lemma TicksAgreeButForNotice(lastCount: int, projects: seq<Record>)
    ensures TickAsWritten(lastCount, projects).lastCount == TickCount(lastCount, projects).lastCount
    ensures TickAsWritten(lastCount, projects).shown == TickCount(lastCount, projects).shown
    ensures TickAsWritten(lastCount, projects).notified != TickCount(lastCount, projects).notified <==>
              |projects| < lastCount
  {
  }

  /** The page state a tick reads and writes. */
  datatype Page = Page(cache: Cache, lastCount: int, shown: seq<Record>)

  /** One run of the interval callback: a non-forced load, then the count
      comparison. The load catches its own errors, so the callback's catch
      never runs. */
  function Tick(p: Page, now: int, hasContainer: bool, outcome: Outcome, doneAt: int): (r: (Page, bool))
    ensures var load := LoadProjects(false, now, p.cache, hasContainer, outcome, doneAt);
            && r.0.cache == load.cache
            && r.0.lastCount == |load.projects|
            && r.0.shown == (if |load.projects| != p.lastCount then load.projects else p.shown)
            && (r.1 <==> |load.projects| < p.lastCount)
  {
    var load := LoadProjects(false, now, p.cache, hasContainer, outcome, doneAt);
    var t := TickCount(p.lastCount, load.projects);
    (Page(load.cache, t.lastCount, if t.shown.Some? then t.shown.value else p.shown), t.notified)
  }

  /** Within five seconds of a fetch the tick reuses the cached list, so
      nothing changes when the count recorded is that list's length. */
  lemma QuietTickWithinCache(p: Page, now: int, hasContainer: bool, outcome: Outcome, doneAt: int)
    requires p.cache.projects.Some? && now - p.cache.fetchedAt < CacheDuration
    requires p.lastCount == |p.cache.projects.value|
    ensures Tick(p, now, hasContainer, outcome, doneAt) == (p, false)
  {
  }
}

=== FILE: theme.dfy ===
/** The floating theme switch (js/theme-toggle.js): the light/dark toggle
    with its icon and stored preference, and the drag that moves the
    switch and remembers where it was left.

    Storage and the document are fields of small state records; pointer
    positions are integer points.
 */
module Theme {
  import opened JsValues

  const Dark: string := "dark"
  const Light: string := "light"
  const SunIcon: string := "fas fa-sun"
  const MoonIcon: string := "fas fa-moon"

  // ------------------------------------------------------------ the theme

  /** The `data-theme` attribute (None when absent), the stored `theme`
      item, and the icon's class. */
  datatype Look = Look(attr: Option<string>, stored: Option<string>, icon: string)

  /** `updateIcon(theme)`: the sun in the dark theme, the moon otherwise. */
  function IconFor(theme: string): (icon: string)
    ensures icon == SunIcon <==> theme == Dark
    ensures icon == MoonIcon <==> theme != Dark
  {
    if theme == Dark then SunIcon else MoonIcon
  }

  /** The icon shows the theme the attribute names. */
  predicate IconMatches(l: Look) {
    l.attr.Some? ==> l.icon == IconFor(l.attr.value)
  }

  /** Restoring on load: a saved theme (a non-empty item) is applied with
      its icon; without one the attribute and icon of the markup stay. */
  function Restore(saved: Option<string>, markupAttr: Option<string>, markupIcon: string): (l: Look)
    ensures l.stored == saved
    ensures saved.Some? && saved.value != "" ==> l.attr == saved && l.icon == IconFor(saved.value)
    ensures !(saved.Some? && saved.value != "") ==> l.attr == markupAttr && l.icon == markupIcon
    ensures saved.Some? && saved.value != "" ==> IconMatches(l)
  {
    if saved.Some? && saved.value != "" then Look(saved, saved, IconFor(saved.value))
    else Look(markupAttr, saved, markupIcon)
  }

  /** `toggleTheme()`: dark becomes light, anything else (absent
      included) becomes dark; the new theme is stored and its icon shown. */
  function Toggle(l: Look): (r: Look)
    ensures r.attr == Some(if l.attr == Some(Dark) then Light else Dark)
    ensures r.stored == r.attr
    ensures IconMatches(r)
  {
    var next := if l.attr == Some(Dark) then Light else Dark;
    Look(Some(next), Some(next), IconFor(next))
  }

  /** From dark or light, toggling twice comes back; from no theme (or
      any other value), the first toggle goes to dark and the second to
      light. */
  lemma ToggleTwice(l: Look)
    ensures l.attr == Some(Dark) || l.attr == Some(Light) ==> Toggle(Toggle(l)).attr == l.attr
    ensures l.attr != Some(Dark) ==> Toggle(l).attr == Some(Dark) && Toggle(Toggle(l)).attr == Some(Light)
  {
  }

  /** Whatever came before, a toggle leaves the stored theme, the
      attribute and the icon in agreement, so a reload restores exactly
      what the page shows. */
  lemma ReloadAfterToggle(l: Look, markupAttr: Option<string>, markupIcon: string)
    ensures Restore(Toggle(l).stored, markupAttr, markupIcon) == Toggle(l)
  {
  }

  // ------------------------------------------------------------ dragging

  datatype Point = Point(x: int, y: int)

  function Plus(a: Point, b: Point): Point {
    Point(a.x + b.x, a.y + b.y)
  }

  function Minus(a: Point, b: Point): Point {
    Point(a.x - b.x, a.y - b.y)
  }

  /** `isDragging`, `(currentX, currentY)`, `(initialX, initialY)`,
      `(xOffset, yOffset)` and the stored position; `moved` records
      whether the switch has moved since the last press. */
  datatype Drag = Drag(dragging: bool, current: Point, initial: Point, offset: Point,
                       saved: Option<Point>, moved: bool)

  /** The state on load: a saved position becomes the offset. */
  function Load(saved: Option<Point>): (d: Drag)
    ensures !d.dragging
    ensures d.offset == if saved.Some? then saved.value else Point(0, 0)
  {
    Drag(false, Point(0, 0), Point(0, 0), if saved.Some? then saved.value else Point(0, 0), saved, false)
  }

  /** `dragStart` with the pointer at p (mouse or first touch). */
  function DragStart(d: Drag, p: Point): (r: Drag)
    ensures r.dragging && !r.moved
    ensures r.offset == d.offset && r.saved == d.saved
    ensures Plus(r.initial, r.offset) == p
  {
    Drag(true, d.current, Minus(p, d.offset), d.offset, d.saved, false)
  }

  /** `drag` with the pointer at p: nothing unless a drag is on. */
  function DragMove(d: Drag, p: Point): (r: Drag)
    ensures !d.dragging ==> r == d
    ensures d.dragging ==> r.dragging && r.offset == r.current && Plus(r.initial, r.offset) == p
    ensures r.initial == d.initial && r.saved == d.saved
  {
    if !d.dragging then d
    else
      var current := Minus(p, d.initial);
      Drag(true, current, d.initial, current, d.saved, d.moved || current != d.offset)
  }

  /** `dragEnd`: the drag is over and the current offset is stored. */
  function DragEnd(d: Drag): (r: Drag)
    ensures !r.dragging
    ensures r.offset == d.offset && r.saved == Some(d.offset)
    ensures r.moved == d.moved
  {
    Drag(false, d.current, d.current, d.offset, Some(d.offset), d.moved)
  }

  /** The pointer's path during a drag. */
  function Moves(d: Drag, ps: seq<Point>): Drag
    decreases |ps|
  {
    if |ps| == 0 then d else Moves(DragMove(d, ps[0]), ps[1..])
  }

  /** Pressing at s and moving along a path leaves the switch displaced
      from where it was by the pointer's total movement: the last point
      minus s. */
  lemma DragFollowsPointer(d: Drag, s: Point, ps: seq<Point>)
    requires |ps| > 0
    ensures Moves(DragStart(d, s), ps).offset == Plus(d.offset, Minus(ps[|ps| - 1], s))
  {
    MovesTrackLast(DragStart(d, s), ps);
  }

  /** During a drag, the offset after a path is set by its last point. */
  lemma {:induction false} MovesTrackLast(d: Drag, ps: seq<Point>)
    requires d.dragging && |ps| > 0
    ensures Moves(d, ps).dragging && Moves(d, ps).initial == d.initial
    ensures Plus(Moves(d, ps).initial, Moves(d, ps).offset) == ps[|ps| - 1]
    decreases |ps|
  {
    if |ps| > 1 {
      MovesTrackLast(DragMove(d, ps[0]), ps[1..]);
      assert ps[1..][|ps[1..]| - 1] == ps[|ps| - 1];
    }
  }

  /** Pointer movement with no drag on changes nothing. */
  lemma {:induction false} IdleMovesChangeNothing(d: Drag, ps: seq<Point>)
    requires !d.dragging
    ensures Moves(d, ps) == d
    decreases |ps|
  {
    if |ps| > 0 {
      IdleMovesChangeNothing(DragMove(d, ps[0]), ps[1..]);
    }
  }

  /** Where a finished drag leaves the switch is where the next load puts
      it. */
  lemma PositionSurvivesReload(d: Drag)
    ensures Load(DragEnd(d).saved).offset == DragEnd(d).offset == d.offset
  {
  }

  // ------------------------------------------------------------ clicking

  /** The click handler as written: it toggles unless a drag is on. */
  function ClickAsWritten(d: Drag, l: Look): Look {
    if !d.dragging then Toggle(l) else l
  }

  /** A click is dispatched after the mouseup that ends the drag, so the
      guard never holds: dragging the switch to a new place also flips
      the theme. */
  lemma DragAlsoToggles(d: Drag, s: Point, p: Point, l: Look)
    requires p != s
    ensures Moves(DragStart(d, s), [p]).offset != d.offset
    ensures ClickAsWritten(DragEnd(Moves(DragStart(d, s), [p])), l) == Toggle(l)
  {
  }

  /** The click handler as its comment describes it: a press that moved
      the switch is a drag, not a click. */
  function Click(d: Drag, l: Look): (r: Look)
    ensures d.dragging || d.moved ==> r == l
    ensures !d.dragging && !d.moved ==> r == Toggle(l)
  {
    if d.dragging || d.moved then l else Toggle(l)
  }

  /** With the flag, a press, a path and a release toggle the theme
      exactly when the switch never left its place. */
  lemma {:induction false} ClickOnlyWithoutMove(d: Drag, s: Point, ps: seq<Point>, l: Look)
    ensures var e := DragEnd(Moves(DragStart(d, s), ps));
            Click(e, l) == (if exists i :: 0 <= i < |ps| && ps[i] != s then l else Toggle(l))
  {
    MovedIffLeft(DragStart(d, s), s, ps);
  }

  /** During a drag pressed at s, the flag is set exactly when some point
      of the path differs from s. */
  lemma {:induction false} MovedIffLeft(d: Drag, s: Point, ps: seq<Point>)
    requires d.dragging && Plus(d.initial, d.offset) == s
    ensures Moves(d, ps).moved <==> d.moved || exists i :: 0 <= i < |ps| && ps[i] != s
    decreases |ps|
  {
    if |ps| > 0 {
      var d' := DragMove(d, ps[0]);
      assert d'.moved <==> d.moved || ps[0] != s;
      if ps[0] == s {
        MovedIffLeft(d', s, ps[1..]);
      } else {
        MovedStays(d', ps[1..]);
      }
      assert forall i :: 1 <= i < |ps| ==> ps[i] == ps[1..][i - 1];
    }
  }

  /** Once set, the flag stays set for the rest of the drag. */
  lemma {:induction false} MovedStays(d: Drag, ps: seq<Point>)
    requires d.moved
    ensures Moves(d, ps).moved
    decreases |ps|
  {
    if |ps| > 0 {
      MovedStays(DragMove(d, ps[0]), ps[1..]);
    }
  }
}

=== FILE: truncate.dfy ===
/** The preview of long project descriptions (`truncateProjectDescriptions`
    in js/tier2-visual-anchors.js). Lengths count characters.
 */
module Truncate {
  import opened JsValues

  /** The cut point the code uses (its doc comment says 120). */
  const TruncatePoint: int := 100

  const Ellipsis: string := "..."

  /** A cut of non-empty text that starts with a non-space keeps its first
      character when trimmed. */
  lemma TrimKeepsFirst(u: string)
    requires |u| > 0 && !IsJsWhitespace(u[0])
    ensures LeadingSpace(u) == 0
    ensures |Trim(u)| > 0 && Trim(u) == u[..|Trim(u)|]
  {
    LeadingSpaceZero(u);
  }

  /** What a card's description shows afterwards. Text that is at most 100
      characters once trimmed keeps its text as it was, surrounding space
      included; longer text becomes its first 100 characters, trimmed,
      followed by "...". */
  function Shown(text: string): (r: string)
    ensures |Trim(text)| <= TruncatePoint ==> r == text
    ensures |Trim(text)| > TruncatePoint ==>
              && 3 < |r| <= TruncatePoint + 3
              && r[|r| - 3..] == Ellipsis
              && r[..|r| - 3] == Trim(text)[..|r| - 3]
              && !IsJsWhitespace(r[0]) && !IsJsWhitespace(r[|r| - 4])
              && (forall i :: |r| - 3 <= i < TruncatePoint ==> IsJsWhitespace(Trim(text)[i]))
  {
    var full := Trim(text);
    if |full| > TruncatePoint then
      var cut := full[..TruncatePoint];
      TrimKeepsFirst(cut);
      var kept := Trim(cut);
      assert forall i :: |kept| <= i < TruncatePoint ==> cut[i] == full[i];
      kept + Ellipsis
    else text
  }

  /** A preview has no space at either end: trimming it changes nothing. */
  lemma PreviewTrimsToItself(text: string)
    requires |Trim(text)| > TruncatePoint
    ensures Trim(Shown(text)) == Shown(text)
  {
    var r := Shown(text);
    TrimOfTrimmed(r);
  }

  /** Descriptions the rule cuts and those it leaves alone, as one
      statement: the shown text starts with the same (trimmed) characters
      as the original. */
  lemma ShownStartsLikeText(text: string)
    requires |Trim(text)| > 0
    ensures var r := Shown(text);
            var k := if |Trim(text)| > TruncatePoint then |r| - 3 else |Trim(text)|;
            0 < k <= |Trim(text)| && Trim(r)[..k] == Trim(text)[..k]
  {
    var r := Shown(text);
    if |Trim(text)| > TruncatePoint {
      TrimOfTrimmed(r);
    }
  }
}
